=== FILE: README.md ===
# boilercore, modelled in Dafny

This project models the deterministic core of `boilercore`, the shared library of the
`boiler` research repositories, as pure Dafny functions over immutable datatypes, and
proves what that core promises. The filesystem, the YAML file, the notebook cache and
every foreign collaborator (YAML loader, notebook executor, hash digest, `Path.resolve`,
`datetime.fromisoformat`, the process runner) are explicit parameters or explicit state.

The parts modelled:

- **Path models** (`src/boilercore/models/__init__.py`):
  - `apply_to_paths` is in `pathvalues.dfy`.
  - The annotation walk `get_types` is in `annotations.dfy`.
  - The following are in `defaultpaths.dfy`:
    - the `DefaultPathsModel` subclass checks;
    - re-rooting of defaults and the `RelativeDefaultPathsSettingsSource`;
    - `CreatePathsModel.create_directories` over a filesystem of directories and files.
  - The YAML settings sources are in `yamlsync.dfy`: `get_yaml_file`, `DefaultPathsSettingsSource`, `NonPathsModelYamlConfigSettingsSource`, the schema's `required` edit, and the schema file.
- **The older snapshot** `src/boilercore/models.py` is in `legacymodels.dfy`, modelled as written and not reconciled with the newer one:
  - `pathfold` and `prefer_relative_path`;
  - `schema_extra` default folding;
  - both `get_params` variants, with the `|=` merge;
  - the `get_paths` of the synchronised model;
  - the older `create_directories`.
- **Argument hashing** (`src/boilercore/hashes.py`) is in `hashes.dfy`:
  - `freeze` over a tree of Python values;
  - `signature(...).bind` for plain positional-or-keyword parameters;
  - `hash_args`, whose final digest is a parameter.
- **Notebook namespaces** (`src/boilercore/notebooks/namespaces.py`) are in `namespaces.dfy`:
  - the attribute filter of `get_nb_ns`;
  - the memo cache of `get_cached_nb_ns`, modelled as a map threaded through a run of calls;
  - `AccessedAttributesVisitor` over a small expression tree;
  - `get_ns_attrs`.
- **Paths and modules** (`src/boilercore/paths.py`):
  - `modulenames.dfy` holds the module names, `get_module_rel`, the suffix patterns, the qualified names, `map_stages` over an explicit list of module paths, and `fold` with `shlex.quote`;
  - `isolike.dfy` holds `dt_fromisolike`, compared with the `date-time` grammar of section 5.6 of RFC 3339.
- **Parameter bookkeeping**:
  - `src/boilercore/fits.py` is in `fits.dfy`;
  - `src/boilercore/models/fit.py` is in `fitmodel.dfy`.
- **Trials** (`src/boilercore/models/trials.py`, in `trials.dfy`): run-stem parsing, sorting of run files, the run index and the thermocouple keying.
- **Settings models** (`src/boilercore/settings_models.py`, in `settingsmodels.dfy`): the settings paths, the YAML sources, the source order, the plugin settings and the schema sync.
- **Warning filters**:
  - `src/boilercore/__init__.py` and `src/boilercore/warnings.py` are in `warnings.dfy`.
- **Notebook helpers**:
  - the folding of `src/boilercore/notebooks/report.py` is in `report.dfy`;
  - the message composition of `run_process` in `src/boilercore/notebooks/__init__.py` is in `process.dfy`.

Supporting modules:

- `wrappers.dfy`: `Option`, and `Outcome`, a result or a Python exception.
- `text.dfy`: string helpers.
- `dict.dfy`: insertion-ordered dicts as sequences of pairs.
- `purepath.dfy`: `pathlib` paths as an anchor flag plus a sequence of segments.
- `filesystem.dfy`: sets of directories and a map of files, with `mkdir(parents=True, exist_ok=True)` and `touch`.

## Model

| member | source | states |
|---|---|---|
| PathValues.Apply | src/boilercore/models/__init__.py:384-399 | a path is mapped to `fun(path)`; a sequence becomes a list of the same length with `fun` applied in order; a mapping keeps exactly its keys in order; any other shape is a ValueError and only that shape fails |
| PathValues.ApplyCompose | src/boilercore/models/__init__.py:384-399 | applying `f` then `g` is applying their composition once |
| PathValues.ApplyLeaves | src/boilercore/models/__init__.py:384-399 | the leaves of the result are exactly `fun` of the input's leaves, in order |
| PathValues.TryApply | src/boilercore/models/__init__.py:384-399 | with a raising `fun` the traversal succeeds exactly when the shape is supported and no leaf raises, and then keeps the shape |
| PathValues.TryApplyTotal | src/boilercore/models/__init__.py:384-399 | when no leaf raises, the fallible traversal equals the plain one |
| PathValues.ApplyIdempotent | src/boilercore/models/__init__.py:384-399 | a leaf function that is idempotent makes the traversal idempotent |
| Annotations.Chain | src/boilercore/models/__init__.py:368-374 | `chain` reaches its second generator only when the first finished without raising |
| Annotations.GetTypesTotal | src/boilercore/models/__init__.py:357-381 | `get_types` runs to the end without raising exactly on supported annotations; these are Ellipsis, plain classes, mappings whose value type is supported, sequences whose arguments all are, annotated supported types, and other class generics with arguments |
| Annotations.GetTypesAllTotal | src/boilercore/models/__init__.py:370-371 | the chained walk over several arguments finishes exactly when every argument is supported |
| Annotations.GetTypesPathLike | src/boilercore/models/__init__.py:357-381 | every yielded leaf is a `Path` subclass and nothing raises exactly when the annotation is path-like |
| Annotations.GetTypesAllPathLike | src/boilercore/models/__init__.py:370-371 | the same over a list of arguments: all leaves are paths exactly when every argument is path-like |
| Annotations.GetTypesPlainMetadata | src/boilercore/models/__init__.py:357-369 | without `Annotated`, the leaves carry only the metadata passed in |
| Annotations.GetTypesAllPlainMetadata | src/boilercore/models/__init__.py:370-371 | without `Annotated` in any argument, the chained leaves carry no metadata |
| Annotations.AnnotatedLeaf | src/boilercore/models/__init__.py:372-374 | `Annotated[cls, *m]` yields `cls` once, carrying `m` in place of the outer metadata |
| DefaultPaths.FirstRejectionAccepts | src/boilercore/models/__init__.py:250-254 | the loop over the leaf types rejects nothing exactly when every leaf is a path and the walk did not raise, and otherwise raises "not Path-like" |
| DefaultPaths.CheckField | src/boilercore/models/__init__.py:250-254 | a field with no default raises ValueError before its types are examined |
| DefaultPaths.CheckFieldAccepts | src/boilercore/models/__init__.py:250-254 | a field passes exactly when it has a default and a path-like annotation |
| DefaultPaths.FirstFailing | src/boilercore/models/__init__.py:250-254 | a raising loop reports the first failing item, and every earlier item passed |
| DefaultPaths.CheckFields | src/boilercore/models/__init__.py:250-254 | the fields pass exactly when each passes; a failure is the first failing field's |
| DefaultPaths.InitSubclass | src/boilercore/models/__init__.py:244-255 | nothing is checked unless `root` has a default, and a relative default root raises |
| DefaultPaths.InitSubclassAccepts | src/boilercore/models/__init__.py:244-255 | a subclass is accepted exactly when `root` has no default, or else when `root` is absolute and path-like and every field has a default and a path-like annotation |
| DefaultPaths.ChecksAgree | src/boilercore/models/__init__.py:250-254 | a first-failure loop succeeds exactly when every item satisfies any predicate that agrees with the check |
| DefaultPaths.Reroot | src/boilercore/models/__init__.py:284-289 | `root / p.relative_to(default_root)` succeeds exactly when `p` is under the default root; the result lies under `root` at the same relative path; a missing default root cannot be divided |
| DefaultPaths.RerootIdentity | src/boilercore/models/__init__.py:284-289 | re-rooting at the default root itself returns the path unchanged |
| DefaultPaths.PassedRoot | src/boilercore/models/__init__.py:266-267 | the walrus test is Python truthiness: a missing root and a falsy one (`None` among them) both give no root-relative source; a truthy path passed there is the root used |
| DefaultPaths.NoneRootIsNoRoot | src/boilercore/models/__init__.py:266-301 | `root=None` in the init kwargs adds no root-relative source, and directory creation then falls back to the default root |
| DefaultPaths.ChosenRoot | src/boilercore/models/__init__.py:301 | a missing or falsy root gives the default root; a path passed there is the root chosen |
| DefaultPaths.RelativeDefaults | src/boilercore/models/__init__.py:278-290 | the source holds one entry per non-root field, in order, each the field's re-rooted default; it fails exactly when some default cannot be re-rooted |
| DefaultPaths.Sources | src/boilercore/models/__init__.py:257-272 | the init kwargs come first, and the re-rooted defaults are consulted only when a truthy root was passed |
| DefaultPaths.RelativeDefaultsIdentity | src/boilercore/models/__init__.py:278-290 | passing the default root reproduces every default |
| DefaultPaths.RerootValueIdentity | src/boilercore/models/__init__.py:284-289 | re-rooting a whole value at its own default root changes nothing |
| DefaultPaths.FieldMetadata | src/boilercore/models/__init__.py:306-311 | the field's own metadata is used when present; otherwise the result is the chained metadata of its leaf types, holding exactly what some leaf carries, which fails exactly on unsupported annotations |
| DefaultPaths.CreateLeaves | src/boilercore/models/__init__.py:323-330 | leaves are re-rooted in order; directories are made only for dir-tagged fields, and then every leaf and its ancestors exist; files never change |
| DefaultPaths.CreateValue | src/boilercore/models/__init__.py:312-330 | one field's value is re-rooted shape-preservingly; it fails exactly when re-rooting fails or a dir-tagged leaf is blocked by a file |
| DefaultPaths.CreateField | src/boilercore/models/__init__.py:306-318 | one field succeeds exactly when it is creatable; the field's value becomes its re-rooted default; the new directories are exactly that field's lineage |
| DefaultPaths.CreateFields | src/boilercore/models/__init__.py:305-320 | the loop succeeds exactly when every field is creatable; the directories added are the union over the fields; files are untouched |
| DefaultPaths.CreateDirectories | src/boilercore/models/__init__.py:296-320 | the model re-roots at the truthy passed root, else the default root, and succeeds exactly when every field is creatable there |
| DefaultPaths.CreateFieldsUpdates | src/boilercore/models/__init__.py:305-320 | the validator leaves `data` updated with exactly the entries the re-rooted settings source computes |
| DefaultPaths.CreateFieldsValues | src/boilercore/models/__init__.py:305-320 | every non-root field ends up with its re-rooted default even when a value was passed; every other key of `data` keeps its value |
| DefaultPaths.CreateFieldsFilesOnly | src/boilercore/models/__init__.py:305-320 | only the files decide whether the validator succeeds and what it returns; directories already present do not |
| DefaultPaths.CreateDirectoriesIdempotent | src/boilercore/models/__init__.py:296-330 | running the validator again on the filesystem it produced changes nothing |
| DefaultPaths.CreateDirectoriesAgreesWithSource | src/boilercore/models/__init__.py:266-320 | with a root passed in, the validator and the settings source agree on every non-root field, and `root` itself is untouched |
| YamlSync.Without | src/boilercore/models/__init__.py:52-53 | the filtered list lacks the removed name, keeps every other entry and adds none |
| YamlSync.WithoutAppend | src/boilercore/models/__init__.py:52-53 | removing a name keeps the others in their order, because removal distributes over concatenation |
| YamlSync.SchemaRequired | src/boilercore/models/__init__.py:50-53 | "source" is no longer required, and every other required name still is |
| YamlSync.SchemaPath | src/boilercore/models/__init__.py:73 | the schema file sits next to the source file and is named `<stem>_schema.json` |
| YamlSync.WriteSchema | src/boilercore/models/__init__.py:73-83 | only the schema file changes, and it receives the serialised schema plus a newline |
| YamlSync.YamlFile | src/boilercore/models/__init__.py:112-122 | a truthy init argument wins over the field default; a missing file is touched into existence; a `None` default is a ValueError, and the truthy undefined default of a required `source` reaches `Path(...)` and is a TypeError |
| YamlSync.DefaultPathsSource | src/boilercore/models/__init__.py:125-139 | only paths-model fields appear, each with a truthy value; a truthy init value wins over the truthy default, and a required field's undefined default counts as truthy |
| YamlSync.DefaultPathsSourceGet | src/boilercore/models/__init__.py:125-139 | with distinct field names the keys are distinct, and looking a paths-model field up gives its truthy init value, else its truthy default (a required field's undefined marker included), else nothing |
| YamlSync.PosixFor | src/boilercore/models/__init__.py:181-186 | a path is written relative to the YAML directory only when `source_relative` is on and the path lies under it; otherwise it is written in full |
| YamlSync.PosixForRoundTrip | src/boilercore/models/__init__.py:181-186 | reading a written path back against the YAML directory recovers the original path |
| YamlSync.SyncedEntries | src/boilercore/models/__init__.py:177-194 | every kept entry is mapped to POSIX strings under the same key, in order |
| YamlSync.SyncedPaths | src/boilercore/models/__init__.py:177-194 | a paths-model field is rewritten with every non-root field of its dump and never with `root` |
| YamlSync.SyncFields | src/boilercore/models/__init__.py:168-198 | the field loop succeeds exactly when every paths-model field has a stored mapping that is path-shaped; a missing entry is a KeyError, a stored marker or `None` an AttributeError at `.items()`, a value that is not a path, sequence or mapping a ValueError |
| YamlSync.SyncFieldsContents | src/boilercore/models/__init__.py:168-198 | with distinct field names, keys outside the fields are left alone, and each field's entries settle as that field's step sets them |
| YamlSync.PutGetOther | src/boilercore/models/__init__.py:177-198 | one field's step writes under its own name only; paths models are rewritten, truthy plain fields are forwarded |
| YamlSync.RuamelSource | src/boilercore/models/__init__.py:159-167 | a missing file or a falsy load is `{}`, a mapping is its entries, and a truthy load of another kind is a TypeError once indexed by field name |
| YamlSync.NonPathsYamlSource | src/boilercore/models/__init__.py:148-200 | the source succeeds exactly when ruamel's load can be indexed and every paths-model field can be synchronised against the YAML file's directory; a load that cannot be indexed fails first |
| YamlSync.RequiredPathsFieldRaises | src/boilercore/models/__init__.py:125-192 | a required paths-model field given no truthy init value is stored as the undefined marker, and the YAML source then fails |
| YamlSync.NonPathsYamlSourceContents | src/boilercore/models/__init__.py:159-200 | unknown keys pass through to both the kwargs and the file; plain fields are forwarded from pydantic-settings' own load of the file, only when truthy there; "source" and paths-model fields are never forwarded; paths-model fields are rewritten in the file |
| YamlSync.MissingFileForwardsNothing | src/boilercore/models/__init__.py:159 | a missing file is `{}` to both readers, so nothing is forwarded and only paths-model fields are written |
| LegacyModels.PreferRelative | src/boilercore/models.py:142-145 | a path under the working directory becomes relative and joins back to itself; any other path is unchanged |
| LegacyModels.PathFold | src/boilercore/models.py:137-139 | the folded string is the preferred path's text with each backslash turned into "/" and nothing else changed |
| LegacyModels.PathFoldRoundTrip | src/boilercore/models.py:137-145 | joining the folded string back to the working directory recovers the path |
| LegacyModels.PathFoldIdempotent | src/boilercore/models.py:137-145 | with an absolute working directory, folding twice is folding once |
| LegacyModels.NoBackslash | src/boilercore/models.py:137-139 | without backslashes, folding is just the preferred path's text |
| LegacyModels.FoldDefault | src/boilercore/models.py:105-113 | strings and containers are folded leaf by leaf, keeping their shape; any other default is a TypeError |
| LegacyModels.FoldDefaultIdempotent | src/boilercore/models.py:105-113 | folding a folded default changes nothing |
| LegacyModels.FoldFields | src/boilercore/models.py:98-113 | the folded defaults keep the field names in order, and folding fails exactly on a non-path field or an unsupported default |
| LegacyModels.FoldField | src/boilercore/models.py:78-113 | a field whose type is not a `Path` is a TypeError; any other field has its default folded |
| LegacyModels.PathsModelPaths | src/boilercore/models.py:91-120 | any required field is a TypeError; success means every field has a path type and a supported default; no backslash survives |
| LegacyModels.SyncPaths | src/boilercore/models.py:61-75 | the synchronised paths succeed exactly when every non-excluded paths-model field yields its paths |
| LegacyModels.SyncPathsEntries | src/boilercore/models.py:61-75 | the entries are exactly the non-excluded paths-model fields, each with its model's paths, under distinct keys |
| LegacyModels.PathsToYaml | src/boilercore/models.py:54-59 | the paths mapping becomes a YAML mapping with the same keys |
| LegacyModels.GetParams | src/boilercore/models.py:28-34 | a missing file or empty text gives `{}`; otherwise the file is parsed; a directory raises |
| LegacyModels.MergedParams | src/boilercore/models.py:54-56 | the merge needs a mapping from the file; a non-mapping load is a TypeError at `\|=` |
| LegacyModels.SyncGetParams | src/boilercore/models.py:54-59 | the merged mapping is returned and dumped back over the data file, which is the only file that changes |
| LegacyModels.SyncedFileReadsBack | src/boilercore/models.py:54-59 | when the dump reads back, loading the rewritten data file gives the merged mapping |
| LegacyModels.SyncGetParamsMerge | src/boilercore/models.py:54-59 | after the merge, paths-model fields hold their paths and every other key is as the file had it |
| LegacyModels.BlankFileBreaksSync | src/boilercore/models.py:28-59 | as written, a whitespace-only file loads as null and the merge raises |
| LegacyModels.GetParamsOrEmpty | src/boilercore/models.py:28-34 | the corrected load treats a falsy load as `{}` and otherwise agrees with the original |
| LegacyModels.SyncGetParamsOrEmpty | src/boilercore/models.py:54-56 | on the corrected load, the merge succeeds whenever the file holds a mapping or something falsy |
| LegacyModels.BlankFileSyncsWhenCorrected | src/boilercore/models.py:28-59 | on the corrected load, a blank file synchronises to exactly the paths-model entries |
| LegacyModels.LegacyCreateDirectories | src/boilercore/models.py:126-134 | the value is returned unchanged; an existing file is left alone; a path with a suffix gets its parent created and one without gets itself created |
| LegacyModels.LegacyCreateDirectoriesIdempotent | src/boilercore/models.py:126-134 | validating again on the state the validator left changes nothing |
| LegacyModels.YamlModelInit | src/boilercore/models.py:22-40 | the data file is loaded and only the sibling `<stem>_schema.json` changes; a load that is not a mapping raises TypeError at the `**` unpacking |
| LegacyModels.SyncYamlModelInit | src/boilercore/models.py:43-59 | the synchronised model rewrites the data file with the merged dump, then writes the schema; it fails exactly when either step does |
| Hashes.Freeze | src/boilercore/hashes.py:43-59 | hashable values are returned as they are; every result is hashable; a callable gives None once its source is found, OSError when it has none and TypeError when it is not inspectable; a value of any other kind is a TypeError |
| Hashes.FreezeAll | src/boilercore/hashes.py:54-55 | an iterable becomes a tuple of the same length with each element frozen in order, and the first failure propagates |
| Hashes.FreezeEntry | src/boilercore/hashes.py:50-53 | an entry becomes the pair of its unchanged key and its frozen value |
| Hashes.FreezeEntries | src/boilercore/hashes.py:50-53 | the entries are frozen in iteration order, one pair each |
| Hashes.FreezeIdempotent | src/boilercore/hashes.py:43-55 | freezing a frozen value returns it unchanged |
| Hashes.FreezeItemsLikeMapping | src/boilercore/hashes.py:50-53 | a mapping and its `items()` view freeze alike |
| Hashes.FreezeKeepsKeyOrder | src/boilercore/hashes.py:50-51 | mappings that freeze equal list the same keys in the same order |
| Hashes.FreezeOrderSensitive | src/boilercore/hashes.py:50-51 | equal dicts built in different orders freeze differently |
| Hashes.BindPositional | src/boilercore/hashes.py:37 | positional arguments fill the parameters in order; too many is a TypeError, and so is a keyword that repeats one of them |
| Hashes.BindKeywords | src/boilercore/hashes.py:37 | the remaining parameters take exactly the supplied keywords; a missing parameter without a default is an error |
| Hashes.FirstUnknown | src/boilercore/hashes.py:37 | an unexpected keyword is found exactly when some keyword names no parameter |
| Hashes.Bind | src/boilercore/hashes.py:37 | binding succeeds exactly when the arguments fit: not too many positionals, no keyword repeating a positional, every parameter without a default supplied, and no unknown keyword |
| Hashes.BindContents | src/boilercore/hashes.py:37 | a bind holds each positional argument under its parameter and each supplied keyword, and nothing else |
| Hashes.PositionalAsKeyword | src/boilercore/hashes.py:37 | passing the next argument by keyword instead of by position binds the same arguments |
| Hashes.FreezeValues | src/boilercore/hashes.py:39 | every bound value is frozen, keeping the names and their order |
| Hashes.HashArgs | src/boilercore/hashes.py:37-40 | hashing fails exactly when binding or freezing fails, and a bind error is reported as is |
| Hashes.HashArgsPositionalAsKeyword | src/boilercore/hashes.py:37-40 | the hash does not depend on whether an argument was passed by position or by keyword |
| Hashes.DefaultsNotApplied | src/boilercore/hashes.py:37 | defaults are not filled in: omitting a defaulted parameter and passing it explicitly bind differently |
| Namespaces.KeepAttributes | src/boilercore/notebooks/namespaces.py:60-65 | every kept name was both requested and present |
| Namespaces.KeepAttributesGet | src/boilercore/notebooks/namespaces.py:60-65 | a name is kept, with its value unaltered, exactly when it was requested and is bound to something other than None |
| Namespaces.FilterNamespace | src/boilercore/notebooks/namespaces.py:59-68 | an empty request returns the whole namespace; any other request returns a subset of it |
| Namespaces.FilterNamespaceGet | src/boilercore/notebooks/namespaces.py:60-66 | with a request, names that are missing or bound to None are dropped and kept values are unaltered |
| Namespaces.FilterOnlyA | tests/boilercore_tests/test_namespaces.py:42-52 | filtering `{a: 1, b: 2}` with `[a]` gives exactly `{a: 1}` |
| Namespaces.FilterEmpty | tests/boilercore_tests/test_namespaces.py:13-15 | an empty namespace stays empty |
| Namespaces.NoParamsRunsAsGiven | src/boilercore/notebooks/namespaces.py:56-57 | with no parameters the notebook is executed as given, whatever the parametrizer, and with no attributes the whole namespace is returned |
| Namespaces.GetNbNsRestricts | src/boilercore/notebooks/namespaces.py:59-68 | with attributes, a name is bound exactly when it is requested and bound to a non-None value in the full namespace, and then to that value |
| Namespaces.Serve | src/boilercore/notebooks/namespaces.py:72-99 | a stored result is returned without executing; otherwise the notebook executes once and the result is stored; no other entry changes |
| Namespaces.ServeAll | src/boilercore/notebooks/namespaces.py:72-99 | over a run of calls, each result is the stored entry for its key and stored entries never change |
| Namespaces.ExecutesOncePerKey | src/boilercore/notebooks/namespaces.py:72-99 | a run executes exactly once per argument hash that is not already cached |
| Namespaces.RepeatedCallsAgree | tests/boilercore_tests/test_namespaces.py:18-20 | repeated calls with the same argument hash return equal namespaces |
| Namespaces.StoredResultWins | src/boilercore/notebooks/namespaces.py:72-99 | a cached result is served as stored, whatever executing would now give |
| Namespaces.Clear | tests/boilercore_tests/test_namespaces.py:35-39 | after clearing, every call executes |
| Namespaces.CacheKey | src/boilercore/notebooks/namespaces.py:72 | the cache key is `hash_args` over the signature of `get_nb_ns` |
| Namespaces.CacheKeyPositionalOrKeyword | src/boilercore/notebooks/namespaces.py:72 | calls passing `params` by position and by keyword share a cache entry |
| Namespaces.VisitRecords | src/boilercore/notebooks/namespaces.py:107-116 | the visitor records an attribute for a name exactly when the tree contains an access to it on that bare name that is not a dunder, on top of what was already recorded |
| Namespaces.VisitAllRecords | src/boilercore/notebooks/namespaces.py:113-116 | visiting the children records exactly the accesses in any child |
| Namespaces.NsAttrsExact | src/boilercore/notebooks/namespaces.py:23-27 | `get_ns_attrs` returns exactly the attributes accessed on the bare name `ns` |
| Namespaces.ChainedAccessRecordsFirst | src/boilercore/notebooks/namespaces.py:113-116 | `ns.y.z` records `y` but not `z`, and dunder attributes are never recorded |
| ModuleNames.ModuleName | src/boilercore/paths.py:24-42 | a spec's name is its last dotted component; for a path, `__init__` and `__main__` give the parent directory's name and any other stem is the name |
| ModuleNames.InitNamedAfterPackage | src/boilercore/paths.py:31-32 | a package's `__init__.py` is named after its directory |
| ModuleNames.ModuleRel | src/boilercore/paths.py:135-143 | it raises ValueError exactly when `relative` does not occur; equal names give "."; otherwise everything up to the last anchored `relative.` is removed, and the name is unchanged if there is none |
| ModuleNames.ModuleRelChild | src/boilercore/paths.py:135-143 | a submodule of a package is named relative to it by dropping the package prefix |
| ModuleNames.UnescapeEscape | src/boilercore/paths.py:202-205 | unescaping undoes escaping |
| ModuleNames.SuffixReIdempotent | src/boilercore/paths.py:200-205 | the suffix pattern of a suffix pattern is itself |
| ModuleNames.SuffixReForms | src/boilercore/paths.py:200-205 | "py", ".py" and "\\.py" all give `\.py` |
| ModuleNames.SuffixesRe | src/boilercore/paths.py:191-197 | the alternation group lists the suffix patterns in input order; no suffixes is an IndexError |
| ModuleNames.ModulePath | src/boilercore/paths.py:164 | an `__init__` or `__main__` file stands for its directory |
| ModuleNames.QualifiedName | src/boilercore/paths.py:162-169 | the qualified name exists exactly when the module lies under the package's parent, and it contains no separators |
| ModuleNames.QualifiedNameDotted | src/boilercore/paths.py:162-169 | it is the dotted join of the relative directories and the stem |
| ModuleNames.QualifiedNameValue | src/boilercore/paths.py:162-169 | it is the suffix-free relative path with both separators turned into dots |
| ModuleNames.StageKey | src/boilercore/paths.py:126-131 | a module's stage key contains no dot, and the package itself has no key |
| ModuleNames.MapStages | src/boilercore/paths.py:122-132 | it succeeds exactly when every path has a relative name; the keys are exactly the stage keys of the paths, and no key contains a dot |
| ModuleNames.MapStagesGet | src/boilercore/paths.py:122-132 | every module other than the package is keyed by its relative name with dots turned into underscores |
| ModuleNames.Quote | src/boilercore/paths.py:230 | quoting never gives an empty word, and a non-empty string of safe characters is left as it is |
| ModuleNames.QuoteRoundTrip | src/boilercore/paths.py:230 | a POSIX shell reads the quoted word back as exactly the original string |
| ModuleNames.Fold | src/boilercore/paths.py:228-230 | the shell reads the folded word as the path (resolved when asked) with every backslash turned into "/" |
| IsoLike.OrZeros | src/boilercore/paths.py:48 | a missing or empty group becomes "00", and any other group is kept |
| IsoLike.TimeZone | src/boilercore/paths.py:51-56 | no time zone gives nothing, Z or z passes through, and any other zone is rebuilt as `sym hh:mm:ss.f` |
| IsoLike.IsoStringFields | src/boilercore/paths.py:57-65 | the assembled string holds the year, month, day, hour, minute and second at fixed positions between `-`, `T`, `:` and `.`, then the fraction and the time zone |
| IsoLike.OmittedIsZero | src/boilercore/paths.py:47-66 | an omitted hour, minute, second or fraction reads as zeros: the string and the date-time are those of the match with the zeros written in |
| IsoLike.DateAndSecondsLayout | src/boilercore/paths.py:57-64 | the assembled date and time read field by field, with a four-digit year built from the century and the decade |
| IsoLike.ZuluIsRfc3339 | src/boilercore/paths.py:45-66 | a matched date-time in UTC assembles into an RFC 3339 date-time |
| IsoLike.NumericOffsetNotRfc3339 | src/boilercore/paths.py:52-56 | a numeric offset comes out with seconds and a fraction, which RFC 3339 does not allow |
| IsoLike.HourOnlyZulu | tests/boilercore_tests/test_paths.py:17-27 | `20010101T01Z` is filled out to `2001-01-01T01:00:00.00Z` |
| IsoLike.DefaultCenturyMidnight | src/boilercore/paths.py:45-66 | without a century group the default century is used, and a missing time is midnight |
| IsoLike.DeltaFilledOut | tests/boilercore_tests/test_paths.py:17-27 | the offset `+01:01` becomes `+01:01:00.00` |
| Fits.ErrorNames | src/boilercore/fits.py:57-59 | each name gets "_err", keeping the length and the order |
| Fits.ParamOf | src/boilercore/fits.py:57-59 | a name has a parameter exactly when it ends in "_err" |
| Fits.ErrorNamesInvert | src/boilercore/fits.py:57-59 | every error name leads back to its parameter, so the error names are distinct exactly when the parameters are |
| Fits.ErrorNamesAppend | src/boilercore/fits.py:127-135 | naming errors distributes over concatenation |
| Fits.FixedValues | src/boilercore/fits.py:112-115 | the result holds exactly the entries of `values` whose key is fixed, in `values` order |
| Fits.ParamsAndErrorsPairs | src/boilercore/fits.py:127-135 | the list is the parameters followed by their errors, and the error at position `n + i` belongs to parameter `i` |
| Fits.Select | src/boilercore/fits.py:271-280 | guesses and bounds never outnumber the mapping |
| Fits.SelectFilters | src/boilercore/fits.py:271-280 | selecting is reading the values of the mapping filtered to the parameters, in mapping order |
| Fits.SelectAll | src/boilercore/fits.py:271-280 | when every key is a parameter, all values are selected in order |
| Fits.SelectFollowsMapping | src/boilercore/fits.py:271-280 | the mapping's order decides, not the order of the parameters |
| Fits.SelectNone | src/boilercore/fits.py:271-280 | nothing is selected when no key is a parameter |
| Fits.DefaultGuesses | src/boilercore/fits.py:271-275 | the default guesses are those of T_s, q_s and h_a, in that order |
| Fits.DefaultBounds | src/boilercore/fits.py:278-280 | the default bounds are those of T_s, q_s and h_a, in that order |
| Fits.FitFromParams | src/boilercore/fits.py:226-229 | fits are keyed by free parameter and errors by free error name; any length mismatch raises |
| Fits.ErrorValues | src/boilercore/fits.py:358 | every parameter's error is looked up in order, and the first missing one raises KeyError |
| Fits.ErrorOf | src/boilercore/fits.py:358 | a lookup succeeds exactly when the "_err" key is present |
| Fits.CombineParamsAndErrors | src/boilercore/fits.py:347-365 | every parameter needs its "_err" entry; the output keys are the parameter keys in order, each holding value, error and tag |
| Fits.CombineGet | src/boilercore/fits.py:347-365 | reading the combined mapping at a parameter gives its value, its error and its name |
| FitModel.Excluding | src/boilercore/models/fit.py:33 | filtering never lengthens the list |
| FitModel.ExcludingMembers | src/boilercore/models/fit.py:33 | an entry survives exactly when it is listed and not excluded |
| FitModel.ExcludingAppend | src/boilercore/models/fit.py:33 | removing keeps the survivors' relative order |
| FitModel.FreeParamsValue | src/boilercore/models/fit.py:13-33 | the free parameters are T_s, q_s and h_a |
| FitModel.FreeErrorsValue | src/boilercore/models/fit.py:33-35 | the free errors are T_s_err, q_s_err and h_a_err |
| FitModel.FixedErrorsValue | src/boilercore/models/fit.py:37 | the fixed errors are k_err and h_w_err |
| FitModel.ParamsAndErrors | src/boilercore/models/fit.py:36-38 | the model parameters come first, then the error of each one in the same order |
| FitModel.LowerBound | src/boilercore/models/fit.py:68-73 | a string lower bound containing "-inf" becomes minus infinity; an exact zero becomes `MIN_NZ`; anything else is kept; the result is never zero |
| FitModel.ValidateBoundAsWritten | src/boilercore/models/fit.py:67-75 | as written, a string lower bound with a float upper bound raises, and a numeric lower bound keeps its upper bound |
| FitModel.UpperBound | src/boilercore/models/fit.py:74 | in the corrected validator, no "inf" string survives as an upper bound and anything else is kept |
| FitModel.ValidateModelBoundsAsWritten | src/boilercore/models/fit.py:64-76 | as written, the whole mapping validates exactly when no entry raises, with each entry validated in place |
| FitModel.ValidateModelBoundsAsWrittenKeys | src/boilercore/models/fit.py:64-76 | as written, the validator keeps the keys and their order |
| FitModel.ValidateModelBounds | src/boilercore/models/fit.py:64-76 | the corrected validator keeps the keys and substitutes both bounds |
| FitModel.ValidateModelBoundsSound | src/boilercore/models/fit.py:64-76 | the corrected validator leaves no zero lower bound and no "inf" string, and is idempotent |
| FitModel.ValidatedFixed | src/boilercore/models/fit.py:64-76 | validated bounds pass through the corrected validator unchanged |
| FitModel.UpperInfKeptAsWritten | src/boilercore/models/fit.py:53-76 | the validator called directly on the default bounds, as written, keeps the string "inf" as T_s's upper bound and raises on `("-inf", 1.0)`; the corrected validator gives T_s infinity |
| FitModel.ValidateInitialValues | src/boilercore/models/fit.py:91-94 | the keys are kept, exact zeros become `MIN_NZ`, and every other value is kept |
| FitModel.ValidateInitialValuesIdempotent | src/boilercore/models/fit.py:91-94 | validating the initial values twice is validating once |
| FitModel.DefaultFixedValues | src/boilercore/models/fit.py:80-99 | the defaults have no zero; the fixed values are k and h_w with their defaults |
| Trials.FirstLine | src/boilercore/models/trials.py:81 | `.` matches up to the first line break, which the matched text never contains |
| Trials.LastIndex | src/boilercore/models/trials.py:81 | the index found is the last occurrence of the character |
| Trials.RunTimeOfLine | src/boilercore/models/trials.py:86-87 | a line has a run time exactly when it contains "T", and the rewrite keeps its length |
| Trials.RunTimeOfLineParts | src/boilercore/models/trials.py:81-87 | everything up to and including the last "T" is kept, and in the time part only "-" becomes ":" |
| Trials.RunTime | src/boilercore/models/trials.py:84-89 | one leading "results_" is removed; the stem parses exactly when its first line contains "T"; otherwise AttributeError is raised |
| Trials.RunTimeOfStem | src/boilercore/models/trials.py:84-87 | a stem built from a date and a time without "T" parses back to that date and converted time |
| Trials.RunTimeNeedsT | src/boilercore/models/trials.py:88-89 | a stem without "T" raises |
| Trials.StrLeTotal | src/boilercore/models/trials.py:74 | string comparison is total |
| Trials.KeyLeTotal | src/boilercore/models/trials.py:74 | path comparison is total |
| Trials.KeyLeAntisymmetric | src/boilercore/models/trials.py:74 | path comparison is antisymmetric |
| Trials.KeyLeTransitive | src/boilercore/models/trials.py:74 | path comparison is transitive |
| Trials.KeyInjective | src/boilercore/models/trials.py:74 | distinct well-formed paths never compare equal |
| Trials.Insert | src/boilercore/models/trials.py:74 | inserting into a sorted list keeps it sorted and adds exactly one element |
| Trials.Sort | src/boilercore/models/trials.py:74 | `sorted` returns a sorted permutation of the listing |
| Trials.SortedUnique | src/boilercore/models/trials.py:74 | two sorted lists of the same well-formed paths are equal |
| Trials.SortIgnoresListingOrder | src/boilercore/models/trials.py:74 | the order in which the directory lists its files does not matter |
| Trials.Collect | src/boilercore/models/trials.py:82-97 | one pair per run, in order, with the trial date first; the first failure raises |
| Trials.SetIndex | src/boilercore/models/trials.py:79-97 | the index has one (trial date, run time) pair per run file, in order; the first unparsable stem raises |
| Trials.SetPaths | src/boilercore/models/trials.py:70-77 | the trial directory is `trials / date`; no run file raises FileNotFoundError; the run files are the listing sorted; the index covers every one |
| Trials.AddArrays | src/boilercore/models/trials.py:101-103 | arrays of equal length add elementwise, a length-1 array broadcasts, and any other mismatch fails |
| Trials.SetGeometry | src/boilercore/models/trials.py:99-104 | a missing rod raises KeyError; a length mismatch raises; with distinct columns the keys are the copper temperature columns in order, each with its summed offset |
| SettingsModels.GetSettingsPaths | src/boilercore/settings_models.py:36-56 | the four files are named after the package in the working directory and fixed in the package directory; the lists pair them as declared; the package is in development exactly when it is not under the first site-packages directory |
| SettingsModels.SettingsPathsInCwd | src/boilercore/settings_models.py:41-48 | the working-directory files sit directly in the working directory, named `<pkg>_plugin.yaml` and `<pkg>.yaml` |
| SettingsModels.SettingsPathsInPackage | src/boilercore/settings_models.py:44-49 | the development files sit directly in the package directory, named `settings_plugin.yaml` and `settings.yaml` |
| SettingsModels.SettingsPathsSameFiles | src/boilercore/settings_models.py:47-52 | the per-location lists hold the same files as the per-kind lists |
| SettingsModels.GetYamlSources | src/boilercore/settings_models.py:59-71 | there is one source per path, in order; "$schema" is deleted only when truthy; every other key is as loaded |
| SettingsModels.YamlSourceFor | src/boilercore/settings_models.py:65-69 | one source keeps everything loaded except a truthy "$schema" |
| SettingsModels.CustomiseSources | src/boilercore/settings_models.py:74-81 | the init source comes first, then the YAML sources in order |
| SettingsModels.GetPluginSettings | src/boilercore/settings_models.py:84-95 | the mapping holds the configuration under the package name and nothing else |
| SettingsModels.SyncSettingsSchema | src/boilercore/settings_models.py:98-107 | the settings file exists afterwards, and an existing one keeps its contents; the schema is written beside it as `<stem>_schema.json` |
| SettingsModels.SchemaIsNotSettings | src/boilercore/settings_models.py:104 | the schema file is never the settings file |
| Warnings.DefaultFilter | src/boilercore/__init__.py:17-25 | a filter defaults to ignore, no message, `Warning`, any module, line 0, prepended |
| Warnings.FilterPackageWarnings | src/boilercore/__init__.py:62-73 | the other-action filter for the category comes first, then the package action for the package's submodules |
| Warnings.PackageFilters | src/boilercore/__init__.py:47-55 | each category contributes its pair, in category order |
| Warnings.Unpair | src/boilercore/__init__.py:47 | chaining pairs lays out each pair's first item, then its second |
| Warnings.RootFilters | src/boilercore/__init__.py:45 | the root filter is present only when a root action is given |
| Warnings.FilterCertainWarnings | src/boilercore/__init__.py:34-59 | the list is the optional root filter, then a pair per category, then the extra filters; its length is root + 2·categories + extras |
| Warnings.NoRootFilter | src/boilercore/__init__.py:45 | without a root action the list is the same minus its first filter |
| Warnings.DefaultCertainWarnings | src/boilercore/__init__.py:28-59 | under the defaults there are seven filters: error, then default and error for each of the three categories |
| Warnings.IgnoreEach | src/boilercore/warnings.py:65-77 | one ignoring filter per (module, message) pair, in order |
| Warnings.IgnoreMessages | src/boilercore/warnings.py:78-93 | one ignoring filter per message, in order |
| Warnings.WarningFiltersShape | src/boilercore/warnings.py:62-151 | the fixed list holds 24 filters, and every one ignores with default line and placement |
| Warnings.OrEmpty | src/boilercore/warnings.py:55-57 | a missing extra list is read as empty |
| Warnings.BoilerFilters | src/boilercore/warnings.py:52-58 | the list is default, then error for `^boiler.*`, then the early extras, then the fixed list, then the late extras |
| Warnings.NoneIsEmpty | src/boilercore/warnings.py:55-57 | passing no extra filters is the same as passing empty lists |
| Warnings.OnlyFirstTwoEscalate | src/boilercore/warnings.py:52-58 | without extras, only the first two filters escalate anything |
| Warnings.BoilerOnlyEscalatesOwnModules | src/boilercore/warnings.py:21-151 | with the real fixed list there are 26 filters, and only the `boiler` error raises |
| Report.NotebookOf | src/boilercore/notebooks/report.py:263 | the notebook path has the same parent and stem with the suffix `.ipynb` |
| Report.FoldDocsNbs | src/boilercore/notebooks/report.py:258-268 | the result is exactly the folded notebooks of the paths under `docs` with suffix `.ipynb` or `.h5`, without duplicates |
| Report.FoldDocsNbsIgnoresOrder | src/boilercore/notebooks/report.py:258-268 | the result depends only on which paths occur, not their order or repetition |
| Report.NotebookAndDataSameNotebook | src/boilercore/notebooks/report.py:263-266 | a notebook and its `.h5` data file stand for the same notebook |
| Report.NotebookAndDataCollapse | src/boilercore/notebooks/report.py:258-268 | modifying a notebook and its data file marks the notebook once |
| Report.FoldModifiedNbs | src/boilercore/notebooks/report.py:237-244 | nothing is returned unless some modified file is under `docs`, and otherwise the result is that of `fold_docs_nbs` |
| Process.Executable | src/boilercore/notebooks/__init__.py:70 | the command is looked up under `.venv/scripts/` exactly when `venv` is set |
| Process.NonEmpty | src/boilercore/notebooks/__init__.py:74 | the non-empty streams are kept, in order |
| Process.ComposeJoinsNonEmpty | src/boilercore/notebooks/__init__.py:74 | composing the streams joins the non-empty ones with a newline |
| Process.Message | src/boilercore/notebooks/__init__.py:73-77 | the message is the composed text with CRLF normalised and stripped, so it neither starts nor ends with whitespace |
| Process.NormaliseChangesIffCrlf | src/boilercore/notebooks/__init__.py:75 | normalising changes the text exactly when it holds a CRLF |
| Process.MessageWithoutCrlf | src/boilercore/notebooks/__init__.py:73-77 | output without CRLF is only composed and stripped |
| Process.FailureNotes | src/boilercore/notebooks/__init__.py:82-83 | the failure carries the message, then a note of the arguments joined by newlines, each argument occurring in it |
| Process.RunProcess | src/boilercore/notebooks/__init__.py:66-85 | no words raise ValueError; a zero return code returns the message; any other raises CalledProcessError with the streams and the notes |
| Process.SameMessageEitherWay | src/boilercore/notebooks/__init__.py:78-85 | success and failure report the same message |

## Left out

- Numerical fitting and plotting are left out: `fit`, `fit_and_plot`, `plot_fit`, `get_models` and `get_model_with_error`. These are floating-point numerics and opaque library calls. Bounds and values are plain numbers.
- The geometry table, the configuration instances and the settings read at import time are left out. They hold data and do I/O, with no logic to prove.
- The asynchronous orchestration of reports is left out, and so are process spawning, the network download and the IPython display helpers. `run_process` is modelled from the words of the command line, which are given already split (`shlex.split` is not modelled), and with the process as a function parameter.
- Walking git changes and directories is left out: `get_changes`, `walk_matches` and `walk_module_paths`. `map_stages` and `fold_modified_nbs` take the paths they would yield as an explicit list.
- The following foreign collaborators are parameters:
  - YAML load and dump;
  - pydantic's schema generation and its settings-source plumbing;
  - notebook parsing, parametrisation and execution;
  - cachier's store format;
  - the final hash digest;
  - `Path.resolve` against the working directory;
  - `datetime.fromisoformat` and `pd.Timestamp.fromisoformat`. The model returns the strings handed to them.
- Exception messages are abbreviated to the constants in each module. The exception kinds follow the source for every value the model can represent. Path-bearing values hold `Path` leaves one level deep. Three things are not representable: `str` leaves, which `apply_to_paths` also treats as leaves; nested containers, which `get_types` accepts; and the AttributeError these raise in the path lambdas. The lines starting `DefaultPaths.CreateValue`, `DefaultPaths.RelativeDefaults` and `YamlSync.SyncFields` below name the members concerned.
- `default_paths_json_schema_extra` and `make_relative` in `src/boilercore/models/__init__.py` are not part of this model. They are schema decoration outside the modelled core.
- The tuple returned by `SynchronizedPathsYamlModel.settings_customise_sources` is not built as a whole. Its two custom sources are modelled: `YamlSync.DefaultPathsSource` and `YamlSync.NonPathsYamlSource`.
- Report.FoldDocsNbs returns a set: the source builds a set and then lists it, so the order of its output is unspecified.
- The `ISOLIKE` regular expression itself is not modelled. IsoLike works on its match groups, which are restricted by the predicate `Matched`.
- FitModel.ValidateModelBoundsAsWritten: pydantic v1's coercion of each `tuple[Bound, Bound]` before the validator runs is not modelled. It tries `float` first, so through `Fit()` the strings "inf" and "-inf" reach the validator as floats, and the default passes through it too because of `always=True`. The model, and the finding about line 74, describe the validator called directly.
- DefaultPaths.CreateValue: only `Path` leaves one level deep are modelled. The source also accepts a `str` leaf and a container nested in a sequence or mapping. On either, `path.relative_to` in the function at lines 324-330 raises AttributeError; that case is not modelled.
- DefaultPaths.RelativeDefaults: the same restriction applies to the lambda at line 288. A `str` leaf or nested container there raises AttributeError; that case is not modelled.
- YamlSync.SyncFields: a passed mapping whose leaves are strings is stored raw at lines 131-133, and `path.relative_to` at lines 182-186 then raises AttributeError. Neither such a mapping nor a nested container is modelled; only a value that is not a path, sequence or mapping gives the ValueError the model states.
- YamlSync.RuamelSource: any truthy top-level load that is not a mapping is modelled as a TypeError. In the source, a list or string whose every element is a field name gets past lines 161-167 without error (see the next line).
- YamlSync.NonPathsYamlSource: every truthy top-level load that is not a mapping is a TypeError. The source first iterates such a list or string, so one whose every element is a field name gets past the extras at lines 163-167 and fails only when a paths-model entry is assigned at line 176, or not at all in a model without paths-model fields. That path is not modelled. The mapping pydantic-settings' own reader makes of the file is a parameter.
- YamlSync.DefaultPathsSource: a paths-model default is modelled as its mapping, which is truthy when non-empty. A default that is a model instance is truthy even with no fields; that case is not modelled.
- IsoLike.DtFromIsoLike: hands the assembled string to the ISO parser parameter. What the parser accepts beyond RFC 3339 is not modelled.
- ModuleNames.ModuleRel: `relative` is matched as literal text. The source compiles it into a regular expression, so a `.` in it matches any character (`a.b.aXb.c` relative to `a.b` gives `c` there, not `aXb.c`), and a metacharacter such as `(` raises `re.error`. Regular expressions are not modelled.
- DefaultPaths.PassedRoot: a truthy root that is not a single path (a string, which the source's `/` would also accept) is treated as a root that cannot divide the defaults.
- LegacyModels.YamlModelInit: pydantic's validation of the loaded parameters is not modelled, and on a failure the schema file already written is not returned with the error.
- LegacyModels.SyncGetParamsOrEmpty: models the corrected merge only; the dump back to the data file is modelled by `LegacyModels.SyncGetParams`.
- Trials.Sort: run files are ordered by their `/`-separated segments, as `PurePath` ordering is on POSIX. Case folding on Windows is not modelled.
- Hashes.Bind: only positional-or-keyword parameters are modelled. Keyword-only and variadic parameters are not.
- Namespaces.Serve: cachier's staleness, timeouts and separate files are not modelled. The cache is a map from argument hash to namespace.

## Findings

| source | as written | input that shows it | evidently intended | confidence | as-written member | corrected member |
|---|---|---|---|---|---|---|
| src/boilercore/models/fit.py:74 | the upper bound is replaced by infinity only when the LOWER bound `b[0]` is a string, and `"inf" in b[1]` is then evaluated on the upper bound | `Fit.validate_model_bounds` called directly on the default bounds returns T_s with the string "inf" as its upper bound; called on `{"x": ("-inf", 1.0)}` it raises TypeError because a float is not iterable. Through `Fit()` the field's float-first coercion turns both strings into floats first, so the bug stays latent there | test the upper bound itself: `isinstance(b[1], str) and "inf" in b[1]` | not executed | FitModel.UpperInfKeptAsWritten | FitModel.ValidateModelBoundsSound |
| src/boilercore/models.py:28-59 | `get_params` returns `{}` only for empty text; a file holding only whitespace loads as `None`, and `params \|= self.get_paths()` then raises TypeError | a data file whose whole text is "\n" | treat a falsy load as `{}`, as the newer snapshot does at src/boilercore/models/__init__.py:159 | not executed | LegacyModels.BlankFileBreaksSync | LegacyModels.BlankFileSyncsWhenCorrected |

Where the description of the library and the code disagree, the code is followed:

- `freeze` converts a mapping in iteration order, not sorted (Hashes.FreezeOrderSensitive).
- `get_types` raises on `Literal[...]`, because it recurses into the tuple of literal values (Annotations.GetTypesTotal).
- The synchronised `get_paths` raises for the first failing field, in field order (LegacyModels.SyncPaths).

=== FILE: annotations.dfy ===
/**
 * Field annotations as `get_types` sees them, and the lazy stream of leaf types it
 * yields. A stream may end in an exception after yielding some leaves, which matters
 * because callers stop at the first leaf they reject.
 */
module Annotations {
  import opened Wrappers

  const UNSUPPORTED_TYPE := "Unsupported type found. Supported types are scalar,mapping, sequence, and annotated types."
  const NOT_A_CLASS := "issubclass() arg 1 must be a class"

  /** Metadata attached by `Annotated[...]`; `PathKind("dir")` is pydantic's `PathType("dir")`. */
  datatype Meta = PathKind(kind: string) | OtherMeta(desc: string)

  /** What `get_origin` reports for a parameterised generic. */
  datatype Origin =
    | MappingOrigin      // a subclass of `collections.abc.Mapping`
    | SequenceOrigin     // a subclass of `collections.abc.Sequence`
    | OtherClassOrigin   // any other class, e.g. `set`
    | NonClassOrigin     // a special form such as `Union`, on which `issubclass` raises

  datatype Ann =
    | EllipsisAnn                                   // `...`, as in `tuple[Path, ...]`
    | Class(name: string, isPath: bool)             // a plain class; `isPath` for subclasses of `Path`
    | Literal(values: seq<string>)                  // `Literal[...]`
    | Generic(origin: Origin, args: seq<Ann>)       // `origin[args]`
    | Annotated(inner: Ann, metadata: seq<Meta>)    // `Annotated[inner, *metadata]`
    | Unsupported(desc: string)                     // neither a class nor a parameterised generic

  /** `Typ`: a leaf class with the metadata it was annotated with. */
  datatype Typ = Typ(name: string, isPath: bool, metadata: seq<Meta>)

  /** The leaves a generator yielded, then the exception it raised, if any. */
  datatype Stream = Stream(items: seq<Typ>, stop: Option<Exc>)

  /** `chain(a, b)`: `b` is only reached when `a` finished normally. */
  function Chain(a: Stream, b: Stream): (r: Stream)
    ensures a.stop.Some? ==> r == a
    ensures a.stop.None? ==> r.items == a.items + b.items && r.stop == b.stop
  {
    if a.stop.Some? then a else Stream(a.items + b.items, b.stop)
  }

  function UnsupportedType(): Exc {
    ValueError(UNSUPPORTED_TYPE)
  }

  /** `get_types(annotation, metadata)`. */
  function GetTypes(a: Ann, metadata: seq<Meta>): Stream
    decreases a, 1
  {
    match a
    case EllipsisAnn => Stream([], None)
    case Class(name, isPath) => Stream([Typ(name, isPath, metadata)], None)
    // `Literal` hands the tuple of its values back to `get_types`, which rejects a tuple
    case Literal(_) => Stream([], Some(UnsupportedType()))
    case Generic(origin, args) =>
      if |args| == 0 then Stream([], Some(UnsupportedType()))
      else (match origin
        case MappingOrigin => GetTypes(args[|args| - 1], [])
        case SequenceOrigin => GetTypesAll(args)
        case OtherClassOrigin => Stream([], None)
        case NonClassOrigin => Stream([], Some(TypeError(NOT_A_CLASS))))
    case Annotated(inner, m) => GetTypes(inner, m)
    case Unsupported(_) => Stream([], Some(UnsupportedType()))
  }

  /** `chain.from_iterable(get_types(arg) for arg in args)`. */
  function GetTypesAll(args: seq<Ann>): Stream
    decreases args, 0
  {
    if |args| == 0 then Stream([], None)
    else Chain(GetTypes(args[0], []), GetTypesAll(args[1..]))
  }

  /** The annotations `get_types` walks to the end without raising. */
  predicate Supported(a: Ann) {
    match a
    case EllipsisAnn => true
    case Class(_, _) => true
    case Literal(_) => false
    case Generic(origin, args) =>
      |args| > 0 &&
      (match origin
      case MappingOrigin => Supported(args[|args| - 1])
      case SequenceOrigin => forall x | x in args :: Supported(x)
      case OtherClassOrigin => true
      case NonClassOrigin => false)
    case Annotated(inner, _) => Supported(inner)
    case Unsupported(_) => false
  }

  /** The annotations whose every reachable leaf is a subclass of `Path`. */
  predicate PathLike(a: Ann) {
    match a
    case EllipsisAnn => true
    case Class(_, isPath) => isPath
    case Literal(_) => false
    case Generic(origin, args) =>
      |args| > 0 &&
      (match origin
      case MappingOrigin => PathLike(args[|args| - 1])
      case SequenceOrigin => forall x | x in args :: PathLike(x)
      case OtherClassOrigin => true
      case NonClassOrigin => false)
    case Annotated(inner, _) => PathLike(inner)
    case Unsupported(_) => false
  }

  predicate NoAnnotated(a: Ann) {
    match a
    case Generic(_, args) => forall x | x in args :: NoAnnotated(x)
    case Annotated(_, _) => false
    case _ => true
  }

  predicate AllPaths(items: seq<Typ>) {
    forall i :: 0 <= i < |items| ==> items[i].isPath
  }

  /** The generator finishes without raising exactly on supported annotations. */
  lemma {:induction false} GetTypesTotal(a: Ann, m: seq<Meta>)
    ensures GetTypes(a, m).stop.None? <==> Supported(a)
    decreases a, 1
  {
    match a
    case Generic(origin, args) =>
      if |args| > 0 {
        match origin
        case MappingOrigin => GetTypesTotal(args[|args| - 1], []);
        case SequenceOrigin => GetTypesAllTotal(args);
        case OtherClassOrigin =>
        case NonClassOrigin =>
      }
    case Annotated(inner, m') => GetTypesTotal(inner, m');
    case _ =>
  }

  lemma {:induction false} GetTypesAllTotal(args: seq<Ann>)
    ensures GetTypesAll(args).stop.None? <==> forall x | x in args :: Supported(x)
    decreases args, 0
  {
    if |args| > 0 {
      GetTypesTotal(args[0], []);
      GetTypesAllTotal(args[1..]);
      assert args == [args[0]] + args[1..];
    }
  }

  /**
   * Walking the generator until it ends or yields a non-path leaf succeeds exactly on
   * path-like annotations: every leaf a `Path` subclass and no exception.
   */
  lemma {:induction false} GetTypesPathLike(a: Ann, m: seq<Meta>)
    ensures (AllPaths(GetTypes(a, m).items) && GetTypes(a, m).stop.None?) <==> PathLike(a)
    decreases a, 1
  {
    match a
    case Generic(origin, args) =>
      if |args| > 0 {
        match origin
        case MappingOrigin => GetTypesPathLike(args[|args| - 1], []);
        case SequenceOrigin => GetTypesAllPathLike(args);
        case OtherClassOrigin =>
        case NonClassOrigin =>
      }
    case Annotated(inner, m') => GetTypesPathLike(inner, m');
    case Class(_, isPath) => assert GetTypes(a, m).items[0].isPath == isPath;
    case _ =>
  }

  lemma {:induction false} GetTypesAllPathLike(args: seq<Ann>)
    ensures (AllPaths(GetTypesAll(args).items) && GetTypesAll(args).stop.None?)
      <==> forall x | x in args :: PathLike(x)
    decreases args, 0
  {
    if |args| > 0 {
      var h := GetTypes(args[0], []);
      var t := GetTypesAll(args[1..]);
      GetTypesPathLike(args[0], []);
      GetTypesAllPathLike(args[1..]);
      AllInCons(args, PathLike);
      if h.stop.None? {
        AllPathsConcat(h.items, t.items);
      }
    }
  }

  lemma AllPathsConcat(xs: seq<Typ>, ys: seq<Typ>)
    ensures AllPaths(xs + ys) <==> AllPaths(xs) && AllPaths(ys)
  {
    assert forall i :: 0 <= i < |xs| ==> (xs + ys)[i] == xs[i];
    assert forall i :: 0 <= i < |ys| ==> (xs + ys)[|xs| + i] == ys[i];
  }

  /** Every element satisfies `p` exactly when the head and every element of the tail do. */
  lemma AllInCons<T>(xs: seq<T>, p: T -> bool)
    requires |xs| > 0
    ensures (forall x | x in xs :: p(x)) <==> p(xs[0]) && forall x | x in xs[1..] :: p(x)
  {
    assert xs == [xs[0]] + xs[1..];
  }

  /**
   * Without `Annotated` anywhere in the annotation, every yielded leaf carries the
   * metadata `get_types` was called with (callers pass none, so leaves carry none).
   */
  lemma {:induction false} GetTypesPlainMetadata(a: Ann, m: seq<Meta>)
    requires NoAnnotated(a)
    ensures forall t | t in GetTypes(a, m).items :: t.metadata == m || t.metadata == []
    decreases a, 1
  {
    match a
    case Generic(origin, args) =>
      if |args| > 0 {
        match origin
        case MappingOrigin => GetTypesPlainMetadata(args[|args| - 1], []);
        case SequenceOrigin => GetTypesAllPlainMetadata(args);
        case OtherClassOrigin =>
        case NonClassOrigin =>
      }
    case _ =>
  }

  lemma {:induction false} GetTypesAllPlainMetadata(args: seq<Ann>)
    requires forall x | x in args :: NoAnnotated(x)
    ensures forall t | t in GetTypesAll(args).items :: t.metadata == []
    decreases args, 0
  {
    if |args| > 0 {
      GetTypesPlainMetadata(args[0], []);
      GetTypesAllPlainMetadata(args[1..]);
    }
  }

  /** `Annotated[cls, *m]` yields the class once, carrying `m`. */
  lemma AnnotatedLeaf(name: string, isPath: bool, m: seq<Meta>, outer: seq<Meta>)
    ensures GetTypes(Annotated(Class(name, isPath), m), outer) == Stream([Typ(name, isPath, m)], None)
  {
  }
}

=== FILE: defaultpaths.dfy ===
/**
 * `DefaultPathsModel` and `CreatePathsModel`: models whose fields are all paths with
 * defaults under a `root` directory, re-rooted when another root is passed in, and
 * whose directory-tagged fields are created on validation.
 */
module DefaultPaths {
  import opened Wrappers
  import opened Dict
  import opened PurePath
  import opened FileSystem
  import opened Annotations
  import opened PathValues

  const ROOT := "root"
  const UNDEFINED := "PydanticUndefined"
  const NONE_TYPE := "NoneType"
  const NOT_PATH_LIKE := "Field not Path-like."
  const NO_DEFAULT := "Default not specified."
  const ROOT_NOT_ABSOLUTE := "Root not absolute."
  const NOT_A_PATH := "relative_to() argument must be a path"
  const NO_DIVISION := "unsupported operand type(s) for /"

  /**
   * A model field as pydantic records it. A top-level `Annotated` has already been
   * lifted into `metadata`; `default` is `None` for a required field.
   */
  datatype Field = Field(name: string, ann: Ann, metadata: seq<Meta>, default: Option<PathOrPaths<Path>>)

  /** A subclass: its `root` field (a directory path) and the other fields, in declaration order. */
  datatype PathsModel = PathsModel(rootAnn: Ann, rootMeta: seq<Meta>, rootDefault: Option<Path>, fields: seq<Field>)

  function RootField(m: PathsModel): Field {
    Field(ROOT, m.rootAnn, m.rootMeta, if m.rootDefault.Some? then Some(Single(m.rootDefault.value)) else None)
  }

  /** `info.get_default(call_default_factory=True)`: pydantic's "undefined" marker for a required field. */
  function DefaultOf(f: Field): PathOrPaths<Path> {
    if f.default.Some? then f.default.value else Other(UNDEFINED, true)
  }

  // ---------------------------------------------------------------------------
  // `__pydantic_init_subclass__`

  /** Walk the yielded leaves until one is not a `Path` subclass, then the generator's own exception. */
  function FirstRejection(items: seq<Typ>, stop: Option<Exc>): Option<Exc> {
    if |items| == 0 then stop
    else if !items[0].isPath then Some(ValueError(NOT_PATH_LIKE))
    else FirstRejection(items[1..], stop)
  }

  /** The walk ends cleanly exactly when every leaf is a path and the generator did not raise. */
  lemma {:induction false} FirstRejectionAccepts(items: seq<Typ>, stop: Option<Exc>)
    ensures FirstRejection(items, stop).None? <==> AllPaths(items) && stop.None?
    ensures !AllPaths(items) ==> FirstRejection(items, stop) == Some(ValueError(NOT_PATH_LIKE))
  {
    if |items| > 0 && items[0].isPath {
      FirstRejectionAccepts(items[1..], stop);
      assert AllPaths(items) <==> AllPaths(items[1..]) by {
        assert forall i :: 1 <= i < |items| ==> items[i] == items[1..][i - 1];
      }
    }
  }

  /** The checks on one field: a default is required and every leaf type must be a path. */
  function CheckField(f: Field): (r: Option<Exc>)
    ensures f.default.None? ==> r == Some(ValueError(NO_DEFAULT))
  {
    if f.default.None? then Some(ValueError(NO_DEFAULT))
    else
      var s := GetTypes(f.ann, []);
      FirstRejection(s.items, s.stop)
  }

  /** A field passes exactly when it has a default and its annotation is path-like. */
  lemma CheckFieldAccepts(f: Field)
    ensures CheckField(f).None? <==> f.default.Some? && PathLike(f.ann)
  {
    if f.default.Some? {
      var s := GetTypes(f.ann, []);
      assert CheckField(f) == FirstRejection(s.items, s.stop);
      assert FirstRejection(s.items, s.stop).None? <==> AllPaths(s.items) && s.stop.None? by {
        FirstRejectionAccepts(s.items, s.stop);
      }
      GetTypesPathLike(f.ann, []);
    }
  }

  /** The first item that fails its check, as a loop raising on the first failure sees it. */
  function FirstFailing<T, E>(xs: seq<T>, check: T -> Option<E>): (r: Option<E>)
    ensures r.None? <==> forall i :: 0 <= i < |xs| ==> check(xs[i]).None?
    ensures r.Some? ==> exists i :: 0 <= i < |xs| && r == check(xs[i]) && (forall j :: 0 <= j < i ==> check(xs[j]).None?)
  {
    if |xs| == 0 then None
    else if check(xs[0]).Some? then check(xs[0])
    else
      var r := FirstFailing(xs[1..], check);
      assert forall i :: 1 <= i < |xs| ==> xs[i] == xs[1..][i - 1];
      assert r.Some? ==> exists i :: 0 <= i < |xs| && r == check(xs[i]) && (forall j :: 0 <= j < i ==> check(xs[j]).None?) by {
        if r.Some? {
          var k :| 0 <= k < |xs[1..]| && r == check(xs[1..][k]) && (forall j :: 0 <= j < k ==> check(xs[1..][j]).None?);
          assert r == check(xs[k + 1]);
        }
      }
      r
  }

  /** The first failing field, in order: every earlier field passed. */
  function CheckFields(fs: seq<Field>): (r: Option<Exc>)
    ensures r.None? <==> forall i :: 0 <= i < |fs| ==> CheckField(fs[i]).None?
    ensures r.Some? ==> exists i ::
      0 <= i < |fs| && r == CheckField(fs[i]) && (forall j :: 0 <= j < i ==> CheckField(fs[j]).None?)
  {
    FirstFailing(fs, CheckField)
  }

  /**
   * `DefaultPathsModel.__pydantic_init_subclass__`: `None` when the class is accepted.
   * Nothing is checked unless `root` has a default.
   */
  function InitSubclass(m: PathsModel): (r: Option<Exc>)
    ensures m.rootDefault.None? ==> r.None?
    ensures m.rootDefault.Some? && !m.rootDefault.value.absolute ==> r == Some(ValueError(ROOT_NOT_ABSOLUTE))
  {
    if m.rootDefault.None? then None
    else if !m.rootDefault.value.absolute then Some(ValueError(ROOT_NOT_ABSOLUTE))
    else CheckFields([RootField(m)] + m.fields)
  }

  /** The class is accepted exactly when `root` has no default, or an absolute one and every field passes. */
  lemma InitSubclassAccepts(m: PathsModel)
    ensures InitSubclass(m).None? <==> (m.rootDefault.None? ||
      (m.rootDefault.value.absolute && PathLike(m.rootAnn)
       && forall i :: 0 <= i < |m.fields| ==> m.fields[i].default.Some? && PathLike(m.fields[i].ann)))
  {
    if m.rootDefault.Some? && m.rootDefault.value.absolute {
      var all := [RootField(m)] + m.fields;
      var ok := (f: Field) => f.default.Some? && PathLike(f.ann);
      forall i | 0 <= i < |all| ensures CheckField(all[i]).None? <==> ok(all[i]) {
        CheckFieldAccepts(all[i]);
      }
      ChecksAgree(all, CheckField, ok);
      assert all[0] == RootField(m);
      assert forall i :: 1 <= i < |all| ==> all[i] == m.fields[i - 1];
    }
  }

  /** A first-failure walk finds nothing exactly when every item passes a check it agrees with. */
  lemma ChecksAgree<T, E>(xs: seq<T>, check: T -> Option<E>, ok: T -> bool)
    requires forall i :: 0 <= i < |xs| ==> (check(xs[i]).None? <==> ok(xs[i]))
    ensures FirstFailing(xs, check).None? <==> forall i :: 0 <= i < |xs| ==> ok(xs[i])
  {
  }

  // ---------------------------------------------------------------------------
  // Re-rooting

  /** `root / path.relative_to(default_root)`. `None` stands for a root that `/` rejects. */
  function Reroot(root: Option<Path>, defaultRoot: Option<Path>, p: Path): (r: Outcome<Path>)
    ensures defaultRoot.None? ==> r.Err? && r.error.TypeError?
    ensures defaultRoot.Some? && root.Some? ==> (r.Ok? <==> IsRelativeTo(p, defaultRoot.value))
    ensures defaultRoot.Some? && !IsRelativeTo(p, defaultRoot.value) ==> r.Err? && r.error.ValueError?
    ensures r.Ok? ==> (root.Some? && IsRelativeTo(r.value, root.value)
      && RelativeTo(r.value, root.value) == RelativeTo(p, defaultRoot.value))
  {
    if defaultRoot.None? then Err(TypeError(NOT_A_PATH))
    else
      var rel :- RelativeTo(p, defaultRoot.value);
      if root.None? then Err(TypeError(NO_DIVISION))
      else
        var q := Join(root.value, rel);
        assert q.parts[..|root.value.parts|] == root.value.parts;
        assert q.parts[|root.value.parts|..] == rel.parts;
        Ok(q)
  }

  function Rerooter(root: Option<Path>, defaultRoot: Option<Path>): Path -> Outcome<Path> {
    p => Reroot(root, defaultRoot, p)
  }

  /** Re-rooting at the default root is the identity on paths under it. */
  lemma RerootIdentity(r: Path, p: Path)
    requires IsRelativeTo(p, r)
    ensures Reroot(Some(r), Some(r), p) == Ok(p)
  {
    assert r.parts + p.parts[|r.parts|..] == p.parts;
  }

  /**
   * The truthy value of `data.get(ROOT)`: `None` when it is missing or falsy, `Some(Some(p))`
   * for a path, `Some(None)` for another truthy value, which cannot divide a path.
   */
  function PassedRoot(data: Dict<string, PathOrPaths<Path>>): (r: Option<Option<Path>>)
    ensures r.None? <==> Get(data, ROOT).None? || !Truthy(Get(data, ROOT).value)
    ensures r.Some? ==> (r.value.Some? <==> Get(data, ROOT).value.Single?)
    ensures Get(data, ROOT).Some? && Get(data, ROOT).value.Single? ==> r == Some(Some(Get(data, ROOT).value.item))
  {
    match Get(data, ROOT)
    case None => None
    case Some(v) =>
      if !Truthy(v) then None
      else if v.Single? then Some(Some(v.item))
      else Some(None)
  }

  /** Python truthiness of a field value: empty lists and mappings are false, and so is a falsy other value such as `None`. */
  predicate Truthy(v: PathOrPaths<Path>) {
    match v
    case Single(_) => true
    case Many(xs) => |xs| > 0
    case Named(d) => |d| > 0
    case Other(_, truthy) => truthy
  }

  /** A field's default re-rooted: `apply_to_paths(default, reroot)`. */
  function RerootedDefault(root: Option<Path>, defaultRoot: Option<Path>, f: Field): Outcome<PathOrPaths<Path>> {
    TryApply(DefaultOf(f), Rerooter(root, defaultRoot))
  }

  /** `RelativeDefaultPathsSettingsSource(settings_cls, root)`: every non-root default re-rooted. */
  function RelativeDefaults(fields: seq<Field>, root: Option<Path>, defaultRoot: Option<Path>)
    : (r: Outcome<Dict<string, PathOrPaths<Path>>>)
    ensures r.Ok? <==> forall i :: 0 <= i < |fields| ==> RerootedDefault(root, defaultRoot, fields[i]).Ok?
    ensures r.Ok? ==> |r.value| == |fields| && forall i :: 0 <= i < |fields| ==>
      r.value[i] == (fields[i].name, RerootedDefault(root, defaultRoot, fields[i]).value)
  {
    TryPairs(fields, (f: Field) => f.name, (f: Field) => RerootedDefault(root, defaultRoot, f))
  }

  /**
   * `DefaultPathsModel.settings_customise_sources`: the init kwargs first, then the
   * re-rooted defaults, but only when a truthy root was passed in.
   */
  function Sources(m: PathsModel, init: Dict<string, PathOrPaths<Path>>)
    : (r: Outcome<seq<Dict<string, PathOrPaths<Path>>>>)
    ensures PassedRoot(init).None? ==> r == Ok([init])
    ensures r.Ok? ==> |r.value| >= 1 && r.value[0] == init
    ensures PassedRoot(init).Some? ==> r.Ok? == RelativeDefaults(m.fields, PassedRoot(init).value, m.rootDefault).Ok?
  {
    match PassedRoot(init)
    case None => Ok([init])
    case Some(root) =>
      var d :- RelativeDefaults(m.fields, root, m.rootDefault);
      Ok([init, d])
  }

  /** Passing the default root itself reproduces every default. */
  lemma RelativeDefaultsIdentity(fields: seq<Field>, r: Path)
    requires forall i :: 0 <= i < |fields| ==> (fields[i].default.Some? && !fields[i].default.value.Other?
      && forall p | p in Leaves(fields[i].default.value) :: IsRelativeTo(p, r))
    ensures RelativeDefaults(fields, Some(r), Some(r)).Ok?
    ensures forall i :: 0 <= i < |fields| ==>
      RelativeDefaults(fields, Some(r), Some(r)).value[i] == (fields[i].name, fields[i].default.value)
  {
    forall i | 0 <= i < |fields|
      ensures RerootedDefault(Some(r), Some(r), fields[i]) == Ok(fields[i].default.value)
    {
      RerootValueIdentity(fields[i].default.value, r);
    }
  }

  /** Re-rooting a value whose every leaf lies under the default root, at that root, changes nothing. */
  lemma RerootValueIdentity(v: PathOrPaths<Path>, r: Path)
    requires !v.Other? && forall p | p in Leaves(v) :: IsRelativeTo(p, r)
    ensures TryApply(v, Rerooter(Some(r), Some(r))) == Ok(v)
  {
    forall p | p in Leaves(v) ensures Reroot(Some(r), Some(r), p) == Ok(p) {
      RerootIdentity(r, p);
    }
    TryApplyTotal(v, Rerooter(Some(r), Some(r)), p => p);
    ApplyIdentity(v);
  }

  lemma ApplyIdentity(v: PathOrPaths<Path>)
    requires !v.Other?
    ensures Apply(v, p => p) == Ok(v)
  {
    match v
    case Single(_) =>
    case Many(xs) => assert Apply(v, p => p).value.items == xs;
    case Named(d) => assert Apply(v, p => p).value.entries == d;
  }

  // ---------------------------------------------------------------------------
  // `CreatePathsModel.create_directories` and `make_absolute_and_create`

  /** Field names are distinct and none is `root`, as in every pydantic model. */
  predicate ValidModel(m: PathsModel) {
    (forall i, j :: 0 <= i < j < |m.fields| ==> m.fields[i].name != m.fields[j].name)
    && forall i :: 0 <= i < |m.fields| ==> m.fields[i].name != ROOT
  }

  /** `p.mkdir(parents=True, exist_ok=True)` succeeds: neither `p` nor an ancestor is a file. */
  predicate CanMakeDirs(fs: FS, p: Path) {
    !IsFile(fs, p) && !BlockedByFile(fs, p)
  }

  lemma CanMakeDirsFiles(fs: FS, fs': FS, p: Path)
    requires fs.files == fs'.files
    ensures CanMakeDirs(fs, p) == CanMakeDirs(fs', p)
  {
  }

  /** Every directory that `mkdir(parents=True)` of the given paths leaves behind. */
  function LineageAll(ps: seq<Path>): set<Path> {
    if |ps| == 0 then {} else Lineage(ps[0]) + LineageAll(ps[1..])
  }

  function ConcatMetadata(items: seq<Typ>): seq<Meta> {
    if |items| == 0 then [] else items[0].metadata + ConcatMetadata(items[1..])
  }

  /** A tag is in the concatenated metadata exactly when some leaf type carries it. */
  lemma ConcatMetadataMembers(items: seq<Typ>)
    ensures forall x :: x in ConcatMetadata(items) <==> exists i :: 0 <= i < |items| && x in items[i].metadata
  {
    forall x ensures x in ConcatMetadata(items) <==> exists i :: 0 <= i < |items| && x in items[i].metadata {
      ConcatMetadataMember(items, x);
    }
  }

  lemma {:induction false} ConcatMetadataMember(items: seq<Typ>, x: Meta)
    ensures x in ConcatMetadata(items) <==> exists i :: 0 <= i < |items| && x in items[i].metadata
  {
    if |items| > 0 {
      ConcatMetadataMember(items[1..], x);
      assert ConcatMetadata(items) == items[0].metadata + ConcatMetadata(items[1..]);
      if exists i :: 0 <= i < |items| && x in items[i].metadata {
        var i :| 0 <= i < |items| && x in items[i].metadata;
        if i > 0 {
          assert items[1..][i - 1] == items[i];
        }
      }
      if x in ConcatMetadata(items[1..]) {
        var k :| 0 <= k < |items[1..]| && x in items[1..][k].metadata;
        assert items[k + 1] == items[1..][k];
      }
    }
  }

  /** The metadata `create_directories` inspects: the field's own, else that of every leaf type. */
  function FieldMetadata(f: Field): (r: Outcome<seq<Meta>>)
    ensures |f.metadata| > 0 ==> r == Ok(f.metadata)
    ensures |f.metadata| == 0 ==> (r.Ok? <==> Supported(f.ann))
    ensures |f.metadata| == 0 && r.Ok? ==> r.value == ConcatMetadata(GetTypes(f.ann, []).items)
    ensures |f.metadata| == 0 && r.Ok? ==> forall x :: x in r.value <==>
      exists i :: 0 <= i < |GetTypes(f.ann, []).items| && x in GetTypes(f.ann, []).items[i].metadata
  {
    if |f.metadata| > 0 then Ok(f.metadata)
    else
      var s := GetTypes(f.ann, []);
      GetTypesTotal(f.ann, []);
      ConcatMetadataMembers(s.items);
      if s.stop.Some? then Err(s.stop.value) else Ok(ConcatMetadata(s.items))
  }

  /** `PathType("dir") in metadata`. */
  predicate DirTagged(meta: seq<Meta>) {
    PathKind("dir") in meta
  }

  /** A result together with the filesystem as the operation left it, also on failure. */
  datatype Step<T> = Step(out: Outcome<T>, fs: FS)

  /** `mkdir(parents=True)` succeeds on every one of the paths. */
  predicate AllCanMakeDirs(fs: FS, qs: seq<Path>) {
    forall i :: 0 <= i < |qs| ==> CanMakeDirs(fs, qs[i])
  }

  /** `make_absolute_and_create` on each leaf in order, stopping at the first failure. */
  function CreateLeaves(fs: FS, root: Option<Path>, defaultRoot: Option<Path>, dir: bool, ps: seq<Path>)
    : (r: Step<seq<Path>>)
    ensures r.fs.files == fs.files && fs.dirs <= r.fs.dirs
    ensures !dir ==> r.fs == fs
    ensures r.out.Ok? <==> (TryMap(ps, Rerooter(root, defaultRoot)).Ok? &&
      (dir ==> AllCanMakeDirs(fs, TryMap(ps, Rerooter(root, defaultRoot)).value)))
    ensures r.out.Ok? ==> (r.out.value == TryMap(ps, Rerooter(root, defaultRoot)).value
      && r.fs.dirs == fs.dirs + (if dir then LineageAll(r.out.value) else {}))
    decreases |ps|
  {
    if |ps| == 0 then Step(Ok([]), fs)
    else
      match Reroot(root, defaultRoot, ps[0])
      case Err(e) => Step(Err(e), fs)
      case Ok(q) =>
        var made := if dir then MakeDirs(fs, q) else Ok(fs);
        if made.Err? then
          LeavesCons(fs, fs, Rerooter(root, defaultRoot), ps, q);
          Step(Err(made.error), fs)
        else
          var rest := CreateLeaves(made.value, root, defaultRoot, dir, ps[1..]);
          LeavesCons(fs, made.value, Rerooter(root, defaultRoot), ps, q);
          if rest.out.Err? then Step(Err(rest.out.error), rest.fs)
          else Step(Ok([q] + rest.out.value), rest.fs)
  }

  /** How re-rooting the leaves splits at the first leaf, and what a filesystem with the same files changes. */
  lemma LeavesCons(fs: FS, fs': FS, reroot: Path -> Outcome<Path>, ps: seq<Path>, q: Path)
    requires |ps| > 0 && reroot(ps[0]) == Ok(q) && fs'.files == fs.files
    ensures var all, tail := TryMap(ps, reroot), TryMap(ps[1..], reroot);
      && (all.Ok? <==> tail.Ok?)
      && (all.Ok? ==>
        && all.value == [q] + tail.value
        && (AllCanMakeDirs(fs, all.value) <==> CanMakeDirs(fs, q) && AllCanMakeDirs(fs', tail.value))
        && LineageAll(all.value) == Lineage(q) + LineageAll(tail.value))
  {
    TryMapCons(ps, reroot, q);
    var tail := TryMap(ps[1..], reroot);
    if tail.Ok? {
      AllCanMakeDirsCons(fs, fs', q, tail.value);
      assert ([q] + tail.value)[1..] == tail.value;
    }
  }

  lemma AllCanMakeDirsCons(fs: FS, fs': FS, q: Path, qs: seq<Path>)
    requires fs'.files == fs.files
    ensures AllCanMakeDirs(fs, [q] + qs) <==> CanMakeDirs(fs, q) && AllCanMakeDirs(fs', qs)
  {
    forall i | 0 <= i < |qs| ensures CanMakeDirs(fs, qs[i]) == CanMakeDirs(fs', qs[i]) {
      CanMakeDirsFiles(fs, fs', qs[i]);
    }
    var all := [q] + qs;
    if AllCanMakeDirs(fs, all) {
      assert all[0] == q;
      forall i | 0 <= i < |qs| ensures CanMakeDirs(fs', qs[i]) {
        assert all[i + 1] == qs[i];
      }
    }
    if CanMakeDirs(fs, q) && AllCanMakeDirs(fs', qs) {
      forall i | 0 <= i < |all| ensures CanMakeDirs(fs, all[i]) {
        if i > 0 {
          assert all[i] == qs[i - 1];
        } else {
          assert all[i] == q;
        }
      }
      assert AllCanMakeDirs(fs, all);
    }
  }

  /** `apply_to_paths(default, partial(make_absolute_and_create, ...))`. */
  function CreateValue(fs: FS, root: Option<Path>, defaultRoot: Option<Path>, dir: bool, v: PathOrPaths<Path>)
    : (r: Step<PathOrPaths<Path>>)
    ensures r.fs.files == fs.files && fs.dirs <= r.fs.dirs
    ensures !dir ==> r.fs == fs
    ensures r.out.Ok? <==> (TryApply(v, Rerooter(root, defaultRoot)).Ok? &&
      (dir ==> forall q | q in Leaves(TryApply(v, Rerooter(root, defaultRoot)).value) :: CanMakeDirs(fs, q)))
    ensures r.out.Ok? ==> (r.out == TryApply(v, Rerooter(root, defaultRoot))
      && r.fs.dirs == fs.dirs + (if dir then LineageAll(Leaves(r.out.value)) else {}))
  {
    match v
    case Other(_, _) => Step(TryApply(v, Rerooter(root, defaultRoot)), fs)
    case Single(p) =>
      var s := CreateLeaves(fs, root, defaultRoot, dir, [p]);
      Step(if s.out.Ok? then Ok(Single(s.out.value[0])) else Err(s.out.error), s.fs)
    case Many(xs) =>
      var s := CreateLeaves(fs, root, defaultRoot, dir, xs);
      Step(if s.out.Ok? then Ok(Many(s.out.value)) else Err(s.out.error), s.fs)
    case Named(d) =>
      var s := CreateLeaves(fs, root, defaultRoot, dir, Values(d));
      if s.out.Err? then Step(Err(s.out.error), s.fs)
      else
        var e := seq(|d|, i requires 0 <= i < |d| => (d[i].0, s.out.value[i]));
        assert Values(e) == s.out.value;
        Step(Ok(Named(e)), s.fs)
  }

  /** What `create_directories` computes for one field, before touching the filesystem. */
  predicate FieldPlanned(root: Option<Path>, defaultRoot: Option<Path>, f: Field) {
    FieldMetadata(f).Ok? && RerootedDefault(root, defaultRoot, f).Ok?
  }

  /** The directories a field asks for: the lineage of every re-rooted leaf, if it is tagged as a directory. */
  function FieldDirs(root: Option<Path>, defaultRoot: Option<Path>, f: Field): set<Path> {
    if FieldPlanned(root, defaultRoot, f) && DirTagged(FieldMetadata(f).value)
    then LineageAll(Leaves(RerootedDefault(root, defaultRoot, f).value))
    else {}
  }

  /** The field is processed without error on a filesystem with these files. */
  predicate FieldCreatable(fs: FS, root: Option<Path>, defaultRoot: Option<Path>, f: Field) {
    FieldPlanned(root, defaultRoot, f) &&
    (DirTagged(FieldMetadata(f).value) ==>
      forall q | q in Leaves(RerootedDefault(root, defaultRoot, f).value) :: CanMakeDirs(fs, q))
  }

  lemma FieldCreatableFiles(fs: FS, fs': FS, root: Option<Path>, defaultRoot: Option<Path>, f: Field)
    requires fs.files == fs'.files
    ensures FieldCreatable(fs, root, defaultRoot, f) == FieldCreatable(fs', root, defaultRoot, f)
  {
    forall q ensures CanMakeDirs(fs, q) == CanMakeDirs(fs', q) {
      CanMakeDirsFiles(fs, fs', q);
    }
  }

  /** One field of `create_directories`. */
  function CreateField(fs: FS, root: Option<Path>, defaultRoot: Option<Path>, f: Field)
    : (r: Step<PathOrPaths<Path>>)
    ensures r.fs.files == fs.files
    ensures r.out.Ok? <==> FieldCreatable(fs, root, defaultRoot, f)
    ensures r.out.Ok? ==> (r.out == RerootedDefault(root, defaultRoot, f)
      && r.fs.dirs == fs.dirs + FieldDirs(root, defaultRoot, f))
  {
    match FieldMetadata(f)
    case Err(e) => Step(Err(e), fs)
    case Ok(meta) => CreateValue(fs, root, defaultRoot, DirTagged(meta), DefaultOf(f))
  }

  function AllFieldDirs(root: Option<Path>, defaultRoot: Option<Path>, fields: seq<Field>): set<Path> {
    if |fields| == 0 then {} else FieldDirs(root, defaultRoot, fields[0]) + AllFieldDirs(root, defaultRoot, fields[1..])
  }

  /** The loop of `create_directories` over the non-root fields. */
  function CreateFields(fs: FS, root: Option<Path>, defaultRoot: Option<Path>, fields: seq<Field>,
                        data: Dict<string, PathOrPaths<Path>>)
    : (r: Step<Dict<string, PathOrPaths<Path>>>)
    ensures r.fs.files == fs.files && fs.dirs <= r.fs.dirs
    ensures r.out.Ok? <==> forall i :: 0 <= i < |fields| ==> FieldCreatable(fs, root, defaultRoot, fields[i])
    ensures r.out.Ok? ==> r.fs.dirs == fs.dirs + AllFieldDirs(root, defaultRoot, fields)
    decreases |fields|
  {
    if |fields| == 0 then Step(Ok(data), fs)
    else
      var s := CreateField(fs, root, defaultRoot, fields[0]);
      if s.out.Err? then Step(Err(s.out.error), s.fs)
      else
        var rest := CreateFields(s.fs, root, defaultRoot, fields[1..], Put(data, fields[0].name, s.out.value));
        FieldsCons(fs, s.fs, root, defaultRoot, fields);
        rest
  }

  /** Every field is creatable exactly when the first is and the rest are on a filesystem with the same files. */
  lemma FieldsCons(fs: FS, fs': FS, root: Option<Path>, defaultRoot: Option<Path>, fields: seq<Field>)
    requires |fields| > 0 && fs'.files == fs.files
    ensures (forall i :: 0 <= i < |fields| ==> FieldCreatable(fs, root, defaultRoot, fields[i]))
      <==> (FieldCreatable(fs, root, defaultRoot, fields[0])
        && forall i :: 0 <= i < |fields[1..]| ==> FieldCreatable(fs', root, defaultRoot, fields[1..][i]))
  {
    forall i | 0 <= i < |fields|
      ensures FieldCreatable(fs, root, defaultRoot, fields[i]) == FieldCreatable(fs', root, defaultRoot, fields[i])
    {
      FieldCreatableFiles(fs, fs', root, defaultRoot, fields[i]);
    }
    AllConsWith(fields, f => FieldCreatable(fs, root, defaultRoot, f), f => FieldCreatable(fs', root, defaultRoot, f));
  }

  /** `p` holds everywhere exactly when it holds at the head and `p'`, which agrees with it, holds on the tail. */
  lemma AllConsWith<T>(xs: seq<T>, p: T -> bool, p': T -> bool)
    requires |xs| > 0 && forall i :: 0 <= i < |xs| ==> p(xs[i]) == p'(xs[i])
    ensures (forall i :: 0 <= i < |xs| ==> p(xs[i])) <==> p(xs[0]) && forall i :: 0 <= i < |xs[1..]| ==> p'(xs[1..][i])
  {
    assert forall i :: 0 <= i < |xs[1..]| ==> xs[1..][i] == xs[i + 1];
  }

  /** The root `create_directories` re-roots at: the truthy passed root, else the default root. */
  function ChosenRoot(data: Dict<string, PathOrPaths<Path>>, defaultRoot: Option<Path>): (r: Option<Path>)
    ensures Get(data, ROOT).None? || !Truthy(Get(data, ROOT).value) ==> r == defaultRoot
    ensures Get(data, ROOT).Some? && Get(data, ROOT).value.Single? ==> r == Some(Get(data, ROOT).value.item)
  {
    match PassedRoot(data)
    case Some(r) => r
    case None => defaultRoot
  }

  /** `root=None` passed in counts as no root: the defaults are not re-rooted and directories go under the default root. */
  lemma NoneRootIsNoRoot(m: PathsModel, data: Dict<string, PathOrPaths<Path>>)
    requires Get(data, ROOT) == Some(Other(NONE_TYPE, false))
    ensures Sources(m, data) == Ok([data])
    ensures ChosenRoot(data, m.rootDefault) == m.rootDefault
  {
  }

  /** `CreatePathsModel.create_directories(data)`, with the filesystem it leaves behind. */
  function CreateDirectories(fs: FS, m: PathsModel, data: Dict<string, PathOrPaths<Path>>)
    : (r: Step<Dict<string, PathOrPaths<Path>>>)
    ensures r.fs.files == fs.files && fs.dirs <= r.fs.dirs
    ensures r.out.Ok? <==> forall i :: 0 <= i < |m.fields| ==>
      FieldCreatable(fs, ChosenRoot(data, m.rootDefault), m.rootDefault, m.fields[i])
    ensures r.out.Ok? ==> r.fs.dirs == fs.dirs + AllFieldDirs(ChosenRoot(data, m.rootDefault), m.rootDefault, m.fields)
  {
    CreateFields(fs, ChosenRoot(data, m.rootDefault), m.rootDefault, m.fields, data)
  }

  /**
   * The loop leaves `data` updated, in field order, with exactly the re-rooted defaults
   * the settings source computes.
   */
  lemma {:induction false} CreateFieldsUpdates(fs: FS, root: Option<Path>, defaultRoot: Option<Path>,
                                               fields: seq<Field>, data: Dict<string, PathOrPaths<Path>>)
    requires CreateFields(fs, root, defaultRoot, fields, data).out.Ok?
    ensures RelativeDefaults(fields, root, defaultRoot).Ok?
    ensures CreateFields(fs, root, defaultRoot, fields, data).out.value
      == Update(data, RelativeDefaults(fields, root, defaultRoot).value)
    decreases |fields|
  {
    assert forall i :: 0 <= i < |fields| ==> FieldCreatable(fs, root, defaultRoot, fields[i]);
    if |fields| > 0 {
      var s := CreateField(fs, root, defaultRoot, fields[0]);
      var v := RerootedDefault(root, defaultRoot, fields[0]).value;
      var data' := Put(data, fields[0].name, v);
      assert CreateFields(fs, root, defaultRoot, fields, data) == CreateFields(s.fs, root, defaultRoot, fields[1..], data');
      CreateFieldsUpdates(s.fs, root, defaultRoot, fields[1..], data');
      RelativeDefaultsCons(fields, root, defaultRoot);
      UpdateCons(data, fields[0].name, v, RelativeDefaults(fields[1..], root, defaultRoot).value);
    }
  }

  /** The settings source's pairs are the first field's pair followed by those of the rest. */
  lemma RelativeDefaultsCons(fields: seq<Field>, root: Option<Path>, defaultRoot: Option<Path>)
    requires |fields| > 0 && RelativeDefaults(fields, root, defaultRoot).Ok?
    ensures RelativeDefaults(fields[1..], root, defaultRoot).Ok?
    ensures RelativeDefaults(fields, root, defaultRoot).value
      == [(fields[0].name, RerootedDefault(root, defaultRoot, fields[0]).value)] + RelativeDefaults(fields[1..], root, defaultRoot).value
  {
    assert forall i :: 1 <= i < |fields| ==> fields[1..][i - 1] == fields[i];
  }

  /**
   * After `create_directories`, every non-root field holds its re-rooted default, whatever
   * value was passed for it, and every other entry of `data` is as it was.
   */
  lemma CreateFieldsValues(fs: FS, root: Option<Path>, defaultRoot: Option<Path>,
                           fields: seq<Field>, data: Dict<string, PathOrPaths<Path>>)
    requires forall i, j :: 0 <= i < j < |fields| ==> fields[i].name != fields[j].name
    requires CreateFields(fs, root, defaultRoot, fields, data).out.Ok?
    ensures forall i :: 0 <= i < |fields| ==>
      Get(CreateFields(fs, root, defaultRoot, fields, data).out.value, fields[i].name)
        == Some(RerootedDefault(root, defaultRoot, fields[i]).value)
    ensures forall k :: (forall i :: 0 <= i < |fields| ==> fields[i].name != k) ==>
      Get(CreateFields(fs, root, defaultRoot, fields, data).out.value, k) == Get(data, k)
  {
    CreateFieldsUpdates(fs, root, defaultRoot, fields, data);
    var rd := RelativeDefaults(fields, root, defaultRoot).value;
    assert DistinctKeys(rd);
    forall i | 0 <= i < |fields|
      ensures Get(Update(data, rd), fields[i].name) == Some(RerootedDefault(root, defaultRoot, fields[i]).value)
    {
      UpdateGet(data, rd, fields[i].name);
      assert Keys(rd)[i] == fields[i].name;
      GetAt(rd, i);
    }
    forall k | forall i :: 0 <= i < |fields| ==> fields[i].name != k
      ensures Get(Update(data, rd), k) == Get(data, k)
    {
      UpdateGet(data, rd, k);
    }
  }

  /** Only the files decide the outcome: the directories already present change nothing but the final state. */
  lemma {:induction false} CreateFieldsFilesOnly(fs: FS, fs': FS, root: Option<Path>, defaultRoot: Option<Path>,
                                                 fields: seq<Field>, data: Dict<string, PathOrPaths<Path>>)
    requires fs.files == fs'.files
    requires CreateFields(fs, root, defaultRoot, fields, data).out.Ok?
    ensures CreateFields(fs', root, defaultRoot, fields, data).out == CreateFields(fs, root, defaultRoot, fields, data).out
    decreases |fields|
  {
    if |fields| > 0 {
      var s := CreateField(fs, root, defaultRoot, fields[0]);
      var s' := CreateField(fs', root, defaultRoot, fields[0]);
      FieldCreatableFiles(fs, fs', root, defaultRoot, fields[0]);
      assert s'.out == s.out;
      CreateFieldsFilesOnly(s.fs, s'.fs, root, defaultRoot, fields[1..], Put(data, fields[0].name, s.out.value));
    }
  }

  /** Validating again on the filesystem the first validation left changes nothing. */
  lemma CreateDirectoriesIdempotent(fs: FS, m: PathsModel, data: Dict<string, PathOrPaths<Path>>)
    requires CreateDirectories(fs, m, data).out.Ok?
    ensures CreateDirectories(CreateDirectories(fs, m, data).fs, m, data) == CreateDirectories(fs, m, data)
  {
    var root := ChosenRoot(data, m.rootDefault);
    var r1 := CreateDirectories(fs, m, data);
    forall i | 0 <= i < |m.fields|
      ensures FieldCreatable(r1.fs, root, m.rootDefault, m.fields[i])
    {
      FieldCreatableFiles(fs, r1.fs, root, m.rootDefault, m.fields[i]);
    }
    CreateFieldsFilesOnly(fs, r1.fs, root, m.rootDefault, m.fields, data);
  }

  /**
   * With a root passed in, the validator and the re-rooted settings source agree on the
   * value of every non-root field.
   */
  lemma CreateDirectoriesAgreesWithSource(fs: FS, m: PathsModel, data: Dict<string, PathOrPaths<Path>>)
    requires ValidModel(m)
    requires PassedRoot(data).Some?
    requires CreateDirectories(fs, m, data).out.Ok?
    ensures RelativeDefaults(m.fields, PassedRoot(data).value, m.rootDefault).Ok?
    ensures forall i :: 0 <= i < |m.fields| ==>
      Get(CreateDirectories(fs, m, data).out.value, m.fields[i].name)
        == Some(RelativeDefaults(m.fields, PassedRoot(data).value, m.rootDefault).value[i].1)
    ensures Get(CreateDirectories(fs, m, data).out.value, ROOT) == Get(data, ROOT)
  {
    CreateFieldsValues(fs, ChosenRoot(data, m.rootDefault), m.rootDefault, m.fields, data);
  }
}

=== FILE: dict.dfy ===
/**
 * Python's insertion-ordered `dict`, as a sequence of key/value pairs.
 * Assigning an existing key keeps its position; a new key is appended.
 */
module Dict {
  import opened Wrappers

  const ZIP_LENGTHS := "zip() arguments have different lengths"

  type Dict<K, V> = seq<(K, V)>

  function Keys<K, V>(d: Dict<K, V>): (ks: seq<K>)
    ensures |ks| == |d|
    ensures forall i :: 0 <= i < |d| ==> ks[i] == d[i].0
  {
    seq(|d|, i requires 0 <= i < |d| => d[i].0)
  }

  function Values<K, V>(d: Dict<K, V>): (vs: seq<V>)
    ensures |vs| == |d|
    ensures forall i :: 0 <= i < |d| ==> vs[i] == d[i].1
  {
    seq(|d|, i requires 0 <= i < |d| => d[i].1)
  }

  /** No key occurs twice, as in every real Python dict. */
  predicate DistinctKeys<K(==), V>(d: Dict<K, V>) {
    forall i, j :: 0 <= i < j < |d| ==> d[i].0 != d[j].0
  }

  /** Python `d.get(k)`: the value stored under `k`, if any. */
  function Get<K(==), V>(d: Dict<K, V>, k: K): (r: Option<V>)
    ensures r.Some? <==> k in Keys(d)
  {
    if |d| == 0 then None
    else if d[0].0 == k then Some(d[0].1)
    else
      assert Keys(d) == [d[0].0] + Keys(d[1..]);
      Get(d[1..], k)
  }

  /** With distinct keys, every entry is what looking its key up finds. */
  lemma {:induction false} GetAt<K, V>(d: Dict<K, V>, i: nat)
    requires DistinctKeys(d) && i < |d|
    ensures Get(d, d[i].0) == Some(d[i].1)
  {
    if i > 0 {
      assert d[1..][i - 1] == d[i];
      assert DistinctKeys(d[1..]);
      GetAt(d[1..], i - 1);
    }
  }

  /** Looking a key up in a concatenation finds the first part's entry first. */
  lemma {:induction false} GetAppend<K, V>(d: Dict<K, V>, e: Dict<K, V>, k: K)
    ensures Get(d + e, k) == if k in Keys(d) then Get(d, k) else Get(e, k)
  {
    if |d| > 0 {
      assert (d + e)[0] == d[0];
      assert (d + e)[1..] == d[1..] + e;
      assert Keys(d) == [d[0].0] + Keys(d[1..]);
      if d[0].0 != k {
        GetAppend(d[1..], e, k);
      }
    } else {
      assert d + e == e;
    }
  }

  /** Python `d[k] = v`. */
  function Put<K(==), V>(d: Dict<K, V>, k: K, v: V): (r: Dict<K, V>)
    ensures Keys(r) == if k in Keys(d) then Keys(d) else Keys(d) + [k]
  {
    if |d| == 0 then [(k, v)]
    else if d[0].0 == k then [(k, v)] + d[1..]
    else
      assert Keys(d) == [d[0].0] + Keys(d[1..]);
      var r := [d[0]] + Put(d[1..], k, v);
      assert Keys(r) == [d[0].0] + Keys(Put(d[1..], k, v));
      r
  }

  lemma {:induction false} PutGet<K, V>(d: Dict<K, V>, k: K, v: V, k': K)
    ensures Get(Put(d, k, v), k') == if k' == k then Some(v) else Get(d, k')
  {
    if |d| > 0 && d[0].0 != k {
      PutGet(d[1..], k, v, k');
      assert Put(d, k, v)[1..] == Put(d[1..], k, v);
    }
  }

  lemma PutDistinct<K, V>(d: Dict<K, V>, k: K, v: V)
    requires DistinctKeys(d)
    ensures DistinctKeys(Put(d, k, v))
  {
    var r := Put(d, k, v);
    forall i, j | 0 <= i < j < |r| ensures r[i].0 != r[j].0 {
      assert Keys(r)[i] == r[i].0 && Keys(r)[j] == r[j].0;
      if k !in Keys(d) && j == |d| {
        assert Keys(d)[i] == Keys(r)[i];
      } else {
        assert Keys(d)[i] == Keys(r)[i] && Keys(d)[j] == Keys(r)[j];
      }
    }
  }

  /** Python `d |= e`: every entry of `e`, in order, assigned into `d`. */
  function Update<K(==), V>(d: Dict<K, V>, e: Dict<K, V>): Dict<K, V>
    decreases |e|
  {
    if |e| == 0 then d else Update(Put(d, e[0].0, e[0].1), e[1..])
  }

  /** `d |= [(k, v)] + e` assigns `k` first and then the rest. */
  lemma UpdateCons<K, V>(d: Dict<K, V>, k: K, v: V, e: Dict<K, V>)
    ensures Update(d, [(k, v)] + e) == Update(Put(d, k, v), e)
  {
    assert ([(k, v)] + e)[1..] == e;
  }

  /** After `d |= e` the keys of `e` read from `e` (its last entry for a key) and the others from `d`. */
  lemma {:induction false} UpdateGet<K, V>(d: Dict<K, V>, e: Dict<K, V>, k: K)
    requires DistinctKeys(e)
    ensures Get(Update(d, e), k) == if k in Keys(e) then Get(e, k) else Get(d, k)
    decreases |e|
  {
    if |e| > 0 {
      assert Keys(e) == [e[0].0] + Keys(e[1..]);
      assert DistinctKeys(e[1..]);
      UpdateGet(Put(d, e[0].0, e[0].1), e[1..], k);
      PutGet(d, e[0].0, e[0].1, k);
      if k == e[0].0 {
        assert k !in Keys(e[1..]) by {
          forall i | 0 <= i < |e[1..]| ensures e[1..][i].0 != k {
            assert e[1..][i] == e[i + 1];
          }
        }
      }
    }
  }

  /** `d |= e` keeps the old keys in place and appends the new ones in `e`'s order. */
  lemma {:induction false} UpdateKeys<K, V>(d: Dict<K, V>, e: Dict<K, V>, k: K)
    ensures k in Keys(Update(d, e)) <==> k in Keys(d) || k in Keys(e)
    ensures DistinctKeys(d) ==> DistinctKeys(Update(d, e))
    decreases |e|
  {
    if |e| > 0 {
      var d' := Put(d, e[0].0, e[0].1);
      assert Keys(e) == [e[0].0] + Keys(e[1..]);
      assert k in Keys(d') <==> k in Keys(d) || k == e[0].0;
      UpdateKeys(d', e[1..], k);
    }
    if DistinctKeys(d) {
      UpdateDistinct(d, e);
    }
  }

  lemma {:induction false} UpdateDistinct<K, V>(d: Dict<K, V>, e: Dict<K, V>)
    requires DistinctKeys(d)
    ensures DistinctKeys(Update(d, e))
    decreases |e|
  {
    if |e| > 0 {
      PutDistinct(d, e[0].0, e[0].1);
      UpdateDistinct(Put(d, e[0].0, e[0].1), e[1..]);
    }
  }

  /**
   * `{k: f(v) for k, v in d.items()}` where `f` may raise: the first value that fails
   * stops the comprehension, otherwise every key keeps its place with its new value.
   */
  function TryMapValues<K, V, W>(d: Dict<K, V>, f: V -> Outcome<W>): (r: Outcome<Dict<K, W>>)
    ensures r.Ok? <==> forall i :: 0 <= i < |d| ==> f(d[i].1).Ok?
    ensures r.Ok? ==> Keys(r.value) == Keys(d)
    ensures r.Ok? ==> forall i :: 0 <= i < |d| ==> r.value[i].1 == f(d[i].1).value
  {
    if |d| == 0 then Ok([])
    else
      var v :- f(d[0].1);
      var rest :- TryMapValues(d[1..], f);
      assert forall i :: 1 <= i < |d| ==> d[i] == d[1..][i - 1];
      assert Keys(d) == [d[0].0] + Keys(d[1..]);
      Ok([(d[0].0, v)] + rest)
  }

  /** `{key(x): val(x) for x in xs}` where `val` may raise: each item in order, or the first error. */
  function TryPairs<T, K, U>(xs: seq<T>, key: T -> K, val: T --> Outcome<U>): (r: Outcome<Dict<K, U>>)
    requires forall i :: 0 <= i < |xs| ==> val.requires(xs[i])
    ensures r.Ok? <==> forall i :: 0 <= i < |xs| ==> val(xs[i]).Ok?
    ensures r.Ok? ==> |r.value| == |xs| && forall i :: 0 <= i < |xs| ==> r.value[i] == (key(xs[i]), val(xs[i]).value)
  {
    if |xs| == 0 then Ok([])
    else
      var v :- val(xs[0]);
      assert forall i :: 1 <= i < |xs| ==> xs[i] == xs[1..][i - 1];
      var rest :- TryPairs(xs[1..], key, val);
      Ok([(key(xs[0]), v)] + rest)
  }

  /** The items `keep` accepts, in order: `[x for x in xs if keep(x)]`. */
  function Kept<T(!new)>(xs: seq<T>, keep: T -> bool): (r: seq<T>)
    ensures forall i :: 0 <= i < |r| ==> r[i] in xs && keep(r[i])
    ensures forall x :: x in xs && keep(x) ==> x in r
  {
    if |xs| == 0 then []
    else
      assert forall i :: 1 <= i < |xs| ==> xs[i] == xs[1..][i - 1];
      if keep(xs[0]) then [xs[0]] + Kept(xs[1..], keep) else Kept(xs[1..], keep)
  }

  /** No two items share a key. */
  ghost predicate DistinctBy<T, K>(xs: seq<T>, key: T -> K) {
    forall a, b :: 0 <= a < b < |xs| ==> key(xs[a]) != key(xs[b])
  }

  /** Keeping items whose keys are pairwise distinct keeps the keys pairwise distinct. */
  lemma {:induction false} KeptDistinct<T(!new), K>(xs: seq<T>, keep: T -> bool, key: T -> K)
    requires DistinctBy(xs, key)
    ensures DistinctBy(Kept(xs, keep), key)
  {
    if |xs| > 0 {
      var tl := xs[1..];
      assert DistinctBy(tl, key) by {
        assert forall i :: 1 <= i < |xs| ==> xs[i] == tl[i - 1];
      }
      KeptDistinct(tl, keep, key);
      if keep(xs[0]) {
        var rest := Kept(tl, keep);
        forall i | 0 <= i < |rest| ensures key(rest[i]) != key(xs[0]) {
          assert rest[i] in tl;
          var j :| 0 <= j < |tl| && tl[j] == rest[i];
          assert key(rest[i]) == key(xs[j + 1]);
        }
        DistinctCons(xs[0], rest, key);
      }
    }
  }

  lemma DistinctCons<T, K>(x: T, rest: seq<T>, key: T -> K)
    requires DistinctBy(rest, key)
    requires forall i :: 0 <= i < |rest| ==> key(rest[i]) != key(x)
    ensures DistinctBy([x] + rest, key)
  {
    var r := [x] + rest;
    forall a, b | 0 <= a < b < |r| ensures key(r[a]) != key(r[b]) {
      assert r[b] == rest[b - 1];
      if a > 0 {
        assert r[a] == rest[a - 1];
      }
    }
  }

  /** The pairs of the kept items are computed exactly when every kept item's value is. */
  lemma KeptOk<T(!new), K, U>(xs: seq<T>, keep: T -> bool, key: T -> K, val: T --> Outcome<U>)
    requires forall x :: keep(x) ==> val.requires(x)
    ensures TryPairs(Kept(xs, keep), key, val).Ok? <==> forall j :: 0 <= j < |xs| && keep(xs[j]) ==> val(xs[j]).Ok?
  {
    var kept := Kept(xs, keep);
    if forall j :: 0 <= j < |xs| && keep(xs[j]) ==> val(xs[j]).Ok? {
      forall i | 0 <= i < |kept| ensures val(kept[i]).Ok? {
        assert kept[i] in xs;
      }
    } else {
      var j :| 0 <= j < |xs| && keep(xs[j]) && val(xs[j]).Err?;
      assert xs[j] in kept;
    }
  }

  /** Every key among the kept items' pairs is a kept item's key. */
  lemma KeptKeys<T(!new), K, U>(xs: seq<T>, keep: T -> bool, key: T -> K, val: T --> Outcome<U>)
    requires forall x :: keep(x) ==> val.requires(x)
    requires TryPairs(Kept(xs, keep), key, val).Ok?
    ensures var r := TryPairs(Kept(xs, keep), key, val).value;
      forall i :: 0 <= i < |r| ==> exists j :: 0 <= j < |xs| && keep(xs[j]) && r[i].0 == key(xs[j])
  {
    var kept := Kept(xs, keep);
    var r := TryPairs(kept, key, val).value;
    forall i | 0 <= i < |r| ensures exists j :: 0 <= j < |xs| && keep(xs[j]) && r[i].0 == key(xs[j]) {
      assert kept[i] in xs;
      var j :| 0 <= j < |xs| && xs[j] == kept[i];
      assert r[i].0 == key(xs[j]);
    }
  }

  /** Every kept item has its pair among the kept items' pairs. */
  lemma KeptPairsIn<T(!new), K, U>(xs: seq<T>, keep: T -> bool, key: T -> K, val: T --> Outcome<U>)
    requires forall x :: keep(x) ==> val.requires(x)
    requires TryPairs(Kept(xs, keep), key, val).Ok?
    ensures var r := TryPairs(Kept(xs, keep), key, val).value;
      forall j :: 0 <= j < |xs| && keep(xs[j]) ==> val(xs[j]).Ok? && (key(xs[j]), val(xs[j]).value) in r
  {
    var kept := Kept(xs, keep);
    var r := TryPairs(kept, key, val).value;
    forall j | 0 <= j < |xs| && keep(xs[j]) ensures val(xs[j]).Ok? && (key(xs[j]), val(xs[j]).value) in r {
      assert xs[j] in kept;
      var i :| 0 <= i < |kept| && kept[i] == xs[j];
      assert r[i] == (key(xs[j]), val(xs[j]).value);
    }
  }

  /** Items with distinct keys give pairs with distinct keys. */
  lemma KeptPairsDistinct<T(!new), K, U>(xs: seq<T>, keep: T -> bool, key: T -> K, val: T --> Outcome<U>)
    requires forall x :: keep(x) ==> val.requires(x)
    requires TryPairs(Kept(xs, keep), key, val).Ok?
    requires DistinctBy(xs, key)
    ensures DistinctKeys(TryPairs(Kept(xs, keep), key, val).value)
  {
    var kept := Kept(xs, keep);
    var r := TryPairs(kept, key, val).value;
    KeptDistinct(xs, keep, key);
    assert forall i :: 0 <= i < |r| ==> r[i].0 == key(kept[i]);
  }

  /** Python `dict(pairs)`: later pairs overwrite earlier ones with the same key. */
  function FromPairs<K(==), V>(pairs: seq<(K, V)>): Dict<K, V> {
    Update([], pairs)
  }

  /** Python `dict(zip(ks, vs, strict=True))`: a length mismatch raises. */
  function ZipStrict<K(==), V>(ks: seq<K>, vs: seq<V>): (r: Outcome<Dict<K, V>>)
    ensures r.Ok? <==> |ks| == |vs|
  {
    if |ks| != |vs| then Err(ValueError(ZIP_LENGTHS))
    else Ok(FromPairs(Zip(ks, vs)))
  }

  function Zip<A, B>(xs: seq<A>, ys: seq<B>): (r: seq<(A, B)>)
    requires |xs| == |ys|
    ensures Keys(r) == xs && Values(r) == ys
  {
    seq(|xs|, i requires 0 <= i < |xs| => (xs[i], ys[i]))
  }

  /** Zipping distinct keys keeps every pair, in order. */
  lemma ZipDistinct<K, V>(ks: seq<K>, vs: seq<V>)
    requires |ks| == |vs|
    requires forall i, j :: 0 <= i < j < |ks| ==> ks[i] != ks[j]
    ensures ZipStrict(ks, vs) == Ok(Zip(ks, vs))
  {
    var z := Zip(ks, vs);
    assert DistinctKeys(z) by {
      forall i, j | 0 <= i < j < |z| ensures z[i].0 != z[j].0 {
        assert Keys(z)[i] == ks[i] && Keys(z)[j] == ks[j];
      }
    }
    UpdateFreshAppends([], z);
    assert [] + z == z;
  }

  /** No element of `xs` occurs twice. */
  predicate Distinct<T(==)>(xs: seq<T>) {
    forall i, j :: 0 <= i < j < |xs| ==> xs[i] != xs[j]
  }

  /** Zipping distinct keys gives a mapping that reads each key's value. */
  lemma KeyedByZip<K, V>(ks: seq<K>, vs: seq<V>)
    requires |ks| == |vs| && Distinct(ks)
    ensures ZipStrict(ks, vs).Ok? && Keys(ZipStrict(ks, vs).value) == ks
    ensures forall i :: 0 <= i < |ks| ==> Get(ZipStrict(ks, vs).value, ks[i]) == Some(vs[i])
  {
    ZipDistinct(ks, vs);
    var z := Zip(ks, vs);
    assert DistinctKeys(z) by {
      forall i, j | 0 <= i < j < |z| ensures z[i].0 != z[j].0 {
        assert Keys(z)[i] == ks[i] && Keys(z)[j] == ks[j];
      }
    }
    forall i | 0 <= i < |ks| ensures Get(z, ks[i]) == Some(vs[i]) {
      assert Keys(z)[i] == ks[i] && Values(z)[i] == vs[i];
      GetAt(z, i);
    }
  }

  /** None of `e`'s keys is already in `d`. */
  ghost predicate FreshKeys<K, V>(d: Dict<K, V>, e: Dict<K, V>) {
    forall i :: 0 <= i < |e| ==> e[i].0 !in Keys(d)
  }

  lemma FreshKeysTail<K, V>(d: Dict<K, V>, e: Dict<K, V>)
    requires |e| > 0 && DistinctKeys(e) && FreshKeys(d, e)
    ensures FreshKeys(d + [e[0]], e[1..]) && DistinctKeys(e[1..])
  {
    var d' := d + [e[0]];
    assert Keys(d') == Keys(d) + [e[0].0];
    forall i | 0 <= i < |e[1..]| ensures e[1..][i].0 !in Keys(d') {
      assert e[1..][i] == e[i + 1];
      assert e[i + 1].0 != e[0].0;
    }
  }

  /** Assigning keys that are all new only appends them. */
  lemma {:induction false} UpdateFreshAppends<K, V>(d: Dict<K, V>, e: Dict<K, V>)
    requires DistinctKeys(e) && FreshKeys(d, e)
    ensures Update(d, e) == d + e
    decreases |e|
  {
    if |e| > 0 {
      UpdateFreshStep(d, e);
      FreshKeysTail(d, e);
      UpdateFreshAppends(d + [e[0]], e[1..]);
      AppendHead(d, e);
    }
  }

  /** Assigning a first key that is new appends its entry before the rest is assigned. */
  lemma UpdateFreshStep<K, V>(d: Dict<K, V>, e: Dict<K, V>)
    requires |e| > 0 && e[0].0 !in Keys(d)
    ensures Update(d, e) == Update(d + [e[0]], e[1..])
  {
    PutFreshAppends(d, e[0].0, e[0].1);
  }

  lemma AppendHead<T>(d: seq<T>, e: seq<T>)
    requires |e| > 0
    ensures d + [e[0]] + e[1..] == d + e
  {
    assert e == [e[0]] + e[1..];
  }

  lemma {:induction false} PutFreshAppends<K, V>(d: Dict<K, V>, k: K, v: V)
    requires k !in Keys(d)
    ensures Put(d, k, v) == d + [(k, v)]
  {
    if |d| > 0 {
      assert Keys(d) == [d[0].0] + Keys(d[1..]);
      PutFreshAppends(d[1..], k, v);
      assert [d[0]] + (d[1..] + [(k, v)]) == d + [(k, v)];
    }
  }

  /** `{k: v for k, v in d.items() if keep(k)}`: the kept entries, in `d`'s order. */
  function FilterKeys<K, V>(d: Dict<K, V>, keep: K -> bool): (r: Dict<K, V>)
    ensures |r| <= |d|
    ensures forall i :: 0 <= i < |r| ==> r[i] in d && keep(r[i].0)
    ensures forall i :: 0 <= i < |d| && keep(d[i].0) ==> d[i] in r
  {
    if |d| == 0 then []
    else
      var rest := FilterKeys(d[1..], keep);
      assert forall i :: 1 <= i < |d| ==> d[i] == d[1..][i - 1];
      if keep(d[0].0) then [d[0]] + rest else rest
  }

  /** Filtering distributes over concatenation, so it keeps the relative order of entries. */
  lemma {:induction false} FilterKeysAppend<K, V>(d: Dict<K, V>, e: Dict<K, V>, keep: K -> bool)
    ensures FilterKeys(d + e, keep) == FilterKeys(d, keep) + FilterKeys(e, keep)
    decreases |d|
  {
    if |d| > 0 {
      assert (d + e)[1..] == d[1..] + e;
      FilterKeysAppend(d[1..], e, keep);
    } else {
      assert d + e == e;
    }
  }

  /** Nothing is dropped when every key is kept. */
  lemma {:induction false} FilterKeysAll<K, V>(d: Dict<K, V>, keep: K -> bool)
    requires forall i :: 0 <= i < |d| ==> keep(d[i].0)
    ensures FilterKeys(d, keep) == d
    decreases |d|
  {
    if |d| > 0 {
      FilterKeysAll(d[1..], keep);
    }
  }

  /** Looking a key up after filtering: the kept keys read as before, the others are gone. */
  lemma {:induction false} FilterKeysGet<K, V>(d: Dict<K, V>, keep: K -> bool, k: K)
    ensures Get(FilterKeys(d, keep), k) == if keep(k) then Get(d, k) else None
    decreases |d|
  {
    if |d| > 0 {
      FilterKeysGet(d[1..], keep, k);
      if keep(d[0].0) {
        assert ([d[0]] + FilterKeys(d[1..], keep))[1..] == FilterKeys(d[1..], keep);
      }
    }
  }

  /** `[fun(x) for x in xs]` where `fun` may raise: the first exception propagates. */
  function TryMap<T, U>(xs: seq<T>, f: T -> Outcome<U>): (r: Outcome<seq<U>>)
    ensures r.Ok? <==> forall i :: 0 <= i < |xs| ==> f(xs[i]).Ok?
    ensures r.Ok? ==> |r.value| == |xs| && forall i :: 0 <= i < |xs| ==> r.value[i] == f(xs[i]).value
    ensures r.Err? ==> exists i :: (0 <= i < |xs| && f(xs[i]) == Err(r.error)
      && forall j :: 0 <= j < i ==> f(xs[j]).Ok?)
  {
    if |xs| == 0 then Ok([])
    else
      var h :- f(xs[0]);
      var t := TryMap(xs[1..], f);
      if t.Err? then
        assert forall j :: 1 <= j < |xs| ==> xs[j] == xs[1..][j - 1];
        Err(t.error)
      else
        assert forall j :: 1 <= j < |xs| ==> xs[j] == xs[1..][j - 1];
        Ok([h] + t.value)
  }

  /** Mapping a non-empty sequence is mapping its head, then its tail. */
  lemma TryMapCons<T, U>(xs: seq<T>, f: T -> Outcome<U>, h: U)
    requires |xs| > 0 && f(xs[0]) == Ok(h)
    ensures TryMap(xs, f).Ok? <==> TryMap(xs[1..], f).Ok?
    ensures TryMap(xs, f).Ok? ==> TryMap(xs, f).value == [h] + TryMap(xs[1..], f).value
  {
  }
}

=== FILE: filesystem.dfy ===
/**
 * The filesystem as explicit state: the set of existing directories and the text of
 * every existing file. "/" and "." always exist as directories.
 */
module FileSystem {
  import opened Wrappers
  import opened PurePath

  datatype FS = FS(dirs: set<Path>, files: map<Path, string>)

  /** `p.is_dir()`. */
  predicate IsDir(fs: FS, p: Path) {
    |p.parts| == 0 || p in fs.dirs
  }

  /** `p.is_file()`. */
  predicate IsFile(fs: FS, p: Path) {
    p in fs.files
  }

  /** `p.exists()`. */
  predicate Exists(fs: FS, p: Path) {
    IsDir(fs, p) || IsFile(fs, p)
  }

  /** The first `n` segments of `p`, keeping its anchor. */
  function Prefix(p: Path, n: nat): Path
    requires n <= |p.parts|
  {
    Path(p.absolute, p.parts[..n])
  }

  /** Some proper ancestor of `p` is a file, so nothing can be created below it. */
  predicate BlockedByFile(fs: FS, p: Path) {
    exists n :: 0 < n < |p.parts| && IsFile(fs, Prefix(p, n))
  }

  /** `p` and all its non-trivial ancestors. */
  function Lineage(p: Path): (r: set<Path>)
    ensures forall n :: 0 < n <= |p.parts| ==> Prefix(p, n) in r
    ensures forall q :: q in r ==> exists n :: 0 < n <= |p.parts| && q == Prefix(p, n)
  {
    set n | 0 < n <= |p.parts| :: Prefix(p, n)
  }

  /** `p.mkdir(parents=True, exist_ok=True)`. */
  function MakeDirs(fs: FS, p: Path): (r: Outcome<FS>)
    ensures r.Ok? <==> !IsFile(fs, p) && !BlockedByFile(fs, p)
    ensures r.Ok? ==> (IsDir(r.value, p) && r.value.files == fs.files
      && r.value.dirs == fs.dirs + Lineage(p))
  {
    if IsFile(fs, p) then Err(FileExistsError(Str(p)))
    else if BlockedByFile(fs, p) then Err(NotADirectoryError(Str(p)))
    else
      assert Prefix(p, |p.parts|) == p;
      Ok(FS(fs.dirs + Lineage(p), fs.files))
  }

  /** Creating a directory that was just created changes nothing. */
  lemma MakeDirsIdempotent(fs: FS, p: Path)
    requires MakeDirs(fs, p).Ok?
    ensures MakeDirs(MakeDirs(fs, p).value, p) == MakeDirs(fs, p)
  {
  }

  /** `p.touch()` on a path that may not exist: creates an empty file when missing. */
  function Touch(fs: FS, p: Path): (r: Outcome<FS>)
    ensures r.Ok? <==> Exists(fs, p) || IsDir(fs, Parent(p))
    ensures r.Ok? ==> IsFile(r.value, p) || IsDir(r.value, p)
    ensures r.Ok? && Exists(fs, p) ==> r.value == fs
    ensures r.Ok? && !Exists(fs, p) ==> r.value == FS(fs.dirs, fs.files[p := ""])
  {
    if Exists(fs, p) then Ok(fs)
    else if IsDir(fs, Parent(p)) then Ok(FS(fs.dirs, fs.files[p := ""]))
    else if Exists(fs, Parent(p)) || BlockedByFile(fs, Parent(p)) then Err(NotADirectoryError(Str(p)))
    else Err(FileNotFoundError(Str(p)))
  }

  /** `p.write_text(text)`: replaces or creates the file; the parent must be a directory. */
  function WriteText(fs: FS, p: Path, text: string): (r: Outcome<FS>)
    ensures r.Ok? <==> !IsDir(fs, p) && IsDir(fs, Parent(p))
    ensures r.Ok? ==> r.value == FS(fs.dirs, fs.files[p := text])
  {
    if IsDir(fs, p) then Err(IsADirectoryError(Str(p)))
    else if !IsDir(fs, Parent(p)) then
      if Exists(fs, Parent(p)) || BlockedByFile(fs, Parent(p)) then Err(NotADirectoryError(Str(p)))
      else Err(FileNotFoundError(Str(p)))
    else Ok(FS(fs.dirs, fs.files[p := text]))
  }
}

=== FILE: fitmodel.dfy ===
/**
 * The pydantic `Fit` parameters model: parameter and error names derived from the
 * model's parameter list, and the two validators that substitute infinities and avoid
 * exact zeros in the bounds and initial values.
 */
module FitModel {
  import opened Wrappers
  import opened Dict
  import Text
  import Fits

  const FLOAT_NOT_ITERABLE := "argument of type 'float' is not iterable"

  const MIN_NZ: real := Fits.EPS
  const LB_MIN: real := Fits.EPS
  const H_MIN: real := LB_MIN
  const MODEL_PARAMS: seq<string> := ["T_s", "q_s", "k", "h_a", "h_w"]
  const FIXED_PARAMS: seq<string> := ["k", "h_w"]

  /** `[p for p in xs if p not in excluded]`. */
  function Excluding<T(==)>(xs: seq<T>, excluded: seq<T>): (r: seq<T>)
    ensures |r| <= |xs|
  {
    if |xs| == 0 then []
    else (if xs[0] in excluded then [] else [xs[0]]) + Excluding(xs[1..], excluded)
  }

  /** An entry survives exactly when it is listed and not excluded. */
  lemma {:induction false} ExcludingMembers<T>(xs: seq<T>, excluded: seq<T>, x: T)
    ensures x in Excluding(xs, excluded) <==> x in xs && x !in excluded
  {
    if |xs| > 0 {
      ExcludingMembers(xs[1..], excluded, x);
      assert xs == [xs[0]] + xs[1..];
    }
  }

  /** Removing from a list keeps the survivors' relative order. */
  lemma {:induction false} ExcludingAppend<T>(xs: seq<T>, ys: seq<T>, excluded: seq<T>)
    ensures Excluding(xs + ys, excluded) == Excluding(xs, excluded) + Excluding(ys, excluded)
  {
    if |xs| > 0 {
      assert (xs + ys)[0] == xs[0];
      assert (xs + ys)[1..] == xs[1..] + ys;
      ExcludingAppend(xs[1..], ys, excluded);
      var head := if xs[0] in excluded then [] else [xs[0]];
      assert Excluding(xs + ys, excluded) == head + Excluding(xs[1..] + ys, excluded);
      assert Excluding(xs, excluded) == head + Excluding(xs[1..], excluded);
    } else {
      assert xs + ys == ys;
    }
  }

  /** Dropping the third and fifth of five entries. */
  lemma ExcludingThirdAndFifth<T>(a: T, b: T, c: T, d: T, e: T)
    requires a != c && a != e && b != c && b != e && d != c && d != e
    ensures Excluding([a, b, c, d, e], [c, e]) == [a, b, d]
  {
    var ex := [c, e];
    assert Excluding([e], ex) == [] by {
      ExcludingCons(e, [], ex);
    }
    assert Excluding([d, e], ex) == [d] by {
      ExcludingCons(d, [e], ex);
    }
    assert Excluding([c, d, e], ex) == [d] by {
      ExcludingCons(c, [d, e], ex);
    }
    assert Excluding([b, c, d, e], ex) == [b, d] by {
      ExcludingCons(b, [c, d, e], ex);
    }
    ExcludingCons(a, [b, c, d, e], ex);
  }

  lemma ExcludingCons<T>(x: T, xs: seq<T>, excluded: seq<T>)
    ensures Excluding([x] + xs, excluded) == (if x in excluded then [] else [x]) + Excluding(xs, excluded)
  {
    assert ([x] + xs)[1..] == xs;
  }

  function FreeParams(): seq<string> {
    Excluding(MODEL_PARAMS, FIXED_PARAMS)
  }

  /** The free parameters are the model parameters that are not fixed, in model order. */
  lemma FreeParamsValue()
    ensures FreeParams() == ["T_s", "q_s", "h_a"]
  {
    ExcludingThirdAndFifth("T_s", "q_s", "k", "h_a", "h_w");
  }

  /** The error names of the free parameters. */
  lemma FreeErrorsValue()
    ensures Fits.ErrorNames(FreeParams()) == ["T_s_err", "q_s_err", "h_a_err"]
  {
    FreeParamsValue();
    FreeErrorLiterals();
  }

  lemma FreeErrorLiterals()
    ensures Fits.ErrorNames(["T_s", "q_s", "h_a"]) == ["T_s_err", "q_s_err", "h_a_err"]
  {
    var e := Fits.ErrorNames(["T_s", "q_s", "h_a"]);
    assert e[0] == "T_s" + "_err" == "T_s_err";
    assert e[1] == "q_s" + "_err" == "q_s_err";
    assert e[2] == "h_a" + "_err" == "h_a_err";
  }

  /** The error names of the fixed parameters. */
  lemma FixedErrorsValue()
    ensures Fits.ErrorNames(FIXED_PARAMS) == ["k_err", "h_w_err"]
  {
    var e := Fits.ErrorNames(FIXED_PARAMS);
    assert e[0] == "k" + "_err" == "k_err";
    assert e[1] == "h_w" + "_err" == "h_w_err";
  }

  /** `params_and_errors`: the model parameters followed by their errors. */
  function ParamsAndErrors(): (r: seq<string>)
    ensures |r| == 2 * |MODEL_PARAMS|
    ensures forall i :: 0 <= i < |MODEL_PARAMS| ==> r[i] == MODEL_PARAMS[i] && r[|MODEL_PARAMS| + i] == Fits.ErrName(r[i])
  {
    MODEL_PARAMS + Fits.ErrorNames(MODEL_PARAMS)
  }

  /** A bound as the model accepts it: a float or one of the strings "-inf" and "inf". */
  datatype BoundVal = Float(n: Fits.Num) | Str(s: string)

  type Bound = (BoundVal, BoundVal)

  const DEFAULT_BOUNDS: Dict<string, Bound> := [
    ("T_s", (Float(Fits.Finite(-273.0)), Str("inf"))),
    ("q_s", (Str("-inf"), Str("inf"))),
    ("k", (Float(Fits.Finite(LB_MIN)), Str("inf"))),
    ("h_a", (Float(Fits.Finite(LB_MIN)), Str("inf"))),
    ("h_w", (Float(Fits.Finite(LB_MIN)), Str("inf")))]

  const DEFAULT_INITIAL_VALUES: Dict<string, real> := [
    ("T_s", 100.0), ("q_s", 10.0), ("k", 400.0), ("h_a", H_MIN), ("h_w", H_MIN)]

  /** The lower bound: a string containing "-inf" is minus infinity, an exact zero is `MIN_NZ`. */
  function LowerBound(b0: BoundVal): (r: BoundVal)
    ensures r != Float(Fits.Finite(0.0))
    ensures b0.Str? && Text.Contains(b0.s, "-inf") ==> r == Float(Fits.NegInf)
    ensures (b0.Str? && !Text.Contains(b0.s, "-inf")) || (b0.Float? && b0.n != Fits.Finite(0.0)) ==> r == b0
  {
    if b0.Str? && Text.Contains(b0.s, "-inf") then Float(Fits.NegInf)
    else if b0 == Float(Fits.Finite(0.0)) then Float(Fits.Finite(MIN_NZ))
    else b0
  }

  /**
   * One bound as the validator handles it: the upper bound is examined only when the LOWER
   * bound is a string, and `"inf" in b[1]` raises when the upper bound is then a float.
   */
  function ValidateBoundAsWritten(b: Bound): (r: Outcome<Bound>)
    ensures r.Ok? <==> !(b.0.Str? && b.1.Float?)
    ensures r.Ok? ==> r.value.0 == LowerBound(b.0)
    ensures r.Ok? && b.0.Float? ==> r.value.1 == b.1
  {
    var b0 := LowerBound(b.0);
    if b.0.Str? then
      match b.1
      case Float(_) => Err(TypeError(FLOAT_NOT_ITERABLE))
      case Str(s) => Ok((b0, if Text.Contains(s, "inf") then Float(Fits.PosInf) else b.1))
    else Ok((b0, b.1))
  }

  /** The upper bound as evidently intended: a string containing "inf" is plus infinity. */
  function UpperBound(b1: BoundVal): (r: BoundVal)
    ensures !(r.Str? && Text.Contains(r.s, "inf"))
    ensures !(b1.Str? && Text.Contains(b1.s, "inf")) ==> r == b1
  {
    if b1.Str? && Text.Contains(b1.s, "inf") then Float(Fits.PosInf) else b1
  }

  /** `validate_model_bounds` as written, over the whole mapping; the first bad entry raises. */
  function ValidateModelBoundsAsWritten(bounds: Dict<string, Bound>): (r: Outcome<Dict<string, Bound>>)
    ensures r.Ok? <==> forall i :: 0 <= i < |bounds| ==> ValidateBoundAsWritten(bounds[i].1).Ok?
    ensures r.Ok? ==> |r.value| == |bounds|
    ensures r.Ok? ==> forall i :: 0 <= i < |bounds| ==>
      r.value[i] == (bounds[i].0, ValidateBoundAsWritten(bounds[i].1).value)
  {
    if |bounds| == 0 then Ok([])
    else
      var head := ValidateBoundAsWritten(bounds[0].1);
      var rest := ValidateModelBoundsAsWritten(bounds[1..]);
      if head.Err? then Err(head.error)
      else if rest.Err? then
        ghost var i :| 0 <= i < |bounds[1..]| && ValidateBoundAsWritten(bounds[1..][i].1).Err?;
        assert bounds[1..][i] == bounds[i + 1];
        Err(rest.error)
      else
        var r := [(bounds[0].0, head.value)] + rest.value;
        assert forall i :: 1 <= i < |bounds| ==> r[i] == rest.value[i - 1] && bounds[i] == bounds[1..][i - 1];
        Ok(r)
  }

  /** As written, the validator keeps the keys and their order. */
  lemma ValidateModelBoundsAsWrittenKeys(bounds: Dict<string, Bound>)
    requires ValidateModelBoundsAsWritten(bounds).Ok?
    ensures Keys(ValidateModelBoundsAsWritten(bounds).value) == Keys(bounds)
  {
  }

  /** `validate_model_bounds` corrected to test the upper bound itself: it never raises. */
  function ValidateModelBounds(bounds: Dict<string, Bound>): (r: Dict<string, Bound>)
    ensures Keys(r) == Keys(bounds)
    ensures forall i :: 0 <= i < |bounds| ==> r[i].1 == (LowerBound(bounds[i].1.0), UpperBound(bounds[i].1.1))
  {
    seq(|bounds|, i requires 0 <= i < |bounds| => (bounds[i].0, (LowerBound(bounds[i].1.0), UpperBound(bounds[i].1.1))))
  }

  /** What the corrected validator promises: no "inf" string survives as an upper bound, no zero as a lower one. */
  predicate Validated(bounds: Dict<string, Bound>) {
    forall i :: 0 <= i < |bounds| ==>
      bounds[i].1.0 != Float(Fits.Finite(0.0)) && !(bounds[i].1.0.Str? && Text.Contains(bounds[i].1.0.s, "-inf"))
      && !(bounds[i].1.1.Str? && Text.Contains(bounds[i].1.1.s, "inf"))
  }

  /** The corrected validator establishes its promise, and validating again changes nothing. */
  lemma ValidateModelBoundsSound(bounds: Dict<string, Bound>)
    ensures Validated(ValidateModelBounds(bounds))
    ensures ValidateModelBounds(ValidateModelBounds(bounds)) == ValidateModelBounds(bounds)
  {
    var r := ValidateModelBounds(bounds);
    forall i | 0 <= i < |r| ensures r[i] == (bounds[i].0, r[i].1) {
      assert Keys(r)[i] == r[i].0;
    }
  }

  /** Already-validated bounds pass through the corrected validator unchanged. */
  lemma ValidatedFixed(bounds: Dict<string, Bound>)
    requires Validated(bounds)
    ensures ValidateModelBounds(bounds) == bounds
  {
    var r := ValidateModelBounds(bounds);
    forall i | 0 <= i < |r| ensures r[i] == bounds[i] {
      assert Keys(r)[i] == r[i].0 && Keys(bounds)[i] == bounds[i].0;
    }
  }

  /**
   * The validator body called directly on the default bounds, as written, keeps the string
   * "inf" as T_s's upper bound (every numeric lower bound leaves its upper bound alone),
   * and a string lower bound with a float upper bound raises; the corrected validator
   * turns the upper bound into infinity.
   */
  lemma UpperInfKeptAsWritten()
    ensures ValidateModelBoundsAsWritten(DEFAULT_BOUNDS).Ok?
    ensures ValidateModelBoundsAsWritten(DEFAULT_BOUNDS).value[0] == ("T_s", (Float(Fits.Finite(-273.0)), Str("inf")))
    ensures ValidateModelBoundsAsWritten(DEFAULT_BOUNDS).value[1] == ("q_s", (Float(Fits.NegInf), Float(Fits.PosInf)))
    ensures ValidateModelBounds(DEFAULT_BOUNDS)[0] == ("T_s", (Float(Fits.Finite(-273.0)), Float(Fits.PosInf)))
    ensures ValidateBoundAsWritten((Str("-inf"), Float(Fits.Finite(1.0)))).Err?
  {
    assert Text.OccursAt("inf", "inf", 0);
    assert Text.OccursAt("-inf", "-inf", 0);
    assert !Text.Contains("inf", "-inf");
    var r := ValidateModelBoundsAsWritten(DEFAULT_BOUNDS);
    assert Keys(r.value)[0] == "T_s" && Keys(r.value)[1] == "q_s";
  }

  /** `validate_initial_values`: exact zeros become `MIN_NZ`, everything else is kept. */
  function ValidateInitialValues(values: Dict<string, real>): (r: Dict<string, real>)
    ensures Keys(r) == Keys(values)
    ensures forall i :: 0 <= i < |r| ==> r[i].1 != 0.0
    ensures forall i :: 0 <= i < |r| && values[i].1 != 0.0 ==> r[i].1 == values[i].1
    ensures forall i :: 0 <= i < |r| && values[i].1 == 0.0 ==> r[i].1 == MIN_NZ
  {
    seq(|values|, i requires 0 <= i < |values| => (values[i].0, if values[i].1 == 0.0 then MIN_NZ else values[i].1))
  }

  /** Validating initial values twice is validating once. */
  lemma ValidateInitialValuesIdempotent(values: Dict<string, real>)
    ensures ValidateInitialValues(ValidateInitialValues(values)) == ValidateInitialValues(values)
  {
    var r := ValidateInitialValues(values);
    var rr := ValidateInitialValues(r);
    forall i | 0 <= i < |r| ensures rr[i] == r[i] {
      assert Keys(rr)[i] == rr[i].0 && Keys(r)[i] == r[i].0;
    }
  }

  /** The default fit: validated initial values unchanged, fixed values for k and h_w. */
  lemma DefaultFixedValues()
    ensures ValidateInitialValues(DEFAULT_INITIAL_VALUES) == DEFAULT_INITIAL_VALUES
    ensures Fits.FixedValues(DEFAULT_INITIAL_VALUES, FIXED_PARAMS) == [("k", 400.0), ("h_w", H_MIN)]
  {
    var v := DEFAULT_INITIAL_VALUES;
    var keep := Fits.In(FIXED_PARAMS);
    assert FilterKeys(v[5..], keep) == [];
    assert FilterKeys(v[4..], keep) == [v[4]];
    assert FilterKeys(v[3..], keep) == [v[4]];
    assert FilterKeys(v[2..], keep) == [v[2], v[4]];
    assert FilterKeys(v[1..], keep) == [v[2], v[4]];
    var r := ValidateInitialValues(DEFAULT_INITIAL_VALUES);
    forall i | 0 <= i < |r| ensures r[i] == DEFAULT_INITIAL_VALUES[i] {
      assert Keys(r)[i] == r[i].0;
    }
  }
}

=== FILE: fits.dfy ===
/**
 * Parameter bookkeeping around a model fit: the names of the free and fixed
 * parameters and of their errors, the guesses and bounds handed to the optimiser, and
 * the keying of its results. No numerical fitting happens here; parameter values are
 * carried as reals.
 */
module Fits {
  import opened Wrappers
  import opened Dict
  import Text

  /** The name of the error parameter that goes with `p`. */
  function ErrName(p: string): string {
    p + "_err"
  }

  /** `[f"{p}_err" for p in ps]`. */
  function ErrorNames(ps: seq<string>): (r: seq<string>)
    ensures |r| == |ps|
    ensures forall i :: 0 <= i < |ps| ==> r[i] == ErrName(ps[i])
  {
    seq(|ps|, i requires 0 <= i < |ps| => ErrName(ps[i]))
  }

  /** The parameter an error name belongs to, when it is one. */
  function ParamOf(e: string): (r: Option<string>)
    ensures r.Some? <==> Text.EndsWith(e, "_err")
  {
    if Text.EndsWith(e, "_err") then Some(e[..|e| - 4]) else None
  }

  /** Every error name leads back to its parameter, so no two parameters share an error name. */
  lemma ErrorNamesInvert(ps: seq<string>)
    ensures forall i :: 0 <= i < |ps| ==> ParamOf(ErrorNames(ps)[i]) == Some(ps[i])
    ensures Distinct(ps) <==> Distinct(ErrorNames(ps))
  {
    var es := ErrorNames(ps);
    forall i | 0 <= i < |ps| ensures ParamOf(es[i]) == Some(ps[i]) {
      assert es[i][..|es[i]| - 4] == ps[i];
      assert es[i][|es[i]| - 4..] == "_err";
    }
    if Distinct(ps) {
      forall i, j | 0 <= i < j < |es| ensures es[i] != es[j] {
        assert ParamOf(es[i]) == Some(ps[i]) && ParamOf(es[j]) == Some(ps[j]);
      }
    }
  }

  /** Naming errors distributes over concatenation. */
  lemma ErrorNamesAppend(a: seq<string>, b: seq<string>)
    ensures ErrorNames(a + b) == ErrorNames(a) + ErrorNames(b)
  {
  }

  /** The membership test `p in params`, as a key filter. */
  function In(params: seq<string>): string -> bool {
    k => k in params
  }

  /** A bound as the optimiser takes it: a float, possibly infinite. */
  datatype Num = Finite(x: real) | PosInf | NegInf

  /** The `Fit` dataclass, with the fields the bookkeeping reads. */
  datatype Fit = Fit(
    fitMethod: string, independentParams: seq<string>, freeParams: seq<string>, fixedParams: seq<string>,
    bounds: Dict<string, (Num, Num)>, values: Dict<string, real>)

  /** `numpy.finfo(float).eps`. */
  const EPS: real := 1.0 / 4503599627370496.0
  const MIN_CONVECTION_COEFF: real := 0.001
  const INIT_CONVECTION_COEFF: real := 1.0
  const MIN_TEMP: real := 0.001

  /** The dataclass defaults. */
  const DEFAULT_FIT := Fit(
    "trf", ["x"], ["T_s", "q_s", "h_a"], ["h_w", "r", "T_infa", "T_infw", "x_s", "x_wa", "k"],
    [("T_s", (Finite(MIN_TEMP), PosInf)), ("q_s", (NegInf, PosInf)),
     ("h_w", (Finite(MIN_CONVECTION_COEFF), PosInf)), ("h_a", (Finite(MIN_CONVECTION_COEFF), PosInf)),
     ("r", (Finite(EPS), PosInf)), ("T_infa", (Finite(MIN_TEMP), PosInf)), ("T_infw", (Finite(MIN_TEMP), PosInf)),
     ("x_s", (NegInf, PosInf)), ("x_wa", (NegInf, PosInf)), ("k", (Finite(EPS), PosInf))],
    [("T_s", 105.0), ("q_s", 200000.0), ("h_w", INIT_CONVECTION_COEFF), ("h_a", INIT_CONVECTION_COEFF),
     ("r", 0.0047625), ("T_infa", 25.0), ("T_infw", 100.0), ("x_s", 0.0), ("x_wa", 0.0381), ("k", 400.0)])

  /** `fixed_values`: the entries of `values` whose key is a fixed parameter, in `values` order. */
  function FixedValues<V>(values: Dict<string, V>, fixedParams: seq<string>): (r: Dict<string, V>)
    ensures forall k :: Get(r, k) == if k in fixedParams then Get(values, k) else None
    ensures forall i :: 0 <= i < |r| ==> r[i] in values && r[i].0 in fixedParams
  {
    var r := FilterKeys(values, In(fixedParams));
    forall k ensures Get(r, k) == if k in fixedParams then Get(values, k) else None {
      FilterKeysGet(values, In(fixedParams), k);
    }
    r
  }

  /** `params_and_errors`: free, fixed, free errors, fixed errors. */
  function ParamsAndErrors(fit: Fit): seq<string> {
    fit.freeParams + fit.fixedParams + ErrorNames(fit.freeParams) + ErrorNames(fit.fixedParams)
  }

  /** The list is every parameter followed by every parameter's error, in the same order. */
  lemma ParamsAndErrorsPairs(fit: Fit)
    ensures var ps := fit.freeParams + fit.fixedParams;
      && ParamsAndErrors(fit) == ps + ErrorNames(ps)
      && |ParamsAndErrors(fit)| == 2 * |ps|
      && forall i :: 0 <= i < |ps| ==> ParamsAndErrors(fit)[|ps| + i] == ErrName(ParamsAndErrors(fit)[i])
  {
    ErrorNamesAppend(fit.freeParams, fit.fixedParams);
  }

  /**
   * `get_guesses` / `get_bounds`: the mapping's values whose key is in `params`, in the
   * mapping's order, not in `params` order.
   */
  function Select<V>(params: seq<string>, m: Dict<string, V>): (r: seq<V>)
    ensures |r| <= |m|
  {
    if |m| == 0 then []
    else (if m[0].0 in params then [m[0].1] else []) + Select(params, m[1..])
  }

  /** Selecting is reading the values of the filtered mapping. */
  lemma {:induction false} SelectFilters<V>(params: seq<string>, m: Dict<string, V>)
    ensures Select(params, m) == Values(FilterKeys(m, In(params)))
  {
    if |m| > 0 {
      SelectFilters(params, m[1..]);
      var rest := FilterKeys(m[1..], In(params));
      if m[0].0 in params {
        assert Values([m[0]] + rest) == [m[0].1] + Values(rest);
      }
    }
  }

  /** When every key of the mapping is a parameter, all its values are selected, in order. */
  lemma {:induction false} SelectAll<V>(params: seq<string>, m: Dict<string, V>)
    requires forall i :: 0 <= i < |m| ==> m[i].0 in params
    ensures Select(params, m) == Values(m)
  {
    if |m| > 0 {
      SelectAll(params, m[1..]);
      assert Values(m) == [m[0].1] + Values(m[1..]);
    }
  }

  /** The order of `params` does not matter; the mapping's order does. */
  lemma SelectFollowsMapping()
    ensures Select(["b", "a"], [("a", 1), ("b", 2)]) == [1, 2]
  {
  }

  /** Nothing is selected when no key is a parameter. */
  lemma {:induction false} SelectNone<V>(params: seq<string>, m: Dict<string, V>)
    requires forall i :: 0 <= i < |m| ==> m[i].0 !in params
    ensures Select(params, m) == []
  {
    if |m| > 0 {
      SelectNone(params, m[1..]);
    }
  }

  /** Of the default values, only the free parameters' are guesses: T_s, q_s and h_a, in that order. */
  lemma DefaultGuesses()
    ensures Select(DEFAULT_FIT.freeParams, DEFAULT_FIT.values) == [105.0, 200000.0, INIT_CONVECTION_COEFF]
  {
    var ps := DEFAULT_FIT.freeParams;
    var v := DEFAULT_FIT.values;
    SelectNone(ps, v[4..]);
    SelectFirstFour(ps, v);
  }

  /** The default layout: the first, second and fourth keys are parameters, the third and the rest are not. */
  lemma SelectFirstFour<V>(params: seq<string>, m: Dict<string, V>)
    requires |m| >= 4 && m[0].0 in params && m[1].0 in params && m[2].0 !in params && m[3].0 in params
    requires Select(params, m[4..]) == []
    ensures Select(params, m) == [m[0].1, m[1].1, m[3].1]
  {
    assert m[3..][1..] == m[4..];
    assert Select(params, m[3..]) == [m[3].1];
    assert m[2..][1..] == m[3..];
    assert Select(params, m[2..]) == [m[3].1];
    assert m[1..][1..] == m[2..];
    assert Select(params, m[1..]) == [m[1].1, m[3].1];
  }

  /** Of the default bounds, only the free parameters' are passed on, in the same order. */
  lemma DefaultBounds()
    ensures Select(DEFAULT_FIT.freeParams, DEFAULT_FIT.bounds)
      == [(Finite(MIN_TEMP), PosInf), (NegInf, PosInf), (Finite(MIN_CONVECTION_COEFF), PosInf)]
  {
    var ps := DEFAULT_FIT.freeParams;
    var b := DEFAULT_FIT.bounds;
    SelectNone(ps, b[4..]);
    SelectFirstFour(ps, b);
  }

  /**
   * `fit_from_params` keying: fits by free parameter, errors by free error name; the
   * optimiser's outputs are parameters, and a length mismatch raises in the strict zip.
   */
  function FitFromParams(fit: Fit, fits: seq<real>, errors: seq<real>): (r: Outcome<(Dict<string, real>, Dict<string, real>)>)
    ensures r.Ok? <==> |fits| == |fit.freeParams| && |errors| == |fit.freeParams|
    ensures r.Ok? && Distinct(fit.freeParams) ==>
      && Keys(r.value.0) == fit.freeParams && Keys(r.value.1) == ErrorNames(fit.freeParams)
      && forall i :: 0 <= i < |fits| ==>
           Get(r.value.0, fit.freeParams[i]) == Some(fits[i])
           && Get(r.value.1, ErrName(fit.freeParams[i])) == Some(errors[i])
  {
    var byParam :- ZipStrict(fit.freeParams, fits);
    var byError :- ZipStrict(ErrorNames(fit.freeParams), errors);
    if Distinct(fit.freeParams) then
      KeyedByZip(fit.freeParams, fits);
      ErrorNamesInvert(fit.freeParams);
      KeyedByZip(ErrorNames(fit.freeParams), errors);
      Ok((byParam, byError))
    else Ok((byParam, byError))
  }

  /** A value with its uncertainty and tag, as `ufloat(value, error, tag)`. */
  datatype UFloat<V> = UFloat(nominal: V, stdDev: V, tag: string)

  /** `{p: errors[f"{p}_err"] for p in ps}.values()`: the first parameter without an error raises KeyError. */
  function ErrorValues<V>(ps: seq<string>, errors: Dict<string, V>): (r: Outcome<seq<V>>)
    ensures r.Ok? <==> forall i :: 0 <= i < |ps| ==> ErrName(ps[i]) in Keys(errors)
    ensures r.Ok? ==> |r.value| == |ps| && forall i :: 0 <= i < |ps| ==> Get(errors, ErrName(ps[i])) == Some(r.value[i])
    ensures r.Err? ==> exists i :: (0 <= i < |ps| && r.error == KeyError(ErrName(ps[i]))
      && ErrName(ps[i]) !in Keys(errors) && forall j :: 0 <= j < i ==> ErrName(ps[j]) in Keys(errors))
  {
    TryMap(ps, p => ErrorOf(p, errors))
  }

  /** `errors[f"{p}_err"]`. */
  function ErrorOf<V>(p: string, errors: Dict<string, V>): (r: Outcome<V>)
    ensures r.Ok? <==> ErrName(p) in Keys(errors)
    ensures r.Ok? ==> Get(errors, ErrName(p)) == Some(r.value)
    ensures r.Err? ==> r.error == KeyError(ErrName(p))
  {
    match Get(errors, ErrName(p))
    case None => Err(KeyError(ErrName(p)))
    case Some(e) => Ok(e)
  }

  /**
   * `combine_params_and_errors`: each parameter paired with the error stored under its
   * `_err` name, keyed and ordered like `params`.
   */
  function CombineParamsAndErrors<V>(params: Dict<string, V>, errors: Dict<string, V>): (r: Outcome<Dict<string, UFloat<V>>>)
    requires DistinctKeys(params)
    ensures r.Ok? <==> forall i :: 0 <= i < |params| ==> ErrName(params[i].0) in Keys(errors)
    ensures r.Err? ==> exists i :: 0 <= i < |params| && r.error == KeyError(ErrName(params[i].0))
    ensures r.Ok? ==> Keys(r.value) == Keys(params) && DistinctKeys(r.value)
    ensures r.Ok? ==> forall i :: 0 <= i < |params| ==>
      Some(r.value[i].1.stdDev) == Get(errors, ErrName(params[i].0))
      && r.value[i].1.nominal == params[i].1 && r.value[i].1.tag == params[i].0
  {
    var es :- ErrorValues(Keys(params), errors);
    Ok(seq(|params|, i requires 0 <= i < |params| => (params[i].0, UFloat(params[i].1, es[i], params[i].0))))
  }

  /** Reading the combined mapping by key. */
  lemma CombineGet<V>(params: Dict<string, V>, errors: Dict<string, V>, p: string, v: V, e: V)
    requires DistinctKeys(params)
    requires CombineParamsAndErrors(params, errors).Ok?
    requires Get(params, p) == Some(v) && Get(errors, ErrName(p)) == Some(e)
    ensures Get(CombineParamsAndErrors(params, errors).value, p) == Some(UFloat(v, e, p))
  {
    var r := CombineParamsAndErrors(params, errors).value;
    var i :| 0 <= i < |params| && Keys(params)[i] == p;
    GetAt(params, i);
    GetAt(r, i);
  }
}

=== FILE: hashes.dfy ===
/**
 * Argument hashing: bind a call's arguments to the function's parameter names, freeze
 * every bound value into a hashable tree, and hand the frozen map to a digest.
 */
module Hashes {
  import opened Wrappers
  import opened Dict

  const NO_SOURCE := "could not get source code"
  const NOT_INSPECTABLE := "module, class, method, function, traceback, frame, or code object was expected"
  const NOT_HASHABLE := " not Hashable, Callable, Mapping, ItemsView, or Iterable."
  const TOO_MANY_POSITIONAL := "too many positional arguments"
  const MULTIPLE_VALUES := "multiple values for argument '"
  const MISSING_ARGUMENT := "missing a required argument: '"
  const UNEXPECTED_KEYWORD := "got an unexpected keyword argument '"

  /** A Python value as `freeze` distinguishes it. */
  datatype Value =
    | NoneV
    | BoolV(b: bool)
    | IntV(i: int)
    | StrV(s: string)
    | TupleV(items: seq<Value>)          // hashable whatever it holds
    | HashableObj(id: string)            // any other hashable object: a function, a generator, ...
    | ListV(items: seq<Value>)           // an unhashable iterable
    | DictV(entries: seq<Entry>)         // an unhashable mapping, in insertion order
    | ItemsV(entries: seq<Entry>)        // `mapping.items()`
    | CallableObj(lookup: SourceLookup)  // an unhashable callable, as `getsource` treats it
    | Opaque(typeName: string)           // none of the above

  datatype Entry = Entry(key: Value, val: Value)

  /**
   * What `inspect.getsource` makes of a callable: its source is found, it is a function
   * or class whose source cannot be read (OSError), or it is an instance with `__call__`,
   * which `getsource` refuses outright (TypeError).
   */
  datatype SourceLookup = Found | NoSource | NotInspectable

  /** `isinstance(v, Hashable)`. */
  predicate Hashable(v: Value) {
    v.NoneV? || v.BoolV? || v.IntV? || v.StrV? || v.TupleV? || v.HashableObj?
  }

  /** `freeze(v)`. */
  function Freeze(v: Value): (r: Outcome<Value>)
    ensures Hashable(v) ==> r == Ok(v)
    ensures r.Ok? ==> Hashable(r.value)
    ensures v.Opaque? ==> r.Err? && r.error.TypeError?
    ensures v.CallableObj? && v.lookup.Found? ==> r == Ok(NoneV)
    ensures v.CallableObj? && v.lookup.NoSource? ==> r == Err(OSError(NO_SOURCE))
    ensures v.CallableObj? && v.lookup.NotInspectable? ==> r.Err? && r.error.TypeError?
    decreases v, 0
  {
    match v
    case ListV(xs) => var ys :- FreezeAll(xs); Ok(TupleV(ys))
    case DictV(es) => var ps :- FreezeEntries(es); Ok(TupleV(ps))
    case ItemsV(es) => var ps :- FreezeEntries(es); Ok(TupleV(ps))
    // the source is looked up and discarded; the function then ends without a `return`, giving `None`
    case CallableObj(lookup) =>
      (match lookup
       case Found => Ok(NoneV)
       case NoSource => Err(OSError(NO_SOURCE))
       case NotInspectable => Err(TypeError(NOT_INSPECTABLE)))
    case Opaque(t) => Err(TypeError(t + NOT_HASHABLE))
    case _ => Ok(v)
  }

  /** `tuple(freeze(v) for v in xs)`: the first failure propagates. */
  function FreezeAll(xs: seq<Value>): (r: Outcome<seq<Value>>)
    ensures r.Ok? <==> forall i :: 0 <= i < |xs| ==> Freeze(xs[i]).Ok?
    ensures r.Ok? ==> |r.value| == |xs| && forall i :: 0 <= i < |xs| ==> r.value[i] == Freeze(xs[i]).value
    decreases xs, 1
  {
    if |xs| == 0 then Ok([])
    else
      var y :- Freeze(xs[0]);
      var ys :- FreezeAll(xs[1..]);
      assert forall i :: 1 <= i < |xs| ==> xs[i] == xs[1..][i - 1];
      Ok([y] + ys)
  }

  /** `(k, freeze(v))`. */
  function FreezeEntry(e: Entry): (r: Outcome<Value>)
    ensures r.Ok? <==> Freeze(e.val).Ok?
    ensures r.Ok? ==> r.value == TupleV([e.key, Freeze(e.val).value])
    decreases e, 0
  {
    var v :- Freeze(e.val);
    Ok(TupleV([e.key, v]))
  }

  /** `tuple((k, freeze(v)) for k, v in items)`, in iteration order. */
  function FreezeEntries(es: seq<Entry>): (r: Outcome<seq<Value>>)
    ensures r.Ok? <==> forall i :: 0 <= i < |es| ==> FreezeEntry(es[i]).Ok?
    ensures r.Ok? ==> |r.value| == |es| && forall i :: 0 <= i < |es| ==> r.value[i] == FreezeEntry(es[i]).value
    decreases es, 1
  {
    if |es| == 0 then Ok([])
    else
      var p :- FreezeEntry(es[0]);
      var ps :- FreezeEntries(es[1..]);
      assert forall i :: 1 <= i < |es| ==> es[i] == es[1..][i - 1];
      Ok([p] + ps)
  }

  /** Freezing is idempotent: its result is hashable and hashable values are returned as they are. */
  lemma FreezeIdempotent(v: Value)
    requires Freeze(v).Ok?
    ensures Freeze(Freeze(v).value) == Freeze(v)
  {
  }

  /** A mapping and its `items()` view freeze alike. */
  lemma FreezeItemsLikeMapping(es: seq<Entry>)
    ensures Freeze(ItemsV(es)) == Freeze(DictV(es))
  {
  }

  /**
   * Freezing keeps a mapping's iteration order: two mappings that freeze equal list
   * their keys in the same order, so equal content inserted in another order differs.
   */
  lemma FreezeKeepsKeyOrder(es: seq<Entry>, fs: seq<Entry>)
    requires Freeze(DictV(es)).Ok? && Freeze(DictV(fs)).Ok?
    requires Freeze(DictV(es)) == Freeze(DictV(fs))
    ensures |es| == |fs| && forall i :: 0 <= i < |es| ==> es[i].key == fs[i].key
  {
    var a := Freeze(DictV(es)).value.items;
    var b := Freeze(DictV(fs)).value.items;
    forall i | 0 <= i < |es| ensures es[i].key == fs[i].key {
      assert a[i] == b[i];
      assert a[i].items[0] == es[i].key;
    }
  }

  /** `{"a": 1, "b": 2}` and `{"b": 2, "a": 1}` are equal dicts but freeze differently. */
  lemma FreezeOrderSensitive()
    ensures Freeze(DictV([Entry(StrV("a"), IntV(1)), Entry(StrV("b"), IntV(2))]))
         != Freeze(DictV([Entry(StrV("b"), IntV(2)), Entry(StrV("a"), IntV(1))]))
  {
  }

  /** A parameter of the hashed function, positional-or-keyword as in a plain `def`. */
  datatype Param = Param(name: string, hasDefault: bool)

  function Names(ps: seq<Param>): (ns: seq<string>)
    ensures |ns| == |ps| && forall i :: 0 <= i < |ps| ==> ns[i] == ps[i].name
  {
    seq(|ps|, i requires 0 <= i < |ps| => ps[i].name)
  }

  predicate DistinctNames(ps: seq<Param>) {
    forall i, j :: 0 <= i < j < |ps| ==> ps[i].name != ps[j].name
  }

  /** Binds `args` to the leading parameters, one each, in order. */
  function BindPositional(params: seq<Param>, args: seq<Value>, kwds: Dict<string, Value>): (r: Outcome<Dict<string, Value>>)
    ensures r.Ok? <==> |args| <= |params| && forall i :: 0 <= i < |args| ==> params[i].name !in Keys(kwds)
    ensures r.Ok? ==> |r.value| == |args| && forall i :: 0 <= i < |args| ==> r.value[i] == (params[i].name, args[i])
    ensures r.Err? && |args| > |params| && (forall i :: 0 <= i < |params| ==> params[i].name !in Keys(kwds)) ==>
      r == Err(TypeError(TOO_MANY_POSITIONAL))
    decreases |args|
  {
    if |args| == 0 then Ok([])
    else if |params| == 0 then Err(TypeError(TOO_MANY_POSITIONAL))
    else if params[0].name in Keys(kwds) then Err(TypeError(MULTIPLE_VALUES + params[0].name + "'"))
    else
      var rest :- BindPositional(params[1..], args[1..], kwds);
      Ok([(params[0].name, args[0])] + rest)
  }

  /** Binds each remaining parameter from the keywords, skipping those with a default. */
  function BindKeywords(params: seq<Param>, kwds: Dict<string, Value>): (r: Outcome<Dict<string, Value>>)
    ensures r.Ok? <==> forall i :: 0 <= i < |params| ==> params[i].hasDefault || params[i].name in Keys(kwds)
    ensures r.Ok? ==> forall k :: Get(r.value, k) == if k in Names(params) then Get(kwds, k) else None
    ensures r.Ok? ==> forall k :: k in Keys(r.value) <==> k in Names(params) && k in Keys(kwds)
  {
    if |params| == 0 then Ok([])
    else
      var p := params[0];
      assert Names(params) == [p.name] + Names(params[1..]);
      match Get(kwds, p.name)
      case Some(v) =>
        var rest :- BindKeywords(params[1..], kwds);
        Ok([(p.name, v)] + rest)
      case None =>
        if p.hasDefault then BindKeywords(params[1..], kwds)
        else Err(TypeError(MISSING_ARGUMENT + p.name + "'"))
  }

  /** The first keyword that names no parameter. */
  function FirstUnknown(keys: seq<string>, names: seq<string>): (r: Option<string>)
    ensures r.None? <==> forall i :: 0 <= i < |keys| ==> keys[i] in names
    ensures r.Some? ==> r.value in keys && r.value !in names
  {
    if |keys| == 0 then None
    else if keys[0] !in names then Some(keys[0])
    else FirstUnknown(keys[1..], names)
  }

  /**
   * `signature(fun).bind(*args, **kwds).arguments`: positional arguments fill the
   * parameters in order, keywords fill the rest by name, defaults are not filled in,
   * and the bound arguments come out in parameter order.
   */
  function Bind(params: seq<Param>, args: seq<Value>, kwds: Dict<string, Value>): (r: Outcome<Dict<string, Value>>)
    ensures r.Ok? <==>
      && |args| <= |params|
      && (forall i :: 0 <= i < |args| ==> params[i].name !in Keys(kwds))
      && (forall i :: |args| <= i < |params| ==> params[i].hasDefault || params[i].name in Keys(kwds))
      && (forall k :: k in Keys(kwds) ==> k in Names(params))
  {
    var pos :- BindPositional(params, args, kwds);
    var kw :- BindKeywords(params[|args|..], kwds);
    match FirstUnknown(Keys(kwds), Names(params))
    case Some(k) => Err(TypeError(UNEXPECTED_KEYWORD + k + "'"))
    case None => Ok(pos + kw)
  }

  /** Only the keywords a parameter list reads matter to `BindKeywords`. */
  lemma {:induction false} BindKeywordsReadsNames(params: seq<Param>, k1: Dict<string, Value>, k2: Dict<string, Value>)
    requires forall i :: 0 <= i < |params| ==> Get(k1, params[i].name) == Get(k2, params[i].name)
    ensures BindKeywords(params, k1) == BindKeywords(params, k2)
  {
    if |params| > 0 {
      BindKeywordsReadsNames(params[1..], k1, k2);
    }
  }

  /** What a successful bind holds: every positional argument, every supplied keyword, no default. */
  lemma BindContents(params: seq<Param>, args: seq<Value>, kwds: Dict<string, Value>)
    requires DistinctNames(params)
    requires Bind(params, args, kwds).Ok?
    ensures forall i :: 0 <= i < |args| ==> Get(Bind(params, args, kwds).value, params[i].name) == Some(args[i])
    ensures forall i :: |args| <= i < |params| ==>
      Get(Bind(params, args, kwds).value, params[i].name) == Get(kwds, params[i].name)
    ensures forall k :: k !in Names(params) ==> Get(Bind(params, args, kwds).value, k) == None
  {
    var pos := BindPositional(params, args, kwds).value;
    var kw := BindKeywords(params[|args|..], kwds).value;
    var r := Bind(params, args, kwds).value;
    assert r == pos + kw;
    assert Keys(pos) == Names(params[..|args|]);
    forall k ensures Get(r, k) == if k in Keys(pos) then Get(pos, k) else Get(kw, k) {
      GetAppend(pos, kw, k);
    }
    forall i | 0 <= i < |args| ensures Get(r, params[i].name) == Some(args[i]) {
      GetFirst(pos, i);
    }
    forall i | |args| <= i < |params| ensures Get(r, params[i].name) == Get(kwds, params[i].name) {
      assert params[i].name !in Keys(pos);
      assert params[i].name == params[|args|..][i - |args|].name;
    }
  }

  /** In a dict whose keys are distinct, the `i`th key looks up the `i`th value. */
  lemma {:induction false} GetFirst<V>(d: Dict<string, V>, i: nat)
    requires i < |d| && DistinctKeys(d)
    ensures Get(d, d[i].0) == Some(d[i].1)
  {
    if i > 0 {
      assert d[1..][i - 1] == d[i];
      GetFirst(d[1..], i - 1);
    }
  }

  /**
   * Passing the next parameter by keyword instead of by position binds the same
   * arguments, so `f(1, 2)` and `f(1, b=2)` hash alike.
   */
  lemma PositionalAsKeyword(params: seq<Param>, args: seq<Value>, a: Value, kwds: Dict<string, Value>)
    requires DistinctNames(params)
    requires Bind(params, args + [a], kwds).Ok?
    ensures Bind(params, args, kwds + [(params[|args|].name, a)]) == Bind(params, args + [a], kwds)
  {
    var kwds' := kwds + [(params[|args|].name, a)];
    BindSplits(params, args + [a], kwds);
    assert |args + [a]| == |args| + 1;
    MovedParts(params, args, a, kwds);
    assert Keys(kwds') == Keys(kwds) + [params[|args|].name];
    assert Names(params)[|args|] == params[|args|].name;
    KnownKeyAppended(Keys(kwds), Names(params), params[|args|].name);
    BindJoins(params, args, kwds', BindPositional(params, args, kwds').value, BindKeywords(params[|args|..], kwds').value);
  }

  /** The two parts of the bind, before and after the move, join to the same entries. */
  lemma MovedParts(params: seq<Param>, args: seq<Value>, a: Value, kwds: Dict<string, Value>)
    requires DistinctNames(params)
    requires BindPositional(params, args + [a], kwds).Ok?
    requires |args| + 1 <= |params| && BindKeywords(params[|args| + 1..], kwds).Ok?
    ensures var kwds' := kwds + [(params[|args|].name, a)];
      && BindPositional(params, args, kwds').Ok?
      && BindKeywords(params[|args|..], kwds').Ok?
      && BindPositional(params, args, kwds').value + BindKeywords(params[|args|..], kwds').value
         == BindPositional(params, args + [a], kwds).value + BindKeywords(params[|args| + 1..], kwds).value
  {
    var n := params[|args|].name;
    var kwds' := kwds + [(n, a)];
    assert |args + [a]| == |args| + 1;
    PositionalPart(params, args, a, kwds);
    KeywordTail(params, |args|, a, kwds);
    AppendShift(BindPositional(params, args, kwds').value, (n, a),
      BindKeywords(params[|args| + 1..], kwds).value, BindPositional(params, args + [a], kwds).value);
  }

  /** A key that names a parameter, appended to keys that all do, leaves no unknown keyword. */
  lemma KnownKeyAppended(keys: seq<string>, names: seq<string>, n: string)
    requires FirstUnknown(keys, names).None? && n in names
    ensures FirstUnknown(keys + [n], names).None?
  {
    assert forall i :: 0 <= i < |keys| ==> (keys + [n])[i] == keys[i];
  }

  lemma AppendShift<T>(x: seq<T>, p: T, z: seq<T>, y: seq<T>)
    requires x + [p] == y
    ensures x + ([p] + z) == y + z
  {
  }

  /** The positional part, with the moved argument now a keyword, loses exactly its last entry. */
  lemma PositionalPart(params: seq<Param>, args: seq<Value>, a: Value, kwds: Dict<string, Value>)
    requires DistinctNames(params)
    requires BindPositional(params, args + [a], kwds).Ok?
    ensures |args| < |params|
    ensures BindPositional(params, args, kwds + [(params[|args|].name, a)]).Ok?
    ensures BindPositional(params, args, kwds + [(params[|args|].name, a)]).value + [(params[|args|].name, a)]
         == BindPositional(params, args + [a], kwds).value
  {
    assert |args + [a]| == |args| + 1;
    var n := params[|args|].name;
    var kwds' := kwds + [(n, a)];
    assert Keys(kwds') == Keys(kwds) + [n];
    PositionalPrefix(params, args, a, kwds);
    PositionalIgnoresLaterNames(params, args, kwds, kwds');
  }

  /** A successful bind is its positional part followed by its keyword part. */
  lemma BindSplits(params: seq<Param>, args: seq<Value>, kwds: Dict<string, Value>)
    requires Bind(params, args, kwds).Ok?
    ensures |args| <= |params|
    ensures BindPositional(params, args, kwds).Ok? && BindKeywords(params[|args|..], kwds).Ok?
    ensures FirstUnknown(Keys(kwds), Names(params)).None?
    ensures Bind(params, args, kwds).value
         == BindPositional(params, args, kwds).value + BindKeywords(params[|args|..], kwds).value
  {
  }

  /** The converse of `BindSplits`. */
  lemma BindJoins(params: seq<Param>, args: seq<Value>, kwds: Dict<string, Value>, pos: Dict<string, Value>, kw: Dict<string, Value>)
    requires |args| <= |params|
    requires BindPositional(params, args, kwds) == Ok(pos) && BindKeywords(params[|args|..], kwds) == Ok(kw)
    requires FirstUnknown(Keys(kwds), Names(params)).None?
    ensures Bind(params, args, kwds) == Ok(pos + kw)
  {
  }

  /** A keyword for the first remaining parameter, appended after the others, binds that parameter first. */
  lemma {:induction false} KeywordTail(params: seq<Param>, j: nat, a: Value, kwds: Dict<string, Value>)
    requires DistinctNames(params)
    requires j < |params| && params[j].name !in Keys(kwds)
    ensures BindKeywords(params[j..], kwds + [(params[j].name, a)]) == (
      match BindKeywords(params[j + 1..], kwds)
      case Ok(kw) => Ok([(params[j].name, a)] + kw)
      case Err(e) => Err(e))
  {
    var n := params[j].name;
    var rest := params[j..];
    assert rest[0] == params[j] && rest[1..] == params[j + 1..];
    var kwds' := kwds + [(n, a)];
    GetAppend(kwds, [(n, a)], n);
    forall i | 0 <= i < |rest[1..]| ensures Get(kwds', rest[1..][i].name) == Get(kwds, rest[1..][i].name) {
      assert rest[1..][i] == params[j + 1 + i];
      GetAppend(kwds, [(n, a)], rest[1..][i].name);
    }
    BindKeywordsReadsNames(rest[1..], kwds', kwds);
  }

  /** Positional binding only looks up the names of the parameters it fills. */
  lemma {:induction false} PositionalIgnoresLaterNames(params: seq<Param>, args: seq<Value>, k1: Dict<string, Value>, k2: Dict<string, Value>)
    requires |args| <= |params|
    requires forall i :: 0 <= i < |args| ==> (params[i].name in Keys(k1) <==> params[i].name in Keys(k2))
    ensures BindPositional(params, args, k1) == BindPositional(params, args, k2)
  {
    if |args| > 0 {
      PositionalIgnoresLaterNames(params[1..], args[1..], k1, k2);
    }
  }

  /** Binding one more positional argument appends one entry and reads the same keywords. */
  lemma {:induction false} PositionalPrefix(params: seq<Param>, args: seq<Value>, a: Value, kwds: Dict<string, Value>)
    requires BindPositional(params, args + [a], kwds).Ok?
    ensures BindPositional(params, args, kwds).Ok?
    ensures BindPositional(params, args + [a], kwds).value
         == BindPositional(params, args, kwds).value + [(params[|args|].name, a)]
  {
  }

  /** Freezes every bound value, keeping the names and their order. */
  function FreezeValues(d: Dict<string, Value>): (r: Outcome<Dict<string, Value>>)
    ensures r.Ok? <==> forall i :: 0 <= i < |d| ==> Freeze(d[i].1).Ok?
    ensures r.Ok? ==> Keys(r.value) == Keys(d)
    ensures r.Ok? ==> forall i :: 0 <= i < |d| ==> r.value[i].1 == Freeze(d[i].1).value && Hashable(r.value[i].1)
  {
    TryMapValues(d, Freeze)
  }

  /**
   * `hash_args`: the digest of the frozen bound arguments. The digest itself (a
   * pickle and a hash in the caching library) is a parameter.
   */
  function HashArgs(digest: Dict<string, Value> -> string, params: seq<Param>, args: seq<Value>, kwds: Dict<string, Value>): (r: Outcome<string>)
    ensures r.Ok? <==> Bind(params, args, kwds).Ok? && FreezeValues(Bind(params, args, kwds).value).Ok?
    ensures Bind(params, args, kwds).Err? ==> r == Err(Bind(params, args, kwds).error)
  {
    var bound :- Bind(params, args, kwds);
    var frozen :- FreezeValues(bound);
    Ok(digest(frozen))
  }

  /** The hash does not depend on whether a parameter was passed by position or by keyword. */
  lemma HashArgsPositionalAsKeyword(digest: Dict<string, Value> -> string, params: seq<Param>, args: seq<Value>, a: Value, kwds: Dict<string, Value>)
    requires DistinctNames(params)
    requires Bind(params, args + [a], kwds).Ok?
    ensures HashArgs(digest, params, args, kwds + [(params[|args|].name, a)]) == HashArgs(digest, params, args + [a], kwds)
  {
    PositionalAsKeyword(params, args, a, kwds);
  }

  /**
   * Defaults are not filled in: omitting a parameter that has a default and passing it
   * explicitly bind different arguments, whatever value is passed.
   */
  lemma DefaultsNotApplied(params: seq<Param>, args: seq<Value>, kwds: Dict<string, Value>, j: nat, v: Value)
    requires DistinctNames(params)
    requires |args| <= j < |params| && params[j].name !in Keys(kwds)
    requires Bind(params, args, kwds).Ok?
    ensures params[j].hasDefault
    ensures Bind(params, args, kwds + [(params[j].name, v)]).Ok?
    ensures Get(Bind(params, args, kwds).value, params[j].name) == None
    ensures Get(Bind(params, args, kwds + [(params[j].name, v)]).value, params[j].name) == Some(v)
  {
    var n := params[j].name;
    var kwds' := kwds + [(n, v)];
    BindContents(params, args, kwds);
    assert Keys(kwds') == Keys(kwds) + [n];
    assert Names(params)[j] == n;
    BindContents(params, args, kwds');
    GetAppend(kwds, [(n, v)], n);
  }
}

=== FILE: isolike.dfy ===
/**
 * ISO-8601-like date-times with flexible delimiters and an optional century: the
 * named groups of a match are assembled into the string handed to
 * `datetime.fromisoformat`. The regular expression itself is not modelled; its groups
 * arrive as a `Groups` value, `None` for a group that did not participate.
 */
module IsoLike {
  import opened Wrappers
  import opened Text

  datatype Groups = Groups(
    century: Option<string>, decade: string, month: string, day: string,
    hour: Option<string>, minute: Option<string>, second: Option<string>, fraction: Option<string>,
    tz: Option<string>, sym: Option<string>,
    tzHour: Option<string>, tzMinute: Option<string>, tzSecond: Option<string>, tzFraction: Option<string>)

  predicate Digit(c: char) {
    '0' <= c <= '9'
  }

  predicate Digits(s: string) {
    forall i :: 0 <= i < |s| ==> Digit(s[i])
  }

  predicate TwoDigits(s: string) {
    |s| == 2 && Digits(s)
  }

  predicate OptTwo(g: Option<string>) {
    g.None? || TwoDigits(g.value)
  }

  predicate OptFraction(g: Option<string>) {
    g.None? || (|g.value| >= 1 && Digits(g.value))
  }

  /** What the pattern guarantees about its groups. */
  predicate Matched(m: Groups) {
    && OptTwo(m.century) && TwoDigits(m.decade) && TwoDigits(m.month) && TwoDigits(m.day)
    && OptTwo(m.hour) && OptTwo(m.minute) && OptTwo(m.second) && OptFraction(m.fraction)
    && (m.hour.None? ==> m.minute.None? && m.second.None? && m.fraction.None? && m.tz.None?)
    && (m.tz.Some? ==>
          (m.tz.value == "Z" || m.tz.value == "z")
          || (m.sym.Some? && (m.sym.value == "+" || m.sym.value == "-") && m.tzHour.Some?))
    && (m.tz.Some? && m.tz.value != "Z" && m.tz.value != "z" ==> m.sym.Some?)
    && OptTwo(m.tzHour) && OptTwo(m.tzMinute) && OptTwo(m.tzSecond) && OptFraction(m.tzFraction)
  }

  /** `val or "00"`. */
  function OrZeros(g: Option<string>): (r: string)
    ensures g.Some? && g.value != "" ==> r == g.value
    ensures g.None? || g.value == "" ==> r == "00"
  {
    if g.Some? && g.value != "" then g.value else "00"
  }

  /** `tz.casefold() != "z"` for the time-zone group. */
  predicate IsZulu(tz: string) {
    tz == "Z" || tz == "z"
  }

  /** The sign of a delta; a missing group formats as "None". */
  function Sign(m: Groups): string {
    if m.sym.Some? then m.sym.value else "None"
  }

  /** A delta's `hh:mm:ss.fraction`, missing fields filled with "00". */
  function DeltaBody(m: Groups): string {
    OrZeros(m.tzHour) + ":" + OrZeros(m.tzMinute) + ":" + OrZeros(m.tzSecond) + "." + OrZeros(m.tzFraction)
  }

  /** The time zone part: Z/z passes through, a delta becomes `sym hh:mm:ss.fraction`. */
  function TimeZone(m: Groups): (r: string)
    ensures m.tz.None? || m.tz.value == "" ==> r == ""
    ensures m.tz.Some? && IsZulu(m.tz.value) ==> r == m.tz.value
  {
    var tz := if m.tz.Some? then m.tz.value else "";
    if tz != "" && !IsZulu(tz) then Sign(m) + DeltaBody(m) else tz
  }

  /** The year: the century group, or the default century, followed by the decade. */
  function Year(m: Groups, century: string): string {
    (if m.century.Some? && m.century.value != "" then m.century.value else century) + OrZeros(Some(m.decade))
  }

  /** Date and time up to the seconds, missing time fields filled with "00". */
  function DateAndSeconds(m: Groups, century: string): string {
    Year(m, century) + "-" + OrZeros(Some(m.month)) + "-" + OrZeros(Some(m.day))
    + "T" + OrZeros(m.hour) + ":" + OrZeros(m.minute) + ":" + OrZeros(m.second)
  }

  /** The argument `dt_fromisolike` hands to `datetime.fromisoformat`. */
  function IsoString(m: Groups, century: string): (r: string)
  {
    DateAndSeconds(m, century) + "." + OrZeros(m.fraction) + TimeZone(m)
  }

  /**
   * Reading the assembled string back: for a match, each group sits at its fixed position
   * between the ISO delimiters, a missing time field reads "00", and the fraction is
   * followed by the time zone.
   */
  lemma IsoStringFields(m: Groups, century: string)
    requires Matched(m) && TwoDigits(century)
    ensures var r := IsoString(m, century); var frac := OrZeros(m.fraction);
      && |r| == 20 + |frac| + |TimeZone(m)|
      && r[0..4] == Year(m, century) && r[5..7] == m.month && r[8..10] == m.day
      && r[11..13] == OrZeros(m.hour) && r[14..16] == OrZeros(m.minute) && r[17..19] == OrZeros(m.second)
      && r[4] == '-' && r[7] == '-' && r[10] == 'T' && r[13] == ':' && r[16] == ':' && r[19] == '.'
      && r[20..20 + |frac|] == frac && r[20 + |frac|..] == TimeZone(m)
  {
    DateAndSecondsLayout(m, century);
    Positions(Year(m, century), m.month, m.day, OrZeros(m.hour), OrZeros(m.minute), OrZeros(m.second),
      OrZeros(m.fraction), TimeZone(m));
  }

  /** Where each field of the assembled layout sits. */
  lemma Positions(y: string, mo: string, d: string, h: string, mi: string, sec: string, frac: string, tz: string)
    requires |y| == 4 && |mo| == 2 && |d| == 2 && |h| == 2 && |mi| == 2 && |sec| == 2
    ensures var r := y + "-" + mo + "-" + d + "T" + h + ":" + mi + ":" + sec + "." + frac + tz;
      && |r| == 20 + |frac| + |tz|
      && r[0..4] == y && r[5..7] == mo && r[8..10] == d
      && r[11..13] == h && r[14..16] == mi && r[17..19] == sec
      && r[4] == '-' && r[7] == '-' && r[10] == 'T' && r[13] == ':' && r[16] == ':' && r[19] == '.'
      && r[20..20 + |frac|] == frac && r[20 + |frac|..] == tz
  {
    var head := y + "-" + mo + "-" + d + "T" + h + ":" + mi + ":" + sec;
    var r := y + "-" + mo + "-" + d + "T" + h + ":" + mi + ":" + sec + "." + frac + tz;
    assert r == head + ("." + frac + tz);
    assert head[0..4] == y && head[5..7] == mo && head[8..10] == d;
    assert head[11..13] == h && head[14..16] == mi && head[17..19] == sec;
  }

  /** `dt_fromisolike`; the date-time parser is a parameter. */
  function DtFromIsoLike<T>(m: Groups, century: string, fromIsoFormat: string -> T): (r: T)
    ensures r == fromIsoFormat(IsoString(m, century))
  {
    fromIsoFormat(IsoString(m, century))
  }

  /** Every optional time field written out, "00" where the group did not participate. */
  function Filled(m: Groups): Groups {
    m.(hour := Some(OrZeros(m.hour)), minute := Some(OrZeros(m.minute)),
       second := Some(OrZeros(m.second)), fraction := Some(OrZeros(m.fraction)))
  }

  /**
   * Omitting a time field is the same as writing "00" for it: a matched date-time and its
   * filled-out form give the same string, hence the same date-time whatever the parser.
   */
  lemma OmittedIsZero<T>(m: Groups, century: string, fromIsoFormat: string -> T)
    requires Matched(m) && TwoDigits(century)
    ensures IsoString(Filled(m), century) == IsoString(m, century)
    ensures DtFromIsoLike(Filled(m), century, fromIsoFormat) == DtFromIsoLike(m, century, fromIsoFormat)
  {
    assert TimeZone(Filled(m)) == TimeZone(m);
    assert Year(Filled(m), century) == Year(m, century);
  }

  // ---------------------------------------------------------------------------
  // Section 5.6 of RFC 3339
  // ---------------------------------------------------------------------------

  /** `time-offset = "Z" / time-numoffset`, with `time-numoffset = ("+" / "-") time-hour ":" time-minute`. */
  predicate Rfc3339Offset(t: string) {
    t == "Z" || t == "z"
    || (|t| == 6 && (t[0] == '+' || t[0] == '-') && TwoDigits(t[1..3]) && t[3] == ':' && TwoDigits(t[4..6]))
  }

  /** `[time-secfrac] time-offset`. */
  predicate Rfc3339FracOffset(t: string) {
    Rfc3339Offset(t)
    || (|t| > 0 && t[0] == '.' && exists k :: 2 <= k <= |t| && Digits(t[1..k]) && Rfc3339Offset(t[k..]))
  }

  /** `date-time = full-date "T" full-time`, with its fixed-width fields. */
  predicate Rfc3339DateTime(s: string) {
    && |s| >= 20
    && Digits(s[0..4]) && s[4] == '-' && TwoDigits(s[5..7]) && s[7] == '-' && TwoDigits(s[8..10])
    && (s[10] == 'T' || s[10] == 't')
    && TwoDigits(s[11..13]) && s[13] == ':' && TwoDigits(s[14..16]) && s[16] == ':' && TwoDigits(s[17..19])
    && Rfc3339FracOffset(s[19..])
  }

  /** The assembled layout, with fixed-width fields, is an RFC 3339 date-time exactly when its tail is. */
  lemma Layout(y: string, mo: string, d: string, h: string, mi: string, sec: string, tail: string)
    requires |y| == 4 && Digits(y) && TwoDigits(mo) && TwoDigits(d) && TwoDigits(h) && TwoDigits(mi) && TwoDigits(sec)
    ensures Rfc3339DateTime(y + "-" + mo + "-" + d + "T" + h + ":" + mi + ":" + sec + tail) <==> Rfc3339FracOffset(tail)
  {
    var s := y + "-" + mo + "-" + d + "T" + h + ":" + mi + ":" + sec + tail;
    assert s[0..4] == y && s[5..7] == mo && s[8..10] == d;
    assert s[11..13] == h && s[14..16] == mi && s[17..19] == sec;
    assert s[19..] == tail;
  }

  /** The assembled date and time, field by field, with a four-digit year. */
  lemma DateAndSecondsLayout(m: Groups, century: string)
    requires Matched(m) && TwoDigits(century)
    ensures var year := Year(m, century);
      && |year| == 4 && Digits(year)
      && DateAndSeconds(m, century) == year + "-" + m.month + "-" + m.day + "T" + OrZeros(m.hour) + ":" + OrZeros(m.minute)
         + ":" + OrZeros(m.second)
  {
    var year := Year(m, century);
    assert forall i :: 0 <= i < 4 ==> Digit(year[i]);
  }

  /** A matched date-time in UTC ("Z") assembles into an RFC 3339 date-time. */
  lemma ZuluIsRfc3339(m: Groups, century: string)
    requires Matched(m) && TwoDigits(century)
    requires m.tz.Some? && IsZulu(m.tz.value)
    ensures Rfc3339DateTime(IsoString(m, century))
  {
    var frac := OrZeros(m.fraction);
    assert IsoString(m, century) == DateAndSeconds(m, century) + ("." + frac + m.tz.value);
    ZuluTail(frac, m.tz.value);
    DateAndSecondsLayout(m, century);
    Layout(Year(m, century), m.month, m.day, OrZeros(m.hour), OrZeros(m.minute), OrZeros(m.second),
      "." + frac + m.tz.value);
  }

  /** A fraction followed by "Z" is a valid tail of an RFC 3339 time. */
  lemma ZuluTail(frac: string, z: string)
    requires |frac| >= 1 && Digits(frac) && IsZulu(z)
    ensures Rfc3339FracOffset("." + frac + z)
  {
    var tail := "." + frac + z;
    assert tail[1..1 + |frac|] == frac && tail[1 + |frac|..] == z;
  }

  /** No suffix of a string ending in a digit, with no sign six from the end, is a time offset. */
  lemma NoOffsetSuffix(s: string, j: nat)
    requires |s| >= 6 && j <= |s|
    requires Digit(s[|s| - 1]) && s[|s| - 6] != '+' && s[|s| - 6] != '-'
    ensures !Rfc3339Offset(s[j..])
  {
    var u := s[j..];
    if |u| == 1 {
      assert u[0] == s[|s| - 1];
    } else if |u| == 6 {
      assert u[0] == s[|s| - 6];
    }
  }

  /** A string ending in a digit, with no sign six from the end, is not an RFC 3339 date-time. */
  lemma NoOffsetNotRfc3339(s: string)
    requires |s| >= 6 && Digit(s[|s| - 1]) && s[|s| - 6] != '+' && s[|s| - 6] != '-'
    ensures !Rfc3339DateTime(s)
  {
    if |s| >= 20 {
      var t := s[19..];
      NoOffsetSuffix(s, 19);
      forall k | 2 <= k <= |t| ensures !Rfc3339Offset(t[k..]) {
        assert t[k..] == s[19 + k..];
        NoOffsetSuffix(s, 19 + k);
      }
    }
  }

  /** `hh:mm:ss.f` ends in a digit and has no sign anywhere, in particular not six from the end. */
  lemma OffsetBody(hh: string, mm: string, ss: string, f: string)
    requires TwoDigits(hh) && TwoDigits(mm) && TwoDigits(ss) && |f| >= 1 && Digits(f)
    ensures var body := hh + ":" + mm + ":" + ss + "." + f;
      |body| >= 10 && Digit(body[|body| - 1]) && body[|body| - 6] != '+' && body[|body| - 6] != '-'
  {
    var body := hh + ":" + mm + ":" + ss + "." + f;
    assert forall i :: 0 <= i < |body| ==> Digit(body[i]) || body[i] == ':' || body[i] == '.';
    assert body[|body| - 1] == f[|f| - 1];
  }

  /** A string's last characters are those of any suffix it was built with. */
  lemma EndsWithParts(s: string, x: string, body: string)
    requires s == x + body && |body| >= 6
    ensures s[|s| - 1] == body[|body| - 1] && s[|s| - 6] == body[|body| - 6]
  {
  }

  /**
   * A numeric offset comes out with seconds and a fraction, which section 5.6 of
   * RFC 3339 does not allow: such strings are outside RFC 3339, and parse only because
   * Python's ISO parser accepts them.
   */
  lemma NumericOffsetNotRfc3339(m: Groups, century: string)
    requires Matched(m) && TwoDigits(century)
    requires m.tz.Some? && m.tz.value != "" && !IsZulu(m.tz.value)
    ensures !Rfc3339DateTime(IsoString(m, century))
  {
    var x := DateAndSeconds(m, century) + "." + OrZeros(m.fraction) + Sign(m);
    assert IsoString(m, century) == x + DeltaBody(m);
    DeltaNotRfc3339(x, OrZeros(m.tzHour), OrZeros(m.tzMinute), OrZeros(m.tzSecond), OrZeros(m.tzFraction));
  }

  /** Whatever precedes it, a trailing `hh:mm:ss.f` rules RFC 3339 out. */
  lemma DeltaNotRfc3339(x: string, hh: string, mm: string, ss: string, f: string)
    requires TwoDigits(hh) && TwoDigits(mm) && TwoDigits(ss) && |f| >= 1 && Digits(f)
    ensures !Rfc3339DateTime(x + (hh + ":" + mm + ":" + ss + "." + f))
  {
    var body := hh + ":" + mm + ":" + ss + "." + f;
    OffsetBody(hh, mm, ss, f);
    EndsWithParts(x + body, x, body);
    NoOffsetNotRfc3339(x + body);
  }

  /** `20010101T01Z` (hour only, in UTC) is filled out to `2001-01-01T01:00:00.00Z`. */
  lemma HourOnlyZulu()
    ensures IsoString(Groups(Some("20"), "01", "01", "01", Some("01"), None, None, None,
      Some("Z"), None, None, None, None, None), "20") == "2001-01-01T01:00:00.00Z"
  {
    var m := Groups(Some("20"), "01", "01", "01", Some("01"), None, None, None, Some("Z"), None, None, None, None, None);
    assert DateAndSeconds(m, "20") == "2001-01-01T01:00:00";
  }

  /** Without a century group the default century is used, and a missing time is midnight. */
  lemma DefaultCenturyMidnight()
    ensures IsoString(Groups(None, "01", "01", "01", None, None, None, None,
      None, None, None, None, None, None), "20") == "2001-01-01T00:00:00.00"
  {
    var m := Groups(None, "01", "01", "01", None, None, None, None, None, None, None, None, None, None);
    assert DateAndSeconds(m, "20") == "2001-01-01T00:00:00";
  }

  /** The match of `2001-01-01T01+01:01` with a two-digit year. */
  const DELTA_MATCH := Groups(Some("20"), "01", "01", "01", Some("01"), None, None, None,
    Some("+01:01"), Some("+"), Some("01"), Some("01"), None, None)

  /** A delta `+01:01` becomes `+01:01:00.00`. */
  lemma DeltaFilledOut()
    ensures IsoString(DELTA_MATCH, "20") == "2001-01-01T01:00:00.00+01:01:00.00"
  {
    DeltaDate();
    DeltaZone();
  }

  lemma DeltaDate()
    ensures DateAndSeconds(DELTA_MATCH, "20") == "2001-01-01T01:00:00"
  {
  }

  lemma DeltaZone()
    ensures TimeZone(DELTA_MATCH) == "+01:01:00.00"
  {
    assert DeltaBody(DELTA_MATCH) == "01:01:00.00";
  }
}

=== FILE: legacymodels.dfy ===
/**
 * The older snapshot of the path models (pydantic 1 style): a YAML-backed model, a
 * model that writes the defaults of its paths models back to the YAML file, and the
 * paths models whose schema defaults are folded to short forward-slash strings.
 */
module LegacyModels {
  import opened Wrappers
  import opened Dict
  import Text
  import opened PurePath
  import opened FileSystem
  import opened PathValues
  import opened YamlSync

  const NOT_PATH_LIKE := "> is not Path-like."
  const TYPE_NOT_SUPPORTED := "Type not supported."
  const DEFAULTS_REQUIRED := "Defaults must be specified."
  const NONE_UPDATE := "unsupported operand type(s) for |=: 'NoneType' and 'dict'"
  const NO_UPDATE := "unsupported operand type(s) for |="
  const NOT_MAPPING := "argument after ** must be a mapping"

  /** `prefer_relative_path(path)`: relative to the working directory when it lies under it. */
  function PreferRelative(p: Path, cwd: Path): (r: Path)
    ensures IsRelativeTo(p, cwd) ==> Join(cwd, r) == p && !r.absolute
    ensures !IsRelativeTo(p, cwd) ==> r == p
  {
    if IsRelativeTo(p, cwd) then RelativeTo(p, cwd).value else p
  }

  /** `pathfold(path)`: the preferred form of the path as a string, every backslash turned into "/". */
  function PathFold(s: string, cwd: Path): (r: string)
    ensures '\\' !in r
    ensures |r| == |Str(PreferRelative(Parse(s), cwd))|
    ensures forall i :: 0 <= i < |r| ==> r[i] == if Str(PreferRelative(Parse(s), cwd))[i] == '\\' then '/' else Str(PreferRelative(Parse(s), cwd))[i]
  {
    Text.ReplaceChar(Str(PreferRelative(Parse(s), cwd)), '\\', '/')
  }

  /**
   * Folding a backslash-free path under the working directory and reading it back
   * against the working directory gives the same path.
   */
  lemma PathFoldRoundTrip(s: string, cwd: Path)
    requires '\\' !in s
    requires IsRelativeTo(Parse(s), cwd)
    ensures Join(cwd, Parse(PathFold(s, cwd))) == Parse(s)
  {
    var q := PreferRelative(Parse(s), cwd);
    assert WellFormed(q) by {
      forall i | 0 <= i < |q.parts| ensures Segment(q.parts[i]) {
        assert q.parts[i] == Parse(s).parts[|cwd.parts| + i];
      }
    }
    NoBackslash(s, cwd);
    ParseStr(q);
  }

  /** With an absolute working directory, folding a backslash-free path twice is folding it once. */
  lemma PathFoldIdempotent(s: string, cwd: Path)
    requires '\\' !in s && cwd.absolute
    ensures PathFold(PathFold(s, cwd), cwd) == PathFold(s, cwd)
  {
    var q := PreferRelative(Parse(s), cwd);
    assert WellFormed(q) by {
      if IsRelativeTo(Parse(s), cwd) {
        forall i | 0 <= i < |q.parts| ensures Segment(q.parts[i]) {
          assert q.parts[i] == Parse(s).parts[|cwd.parts| + i];
        }
      }
    }
    NoBackslash(s, cwd);
    ParseStr(q);
    var r := PathFold(s, cwd);
    assert Parse(r) == q;
    NoBackslash(r, cwd);
  }

  /** Without backslashes in the input there are none to replace. */
  lemma NoBackslash(s: string, cwd: Path)
    requires '\\' !in s
    ensures PathFold(s, cwd) == Str(PreferRelative(Parse(s), cwd))
  {
    var q := PreferRelative(Parse(s), cwd);
    SplitNoChar(s, '/', '\\');
    assert forall i :: 0 <= i < |Parse(s).parts| ==> '\\' !in Parse(s).parts[i];
    StrNoBackslash(q);
  }

  lemma StrNoBackslash(p: Path)
    requires forall i :: 0 <= i < |p.parts| ==> '\\' !in p.parts[i]
    ensures '\\' !in Str(p)
  {
    JoinNoChar("/", p.parts, '\\');
  }

  lemma {:induction false} SplitNoChar(s: string, sep: char, c: char)
    requires c !in s
    ensures forall i :: 0 <= i < |Split(s, sep)| ==> c !in Split(s, sep)[i]
    decreases |s|
  {
    if sep in s {
      var i := IndexOf(s, sep);
      var rest := s[i + 1..];
      assert forall k :: 0 <= k < |rest| ==> rest[k] == s[i + 1 + k];
      SplitNoChar(rest, sep, c);
      assert forall k :: 0 <= k < |s[..i]| ==> s[..i][k] == s[k];
    }
  }

  lemma {:induction false} JoinNoChar(sep: string, xs: seq<string>, c: char)
    requires c !in sep && forall i :: 0 <= i < |xs| ==> c !in xs[i]
    ensures c !in Text.Join(sep, xs)
    decreases |xs|
  {
    if |xs| > 1 {
      JoinNoChar(sep, xs[1..], c);
    }
  }

  // ---------------------------------------------------------------------------
  // `DefaultPathsModel.Config.schema_extra` and `get_paths`

  /**
   * A field of a paths model: whether its type (the element type, for a container) is
   * a `Path` subclass, and the default its JSON schema shows, `None` when required.
   */
  datatype LegacyField = LegacyField(name: string, isPath: bool, default: Option<PathOrPaths<string>>)

  /** A default as `schema_extra` rewrites it: strings folded, containers folded item by item. */
  function FoldDefault(v: PathOrPaths<string>, cwd: Path): (r: Outcome<PathOrPaths<string>>)
    ensures r.Ok? <==> !v.Other?
    ensures v.Other? ==> r == Err(TypeError(TYPE_NOT_SUPPORTED))
    ensures r.Ok? ==> SameShape(v, r.value) && forall x | x in Leaves(r.value) :: '\\' !in x
  {
    if v.Other? then Err(TypeError(TYPE_NOT_SUPPORTED))
    else
      var r := Apply(v, Folder(cwd));
      ApplyLeaves(v, Folder(cwd));
      r
  }

  function Folder(cwd: Path): string -> string {
    x => PathFold(x, cwd)
  }

  /** Folding an already folded default changes nothing. */
  lemma FoldDefaultIdempotent(v: PathOrPaths<string>, cwd: Path)
    requires !v.Other? && cwd.absolute
    requires forall x | x in Leaves(v) :: '\\' !in x
    ensures FoldDefault(FoldDefault(v, cwd).value, cwd) == FoldDefault(v, cwd)
  {
    var f := Folder(cwd);
    forall x | x in Leaves(v) ensures f(f(x)) == f(x) {
      PathFoldIdempotent(x, cwd);
    }
    ApplyIdempotent(v, f);
  }

  function FoldFields(fields: seq<LegacyField>, cwd: Path): (r: Outcome<Dict<string, PathOrPaths<string>>>)
    requires forall i :: 0 <= i < |fields| ==> fields[i].default.Some?
    ensures r.Ok? <==> forall i :: 0 <= i < |fields| ==> fields[i].isPath && !fields[i].default.value.Other?
    ensures r.Ok? ==> Keys(r.value) == seq(|fields|, i requires 0 <= i < |fields| => fields[i].name)
    ensures r.Ok? ==> forall i :: 0 <= i < |fields| ==> r.value[i].1 == FoldDefault(fields[i].default.value, cwd).value
  {
    TryPairs(fields, (f: LegacyField) => f.name, (f: LegacyField) requires f.default.Some? => FoldField(f, cwd))
  }

  /** One field's entry: a field whose type is not a `Path` is a TypeError, any other has its default folded. */
  function FoldField(f: LegacyField, cwd: Path): (r: Outcome<PathOrPaths<string>>)
    requires f.default.Some?
    ensures !f.isPath ==> r.Err? && r.error.TypeError?
    ensures f.isPath ==> r == FoldDefault(f.default.value, cwd)
  {
    if !f.isPath then Err(TypeError("Field <" + f.name + NOT_PATH_LIKE))
    else FoldDefault(f.default.value, cwd)
  }

  /**
   * `DefaultPathsModel.get_paths()`: the schema defaults after `schema_extra`. Any
   * required field is a TypeError, and so is a field whose type is not a `Path`.
   */
  function PathsModelPaths(fields: seq<LegacyField>, cwd: Path): (r: Outcome<Dict<string, PathOrPaths<string>>>)
    ensures (exists i :: 0 <= i < |fields| && fields[i].default.None?) ==> r.Err? && r.error.TypeError?
    ensures r.Ok? <==> forall i :: 0 <= i < |fields| ==>
      fields[i].default.Some? && fields[i].isPath && !fields[i].default.value.Other?
    ensures r.Ok? ==> forall i :: 0 <= i < |r.value| ==> forall x | x in Leaves(r.value[i].1) :: '\\' !in x
  {
    if exists i :: 0 <= i < |fields| && fields[i].default.None? then
      Err(TypeError(DEFAULTS_REQUIRED))
    else
      FoldFields(fields, cwd)
  }

  /** A field of the synchronised model: excluded or not, and the paths model that types it, if any. */
  datatype SyncField = SyncField(name: string, excluded: bool, pathsModel: Option<seq<LegacyField>>)

  /** The field is neither excluded nor typed by something other than a paths model. */
  predicate Synced(f: SyncField) {
    !f.excluded && f.pathsModel.Some?
  }

  function SyncedNames(fields: seq<SyncField>): set<string> {
    set i | 0 <= i < |fields| && Synced(fields[i]) :: fields[i].name
  }

  /** `SynchronizedPathsYamlModel.get_paths()`: the paths of every non-excluded paths-model field, in order. */
  function SyncPaths(fields: seq<SyncField>, cwd: Path): (r: Outcome<Dict<string, Dict<string, PathOrPaths<string>>>>)
    ensures r.Ok? <==> forall i :: 0 <= i < |fields| && Synced(fields[i]) ==>
      PathsModelPaths(fields[i].pathsModel.value, cwd).Ok?
  {
    var name := (f: SyncField) => f.name;
    var paths := (f: SyncField) requires Synced(f) => PathsModelPaths(f.pathsModel.value, cwd);
    KeptOk(fields, Synced, name, paths);
    TryPairs(Kept(fields, Synced), name, paths)
  }

  /**
   * The entries are exactly the non-excluded paths-model fields, each with its model's
   * paths; distinct field names give distinct keys.
   */
  lemma SyncPathsEntries(fields: seq<SyncField>, cwd: Path)
    requires SyncPaths(fields, cwd).Ok?
    ensures var r := SyncPaths(fields, cwd).value;
      forall i :: 0 <= i < |r| ==> r[i].0 in SyncedNames(fields)
    ensures var r := SyncPaths(fields, cwd).value;
      forall j :: 0 <= j < |fields| && Synced(fields[j]) ==>
        (fields[j].name, PathsModelPaths(fields[j].pathsModel.value, cwd).value) in r
    ensures (forall a, b :: 0 <= a < b < |fields| ==> fields[a].name != fields[b].name) ==>
      DistinctKeys(SyncPaths(fields, cwd).value)
  {
    var name := (f: SyncField) => f.name;
    var paths := (f: SyncField) requires Synced(f) => PathsModelPaths(f.pathsModel.value, cwd);
    KeptKeys(fields, Synced, name, paths);
    KeptPairsIn(fields, Synced, name, paths);
    var r := SyncPaths(fields, cwd).value;
    forall i | 0 <= i < |r| ensures r[i].0 in SyncedNames(fields) {
      var j :| 0 <= j < |fields| && Synced(fields[j]) && r[i].0 == name(fields[j]);
    }
    if forall a, b :: 0 <= a < b < |fields| ==> fields[a].name != fields[b].name {
      assert DistinctBy(fields, name);
      KeptPairsDistinct(fields, Synced, name, paths);
    }
  }

  function PathsToYaml(paths: Dict<string, Dict<string, PathOrPaths<string>>>): (r: Dict<string, YamlValue>)
    ensures Keys(r) == Keys(paths)
  {
    seq(|paths|, i requires 0 <= i < |paths| =>
      (paths[i].0, YMap(seq(|paths[i].1|, j requires 0 <= j < |paths[i].1| => (paths[i].1[j].0, ToYaml(paths[i].1[j].1))))))
  }

  // ---------------------------------------------------------------------------
  // `YamlModel.get_params` and the synchronised override

  /**
   * `YamlModel.get_params(data_file)`: the parsed file, or `{}` when the file is missing
   * or empty. `parse` stands for ruamel's loader; a document without content parses to null.
   */
  function GetParams(fs: FS, dataFile: Path, parse: string -> YamlValue): (r: Outcome<YamlValue>)
    ensures !Exists(fs, dataFile) ==> r == Ok(YMap([]))
    ensures IsDir(fs, dataFile) ==> r.Err? && r.error.IsADirectoryError?
    ensures IsFile(fs, dataFile) && !IsDir(fs, dataFile) ==>
      r == Ok(if fs.files[dataFile] == "" then YMap([]) else parse(fs.files[dataFile]))
  {
    if !Exists(fs, dataFile) then Ok(YMap([]))
    else if IsDir(fs, dataFile) then Err(IsADirectoryError(Str(dataFile)))
    else if fs.files[dataFile] == "" then Ok(YMap([]))
    else Ok(parse(fs.files[dataFile]))
  }

  /**
   * The mapping `SynchronizedPathsYamlModel.get_params` builds: the loaded parameters,
   * then `params |= self.get_paths()`, which raises unless the load is a mapping.
   */
  function MergedParams(fs: FS, dataFile: Path, parse: string -> YamlValue, fields: seq<SyncField>, cwd: Path)
    : (r: Outcome<Dict<string, YamlValue>>)
    ensures r.Ok? ==> (GetParams(fs, dataFile, parse).Ok? && GetParams(fs, dataFile, parse).value.YMap?
      && SyncPaths(fields, cwd).Ok?)
    ensures GetParams(fs, dataFile, parse).Ok? && !GetParams(fs, dataFile, parse).value.YMap? && SyncPaths(fields, cwd).Ok?
      ==> r.Err? && r.error.TypeError?
  {
    var params :- GetParams(fs, dataFile, parse);
    var paths :- SyncPaths(fields, cwd);
    if !params.YMap? then Err(TypeError(NONE_UPDATE))
    else Ok(Update(params.entries, PathsToYaml(paths)))
  }

  /**
   * `SynchronizedPathsYamlModel.get_params(data_file)`: the merged mapping is dumped back
   * to the data file and returned. `dump` stands for ruamel's serialiser.
   */
  function SyncGetParams(fs: FS, dataFile: Path, parse: string -> YamlValue, dump: YamlValue -> string,
                         fields: seq<SyncField>, cwd: Path)
    : (r: Outcome<(Dict<string, YamlValue>, FS)>)
    ensures r.Ok? <==> (MergedParams(fs, dataFile, parse, fields, cwd).Ok?
      && WriteText(fs, dataFile, dump(YMap(MergedParams(fs, dataFile, parse, fields, cwd).value))).Ok?)
    ensures r.Ok? ==> (r.value.0 == MergedParams(fs, dataFile, parse, fields, cwd).value
      && r.value.1 == FS(fs.dirs, fs.files[dataFile := dump(YMap(r.value.0))]))
  {
    var merged :- MergedParams(fs, dataFile, parse, fields, cwd);
    var fs' :- WriteText(fs, dataFile, dump(YMap(merged)));
    Ok((merged, fs'))
  }

  /**
   * The file is synchronised: when the serialiser's output loads back as what was dumped,
   * reading the data file again gives the merged mapping.
   */
  lemma SyncedFileReadsBack(fs: FS, dataFile: Path, parse: string -> YamlValue, dump: YamlValue -> string,
                            fields: seq<SyncField>, cwd: Path)
    requires SyncGetParams(fs, dataFile, parse, dump, fields, cwd).Ok?
    requires var y := YMap(SyncGetParams(fs, dataFile, parse, dump, fields, cwd).value.0);
      parse(dump(y)) == y && dump(y) != ""
    ensures var r := SyncGetParams(fs, dataFile, parse, dump, fields, cwd).value;
      GetParams(r.1, dataFile, parse) == Ok(YMap(r.0))
  {
    var r := SyncGetParams(fs, dataFile, parse, dump, fields, cwd).value;
    assert IsFile(r.1, dataFile) && !IsDir(r.1, dataFile);
  }

  /**
   * The merged mapping: paths-model fields read from their paths, every other key as
   * the file had it.
   */
  lemma SyncGetParamsMerge(fs: FS, dataFile: Path, parse: string -> YamlValue, fields: seq<SyncField>, cwd: Path, k: string)
    requires forall i, j :: 0 <= i < j < |fields| ==> fields[i].name != fields[j].name
    requires MergedParams(fs, dataFile, parse, fields, cwd).Ok?
    ensures var paths := PathsToYaml(SyncPaths(fields, cwd).value);
      Get(MergedParams(fs, dataFile, parse, fields, cwd).value, k)
        == if k in Keys(paths) then Get(paths, k) else Get(GetParams(fs, dataFile, parse).value.entries, k)
  {
    var paths := SyncPaths(fields, cwd).value;
    var y := PathsToYaml(paths);
    SyncPathsEntries(fields, cwd);
    assert DistinctKeys(y) by {
      forall i, j | 0 <= i < j < |y| ensures y[i].0 != y[j].0 {
        assert Keys(y)[i] == paths[i].0 && Keys(y)[j] == paths[j].0;
      }
    }
    UpdateGet(GetParams(fs, dataFile, parse).value.entries, y, k);
  }


  /**
   * A file holding only whitespace is not empty text, yet parses to null; the merge
   * `params |= ...` then raises, although the evident intent is to treat the file as empty.
   */
  lemma BlankFileBreaksSync(fs: FS, dataFile: Path, parse: string -> YamlValue, fields: seq<SyncField>, cwd: Path)
    requires IsFile(fs, dataFile) && !IsDir(fs, dataFile) && fs.files[dataFile] == "\n"
    requires parse("\n") == YNull
    requires SyncPaths(fields, cwd).Ok?
    ensures GetParams(fs, dataFile, parse) == Ok(YNull)
    ensures MergedParams(fs, dataFile, parse, fields, cwd).Err?
    ensures forall dump: YamlValue -> string :: SyncGetParams(fs, dataFile, parse, dump, fields, cwd).Err?
  {
  }

  /** `get_params` with a falsy load treated as `{}`, as the newer snapshot loads its YAML. */
  function GetParamsOrEmpty(fs: FS, dataFile: Path, parse: string -> YamlValue): (r: Outcome<YamlValue>)
    ensures r.Ok? <==> GetParams(fs, dataFile, parse).Ok?
    ensures r.Ok? ==> Truthy(r.value) || r.value == YMap([])
    ensures r.Ok? && Truthy(GetParams(fs, dataFile, parse).value) ==> r == GetParams(fs, dataFile, parse)
  {
    var params :- GetParams(fs, dataFile, parse);
    if Truthy(params) then Ok(params) else Ok(YMap([]))
  }

  /** `SynchronizedPathsYamlModel.get_params` built on the corrected load. */
  function SyncGetParamsOrEmpty(fs: FS, dataFile: Path, parse: string -> YamlValue, fields: seq<SyncField>, cwd: Path)
    : (r: Outcome<Dict<string, YamlValue>>)
    ensures GetParams(fs, dataFile, parse).Ok? && SyncPaths(fields, cwd).Ok?
      && (GetParams(fs, dataFile, parse).value.YMap? || !Truthy(GetParams(fs, dataFile, parse).value))
      ==> r.Ok?
  {
    var params :- GetParamsOrEmpty(fs, dataFile, parse);
    var paths :- SyncPaths(fields, cwd);
    if !params.YMap? then Err(TypeError(NO_UPDATE))
    else Ok(Update(params.entries, PathsToYaml(paths)))
  }

  /** With the corrected load, a blank file synchronises to exactly the paths-model entries. */
  lemma BlankFileSyncsWhenCorrected(fs: FS, dataFile: Path, parse: string -> YamlValue, fields: seq<SyncField>, cwd: Path)
    requires IsFile(fs, dataFile) && !IsDir(fs, dataFile) && fs.files[dataFile] == "\n"
    requires parse("\n") == YNull
    requires SyncPaths(fields, cwd).Ok?
    ensures SyncGetParamsOrEmpty(fs, dataFile, parse, fields, cwd) == Ok(Update([], PathsToYaml(SyncPaths(fields, cwd).value)))
  {
  }

  // ---------------------------------------------------------------------------
  // `CreatePathsModel.create_directories`

  /** The directory the validator creates for a value: its parent when it has a suffix, else itself. */
  function DirectoryFor(p: Path): Path {
    if Suffix(p) != "" then Parent(p) else p
  }

  /**
   * `CreatePathsModel.create_directories(value)` on one item: an existing file is left
   * alone; otherwise its directory is created. The value itself is returned unchanged.
   */
  function LegacyCreateDirectories(fs: FS, value: string): (r: Outcome<(string, FS)>)
    ensures r.Ok? ==> r.value.0 == value && r.value.1.files == fs.files
    ensures IsFile(fs, Parse(value)) ==> r == Ok((value, fs))
    ensures !IsFile(fs, Parse(value)) ==> (r.Ok? <==> MakeDirs(fs, DirectoryFor(Parse(value))).Ok?)
    ensures r.Ok? ==> IsFile(fs, Parse(value)) || IsDir(r.value.1, DirectoryFor(Parse(value)))
  {
    var p := Parse(value);
    if IsFile(fs, p) then Ok((value, fs))
    else
      var fs' :- MakeDirs(fs, DirectoryFor(p));
      Ok((value, fs'))
  }

  /** Running the validator again on the state it produced changes nothing. */
  lemma LegacyCreateDirectoriesIdempotent(fs: FS, value: string)
    requires LegacyCreateDirectories(fs, value).Ok?
    ensures LegacyCreateDirectories(LegacyCreateDirectories(fs, value).value.1, value) == LegacyCreateDirectories(fs, value)
  {
    if !IsFile(fs, Parse(value)) {
      MakeDirsIdempotent(fs, DirectoryFor(Parse(value)));
    }
  }

  /**
   * `YamlModel.__init__`: load the parameters, write the schema beside the data file, and
   * pass the parameters as keyword arguments, which raises unless the load is a mapping.
   */
  function YamlModelInit(fs: FS, dataFile: Path, parse: string -> YamlValue, schemaJson: string)
    : (r: Outcome<(Dict<string, YamlValue>, FS)>)
    ensures r.Ok? <==> (GetParams(fs, dataFile, parse).Ok? && WriteSchema(fs, dataFile, schemaJson).Ok?
      && GetParams(fs, dataFile, parse).value.YMap?)
    ensures (GetParams(fs, dataFile, parse).Ok? && WriteSchema(fs, dataFile, schemaJson).Ok?
      && !GetParams(fs, dataFile, parse).value.YMap?) ==> r == Err(TypeError(NOT_MAPPING))
    ensures r.Ok? ==> (SchemaPath(dataFile).Ok?
      && r.value.1.files == fs.files[SchemaPath(dataFile).value := schemaJson + "\n"]
      && SchemaPath(dataFile).value != dataFile)
    ensures r.Ok? ==> YMap(r.value.0) == GetParams(fs, dataFile, parse).value
    ensures !Exists(fs, dataFile) && r.Ok? ==> r.value.0 == []
  {
    var params :- GetParams(fs, dataFile, parse);
    var fs' :- WriteSchema(fs, dataFile, schemaJson);
    if !params.YMap? then Err(TypeError(NOT_MAPPING))
    else Ok((params.entries, fs'))
  }

  /**
   * `SynchronizedPathsYamlModel.__init__`: the synchronising `get_params` rewrites the
   * data file with the merged mapping, then the schema is written beside it; the merged
   * mapping is always a mapping, so the keyword arguments never raise.
   */
  function SyncYamlModelInit(fs: FS, dataFile: Path, parse: string -> YamlValue, dump: YamlValue -> string,
                             fields: seq<SyncField>, cwd: Path, schemaJson: string)
    : (r: Outcome<(Dict<string, YamlValue>, FS)>)
    ensures r.Ok? <==> (SyncGetParams(fs, dataFile, parse, dump, fields, cwd).Ok?
      && WriteSchema(SyncGetParams(fs, dataFile, parse, dump, fields, cwd).value.1, dataFile, schemaJson).Ok?)
    ensures r.Ok? ==> (r.value.0 == MergedParams(fs, dataFile, parse, fields, cwd).value
      && SchemaPath(dataFile).Ok? && SchemaPath(dataFile).value != dataFile
      && r.value.1.files == fs.files[dataFile := dump(YMap(r.value.0))][SchemaPath(dataFile).value := schemaJson + "\n"])
  {
    var synced :- SyncGetParams(fs, dataFile, parse, dump, fields, cwd);
    var fs' :- WriteSchema(synced.1, dataFile, schemaJson);
    Ok((synced.0, fs'))
  }
}

=== FILE: modulenames.dfy ===
/**
 * Module naming helpers: unqualified and relative module names, suffix patterns,
 * qualified names derived from file paths, the stage map, and shell-quoted path folding.
 */
module ModuleNames {
  import opened Wrappers
  import opened Dict
  import opened Text
  import opened PurePath

  const INDEX_OUT_OF_RANGE := "list index out of range"

  // ---------------------------------------------------------------------------
  // get_module_name
  // ---------------------------------------------------------------------------

  /** What `get_module_name` is given: a module or spec (reduced to its qualified name), or a path. */
  datatype ModuleRef = Spec(qualname: string) | File(path: Path)

  /** The stems that name their parent package rather than themselves. */
  predicate PackageStem(stem: string) {
    stem == "__init__" || stem == "__main__"
  }

  /** `last` ends `s` and is all of it or preceded by the separator. */
  predicate SeparatedSuffix(s: string, last: string, sep: char) {
    EndsWith(s, last) && (|last| == |s| || s[|s| - |last| - 1] == sep)
  }

  /** The last piece of a split is a suffix of the string, preceded by the separator unless it is all of it. */
  lemma {:induction false} SplitLast(s: string, sep: char)
    ensures SeparatedSuffix(s, Split(s, sep)[|Split(s, sep)| - 1], sep)
    decreases |s|
  {
    if sep in s {
      var i := IndexOf(s, sep);
      var rest := Split(s[i + 1..], sep);
      SplitLast(s[i + 1..], sep);
      assert Split(s, sep)[|Split(s, sep)| - 1] == rest[|rest| - 1] by {
        assert Split(s, sep) == [s[..i]] + rest;
      }
      SuffixAfterSeparator(s, i + 1, rest[|rest| - 1], sep);
    }
  }

  /** A separated suffix of what follows a separator is a separated suffix of the whole. */
  lemma SuffixAfterSeparator(s: string, j: nat, last: string, sep: char)
    requires 0 < j <= |s| && s[j - 1] == sep
    requires SeparatedSuffix(s[j..], last, sep)
    ensures SeparatedSuffix(s, last, sep)
  {
    assert s[j..][|s[j..]| - |last|..] == s[|s| - |last|..];
    if |last| < |s[j..]| {
      assert s[j..][|s[j..]| - |last| - 1] == s[|s| - |last| - 1];
    }
  }

  /** `get_module_name`: the last dotted component, or the file stem, or the package directory's name. */
  function ModuleName(m: ModuleRef): (r: string)
    ensures m.Spec? ==> '.' !in r && EndsWith(m.qualname, r)
    ensures m.Spec? ==> |r| == |m.qualname| || m.qualname[|m.qualname| - |r| - 1] == '.'
    ensures m.File? && !PackageStem(Stem(m.path)) ==> r + Suffix(m.path) == Name(m.path)
    ensures m.File? && PackageStem(Stem(m.path)) ==> r == Name(Parent(m.path))
  {
    match m
    case Spec(q) =>
      var pieces := Split(q, '.');
      SplitLast(q, '.');
      pieces[|pieces| - 1]
    case File(p) => if PackageStem(Stem(p)) then Name(Parent(p)) else Stem(p)
  }

  /** A package's `__init__.py` is named after its directory. */
  lemma InitNamedAfterPackage(dir: Path)
    requires |dir.parts| > 0
    ensures ModuleName(File(PurePath.Join(dir, Path(false, ["__init__.py"])))) == Name(dir)
  {
    var p := PurePath.Join(dir, Path(false, ["__init__.py"]));
    assert Name(p) == "__init__.py";
    assert LastDot("__init__.py") == 8;
    assert Stem(p) == "__init__";
    assert Parent(p) == dir;
  }

  // ---------------------------------------------------------------------------
  // get_module_rel
  // ---------------------------------------------------------------------------

  /**
   * Where `^.*<pat>` matches: `.*` is greedy and does not cross a newline, so this is
   * the last occurrence of `pat` at or before `i` with no newline in front of it.
   */
  predicate Anchored(s: string, pat: string, k: int) {
    OccursAt(s, pat, k) && '\n' !in s[..k]
  }

  function LastAnchored(s: string, pat: string, i: int): (r: Option<nat>)
    ensures r.Some? ==> r.value <= i && Anchored(s, pat, r.value)
    ensures r.Some? ==> forall k :: r.value < k <= i ==> !Anchored(s, pat, k)
    ensures r.None? ==> forall k :: 0 <= k <= i ==> !Anchored(s, pat, k)
    decreases i + 1
  {
    if i < 0 then None
    else if Anchored(s, pat, i) then Some(i)
    else LastAnchored(s, pat, i - 1)
  }

  /**
   * `get_module_rel`: ValueError unless `relative` occurs in `module`, "." when they are
   * equal, and otherwise `module` with everything up to the last `relative.` removed.
   * `relative` is matched literally.
   */
  function ModuleRel(name: string, relative: string): (r: Outcome<string>)
    ensures r.Ok? <==> Contains(name, relative)
    ensures r.Err? ==> r == Err(ValueError(name + " not relative to " + relative + "."))
    ensures r.Ok? && name == relative ==> r.value == "."
    ensures r.Ok? && name != relative ==> EndsWith(name, r.value)
    ensures r.Ok? && name != relative && r.value != name ==>
      var j := |name| - |r.value| - |relative + "."|;
      && Anchored(name, relative + ".", j)
      && forall k :: j < k ==> !Anchored(name, relative + ".", k)
    ensures r.Ok? && name != relative && r.value == name ==>
      forall k :: 0 <= k ==> !Anchored(name, relative + ".", k)
  {
    if !Contains(name, relative) then Err(ValueError(name + " not relative to " + relative + "."))
    else if name == relative then Ok(".")
    else
      var pat := relative + ".";
      match LastAnchored(name, pat, |name| - |pat|)
      case None => Ok(name)
      case Some(j) => Ok(name[j + |pat|..])
  }

  /** A submodule of a package is named relative to it by dropping the package prefix. */
  lemma ModuleRelChild(relative: string, sub: string)
    requires |relative| > 0 && '\n' !in relative
    requires forall k :: 0 < k ==> !OccursAt(relative + "." + sub, relative + ".", k)
    ensures ModuleRel(relative + "." + sub, relative) == Ok(sub)
  {
    var name := relative + "." + sub;
    var pat := relative + ".";
    assert name[..|relative|] == relative;
    assert OccursAt(name, relative, 0);
    assert OccursAt(name, pat, 0);
    assert '\n' !in name[..0];
    assert Anchored(name, pat, 0);
    var r := ModuleRel(name, relative);
    assert r.Ok?;
    assert name != relative;
    assert r.value != name;
  }

  // ---------------------------------------------------------------------------
  // get_suffix_re, get_suffixes_re
  // ---------------------------------------------------------------------------

  /** `get_suffix_re`: unescape, ensure a leading dot, escape every dot. */
  function SuffixRe(suffix: string): (r: string)
  {
    var s := Replace(suffix, "\\.", ".");
    var s := if StartsWith(s, ".") then s else "." + s;
    Replace(s, ".", "\\.")
  }

  /** Escaping dots never produces a leading dot. */
  lemma {:induction false} EscapedHead(t: string)
    ensures |Replace(t, ".", "\\.")| > 0 ==> Replace(t, ".", "\\.")[0] != '.'
  {
    if |t| > 0 {
      assert t[..1] == [t[0]];
    }
  }

  /** Unescaping undoes escaping. */
  lemma {:induction false} UnescapeEscape(t: string)
    ensures Replace(Replace(t, ".", "\\."), "\\.", ".") == t
    decreases |t|
  {
    if |t| > 0 {
      assert t[..1] == [t[0]];
      var rest := Replace(t[1..], ".", "\\.");
      UnescapeEscape(t[1..]);
      EscapedHead(t[1..]);
      if t[0] == '.' {
        var e := "\\." + rest;
        assert Replace(t, ".", "\\.") == e;
        assert e[..2] == "\\." && e[2..] == rest;
      } else {
        var e := [t[0]] + rest;
        assert Replace(t, ".", "\\.") == e;
        if |e| >= 2 {
          assert e[..2] != "\\." by {
            assert e[1] == rest[0];
          }
        }
        assert e[1..] == rest;
      }
    }
  }

  /** `get_suffix_re` is idempotent: an escaped suffix is a fixed point. */
  lemma SuffixReIdempotent(suffix: string)
    ensures SuffixRe(SuffixRe(suffix)) == SuffixRe(suffix)
  {
    var s := Replace(suffix, "\\.", ".");
    var t := if StartsWith(s, ".") then s else "." + s;
    assert t[..1] == ".";
    UnescapeEscape(t);
  }

  /** "py", ".py" and "\.py" all give `\.py`. */
  lemma SuffixReForms()
    ensures SuffixRe("py") == "\\.py"
    ensures SuffixRe(".py") == "\\.py"
    ensures SuffixRe("\\.py") == "\\.py"
  {
    assert Replace("py", "\\.", ".") == "py";
    assert Replace(".py", "\\.", ".") == ".py";
    assert Replace("\\.py", "\\.", ".") == ".py";
    assert Replace(".py", ".", "\\.") == "\\.py";
  }

  function MapSuffixRe(suffixes: seq<string>): (r: seq<string>)
    ensures |r| == |suffixes| && forall i :: 0 <= i < |suffixes| ==> r[i] == SuffixRe(suffixes[i])
  {
    seq(|suffixes|, i requires 0 <= i < |suffixes| => SuffixRe(suffixes[i]))
  }

  /** Appending one more piece to a join with a separator. */
  lemma {:induction false} JoinSnoc(sep: string, xs: seq<string>, x: string)
    requires |xs| > 0
    ensures Text.Join(sep, xs + [x]) == Text.Join(sep, xs) + sep + x
    decreases |xs|
  {
    if |xs| > 1 {
      assert (xs + [x])[1..] == xs[1..] + [x];
      JoinSnoc(sep, xs[1..], x);
    } else {
      assert xs + [x] == [xs[0], x];
      assert [xs[0], x][1..] == [x];
    }
  }

  /** `get_suffixes_re`: an alternation group of the suffix patterns in input order; IndexError on no suffixes. */
  method SuffixesRe(suffixes: seq<string>) returns (r: Outcome<string>)
    ensures r.Ok? <==> |suffixes| > 0
    ensures r.Err? ==> r.error.IndexError?
    ensures r.Ok? ==> r.value == "(" + Text.Join("|", MapSuffixRe(suffixes)) + ")"
  {
    if |suffixes| == 0 {
      return Err(IndexError(INDEX_OUT_OF_RANGE));
    }
    var acc := "(" + SuffixRe(suffixes[0]);
    var i := 1;
    assert MapSuffixRe(suffixes)[..1] == [SuffixRe(suffixes[0])];
    while i < |suffixes|
      invariant 1 <= i <= |suffixes|
      invariant acc == "(" + Text.Join("|", MapSuffixRe(suffixes)[..i])
    {
      var pieces := MapSuffixRe(suffixes);
      assert pieces[..i + 1] == pieces[..i] + [SuffixRe(suffixes[i])];
      JoinSnoc("|", pieces[..i], SuffixRe(suffixes[i]));
      acc := acc + "|" + SuffixRe(suffixes[i]);
      i := i + 1;
    }
    assert MapSuffixRe(suffixes)[..i] == MapSuffixRe(suffixes);
    return Ok(acc + ")");
  }

  // ---------------------------------------------------------------------------
  // get_qualified_module_name_from_paths, map_stages
  // ---------------------------------------------------------------------------

  /** Replacing one separator character by another across a join. */
  lemma {:induction false} ReplaceCharJoin(xs: seq<string>, a: char, b: char)
    requires forall i :: 0 <= i < |xs| ==> a !in xs[i]
    ensures ReplaceChar(Text.Join([a], xs), a, b) == Text.Join([b], xs)
    decreases |xs|
  {
    if |xs| > 1 {
      ReplaceCharJoin(xs[1..], a, b);
      ReplaceCharAppend(xs[0] + [a], Text.Join([a], xs[1..]), a, b);
      ReplaceCharAppend(xs[0], [a], a, b);
      ReplaceCharNone(xs[0], a, b);
      assert ReplaceChar([a], a, b) == [b];
    } else if |xs| == 1 {
      ReplaceCharNone(xs[0], a, b);
    }
  }

  lemma ReplaceCharAppend(s: string, t: string, a: char, b: char)
    ensures ReplaceChar(s + t, a, b) == ReplaceChar(s, a, b) + ReplaceChar(t, a, b)
  {
    var l := ReplaceChar(s + t, a, b);
    var r := ReplaceChar(s, a, b) + ReplaceChar(t, a, b);
    assert forall i :: 0 <= i < |l| ==> l[i] == r[i];
  }

  lemma ReplaceCharNone(s: string, a: char, b: char)
    requires a !in s
    ensures ReplaceChar(s, a, b) == s
  {
    assert forall i :: 0 <= i < |s| ==> ReplaceChar(s, a, b)[i] == s[i];
  }

  /** The path a module's name is derived from: a package's `__init__`/`__main__` stands for its directory. */
  function ModulePath(file: Path): (r: Path)
    ensures PackageStem(Stem(file)) ==> r == Parent(file)
    ensures !PackageStem(Stem(file)) ==> r == file
  {
    if PackageStem(Stem(file)) then Parent(file) else file
  }

  /**
   * `get_qualified_module_name_from_paths`: the module path relative to the package's
   * parent, without its suffix, with both separators turned into dots.
   */
  function QualifiedName(file: Path, package: Path): (r: Outcome<string>)
    ensures r.Ok? <==> RelativeTo(ModulePath(file), Parent(package)).Ok? && Name(RelativeTo(ModulePath(file), Parent(package)).value) != ""
    ensures r.Ok? ==> '\\' !in r.value && '/' !in r.value
  {
    var m := ModulePath(file);
    var rel :- RelativeTo(m, Parent(package));
    var bare :- WithSuffix(rel, "");
    Ok(ReplaceChar(ReplaceChar(Str(bare), '\\', '.'), '/', '.'))
  }

  /** The qualified file is the dotted join of the relative directories and the stem. */
  lemma QualifiedNameDotted(file: Path, package: Path)
    requires QualifiedName(file, package).Ok?
    requires forall i :: 0 <= i < |file.parts| ==> '\\' !in file.parts[i] && '/' !in file.parts[i]
    ensures var rel := RelativeTo(ModulePath(file), Parent(package)).value;
      QualifiedName(file, package).value == Text.Join(".", Parent(rel).parts + [Stem(rel)])
  {
    var rel := RelativeTo(ModulePath(file), Parent(package)).value;
    var bare := WithSuffix(rel, "").value;
    assert forall i :: 0 <= i < |rel.parts| ==> '\\' !in rel.parts[i] && '/' !in rel.parts[i] by {
      RelPartsFromFile(file, Parent(package), '\\');
      RelPartsFromFile(file, Parent(package), '/');
    }
    assert forall i :: 0 <= i < |bare.parts| ==> '\\' !in bare.parts[i] && '/' !in bare.parts[i] by {
      BareKeepsOut(rel, '\\');
      BareKeepsOut(rel, '/');
    }
    assert Str(bare) == Text.Join("/", bare.parts);
    QualifiedNameValue(file, package);
    DottedJoin(bare.parts);
    BareParts(rel);
  }

  /** The qualified name is the suffix-free relative path with separators turned into dots. */
  lemma QualifiedNameValue(file: Path, package: Path)
    requires QualifiedName(file, package).Ok?
    ensures var rel := RelativeTo(ModulePath(file), Parent(package)).value;
      QualifiedName(file, package).value == ReplaceChar(ReplaceChar(Str(WithSuffix(rel, "").value), '\\', '.'), '/', '.')
  {
  }

  /** Without backslashes or slashes in the segments, the two replacements turn "/"-joining into "."-joining. */
  lemma DottedJoin(xs: seq<string>)
    requires forall i :: 0 <= i < |xs| ==> '\\' !in xs[i] && '/' !in xs[i]
    ensures ReplaceChar(ReplaceChar(Text.Join("/", xs), '\\', '.'), '/', '.') == Text.Join(".", xs)
  {
    NoCharInJoin(xs, '\\', "/");
    ReplaceCharNone(Text.Join("/", xs), '\\', '.');
    ReplaceCharJoin(xs, '/', '.');
  }

  /** Dropping the suffix keeps the parent's segments and replaces the name by the stem. */
  lemma BareParts(rel: Path)
    requires WithSuffix(rel, "").Ok?
    ensures WithSuffix(rel, "").value.parts == Parent(rel).parts + [Stem(rel)]
  {
    var bare := WithSuffix(rel, "").value;
    assert Stem(rel) + "" == Stem(rel);
    assert bare.parts == Parent(bare).parts + [Name(bare)];
  }

  /** A character absent from every segment stays absent once the suffix is dropped. */
  lemma BareKeepsOut(rel: Path, c: char)
    requires WithSuffix(rel, "").Ok?
    requires forall i :: 0 <= i < |rel.parts| ==> c !in rel.parts[i]
    ensures forall i :: 0 <= i < |WithSuffix(rel, "").value.parts| ==> c !in WithSuffix(rel, "").value.parts[i]
  {
    var bare := WithSuffix(rel, "").value;
    BareParts(rel);
    var name := rel.parts[|rel.parts| - 1];
    assert Stem(rel) + Suffix(rel) == name;
    assert Stem(rel) == name[..|Stem(rel)|];
    assert forall i :: 0 <= i < |bare.parts| - 1 ==> bare.parts[i] == rel.parts[i];
  }

  /** The module path relative to the package's parent keeps the file's segments, so whatever they avoid. */
  lemma RelPartsFromFile(file: Path, base: Path, c: char)
    requires RelativeTo(ModulePath(file), base).Ok?
    requires forall i :: 0 <= i < |file.parts| ==> c !in file.parts[i]
    ensures var rel := RelativeTo(ModulePath(file), base).value;
      forall i :: 0 <= i < |rel.parts| ==> c !in rel.parts[i]
  {
    var m := ModulePath(file);
    var rel := RelativeTo(m, base).value;
    assert m.parts == file.parts || m.parts + [Name(file)] == file.parts;
    assert |base.parts| + |rel.parts| <= |file.parts|;
    forall i | 0 <= i < |rel.parts| ensures c !in rel.parts[i] {
      assert rel.parts[i] == file.parts[|base.parts| + i];
    }
  }

  lemma {:induction false} NoCharInJoin(xs: seq<string>, c: char, sep: string)
    requires c !in sep && forall i :: 0 <= i < |xs| ==> c !in xs[i]
    ensures c !in Text.Join(sep, xs)
    decreases |xs|
  {
    if |xs| > 1 {
      NoCharInJoin(xs[1..], c, sep);
    }
  }

  /** The module at `file` has a qualified name and a name relative to the package. */
  predicate Staged(package: Path, file: Path) {
    QualifiedName(file, package).Ok? && ModuleRel(QualifiedName(file, package).value, Name(package)).Ok?
  }

  /** The key `map_stages` files a module under: `None` for the package itself ("."). */
  function StageKey(package: Path, file: Path): (r: Outcome<Option<string>>)
    ensures r.Ok? <==> Staged(package, file)
    ensures r.Ok? && r.value.Some? ==> '.' !in r.value.value
  {
    var q :- QualifiedName(file, package);
    var rel :- ModuleRel(q, Name(package));
    if rel == "." then Ok(None) else Ok(Some(ReplaceChar(rel, '.', '_')))
  }

  /**
   * Each item filed under the key it maps to, in order, skipping items without a key
   * (a later item with the same key replaces the earlier one); the first error wins.
   */
  function KeyAll<T>(xs: seq<T>, key: T -> Outcome<Option<string>>): (r: Outcome<Dict<string, T>>)
    ensures r.Ok? <==> forall i :: 0 <= i < |xs| ==> key(xs[i]).Ok?
    ensures r.Ok? ==> forall k :: k in Keys(r.value) <==> exists i :: 0 <= i < |xs| && key(xs[i]) == Ok(Some(k))
    decreases |xs|
  {
    if |xs| == 0 then Ok([])
    else
      var init := xs[..|xs| - 1];
      var last := xs[|xs| - 1];
      assert forall i :: 0 <= i < |xs| - 1 ==> init[i] == xs[i];
      var d :- KeyAll(init, key);
      var k :- key(last);
      if k.None? then Ok(d)
      else
        assert Keys(Put(d, k.value, last)) == if k.value in Keys(d) then Keys(d) else Keys(d) + [k.value];
        Ok(Put(d, k.value, last))
  }

  /**
   * `map_stages` over an explicit list of module paths: each module's name relative to
   * the package, with dots turned into underscores, keys its path; the package itself
   * (".") is skipped and a later path with the same key wins.
   */
  function MapStages(package: Path, paths: seq<Path>): (r: Outcome<Dict<string, Path>>)
    ensures r.Ok? <==> forall i :: 0 <= i < |paths| ==> Staged(package, paths[i])
    ensures r.Ok? ==> forall k :: k in Keys(r.value) <==>
      exists i :: 0 <= i < |paths| && StageKey(package, paths[i]) == Ok(Some(k))
    ensures r.Ok? ==> forall k :: k in Keys(r.value) ==> '.' !in k
  {
    KeyAll(paths, p => StageKey(package, p))
  }

  /** Every staged module (other than the package itself) is keyed by its underscored relative name. */
  lemma MapStagesGet(package: Path, paths: seq<Path>, i: nat)
    requires MapStages(package, paths).Ok? && i < |paths|
    ensures var q := QualifiedName(paths[i], package).value;
      var rel := ModuleRel(q, Name(package)).value;
      rel != "." ==> ReplaceChar(rel, '.', '_') in Keys(MapStages(package, paths).value)
  {
    assert StageKey(package, paths[i]).Ok?;
  }

  // ---------------------------------------------------------------------------
  // fold
  // ---------------------------------------------------------------------------

  /** Characters `shlex.quote` leaves unquoted: ASCII word characters and `@%+=:,./-`. */
  predicate SafeChar(c: char) {
    || ('a' <= c <= 'z') || ('A' <= c <= 'Z') || ('0' <= c <= '9') || c == '_'
    || c == '@' || c == '%' || c == '+' || c == '=' || c == ':' || c == ',' || c == '.' || c == '/' || c == '-'
  }

  predicate AllSafe(s: string) {
    forall i :: 0 <= i < |s| ==> SafeChar(s[i])
  }

  /** Each single quote becomes `'"'"'`: close the quote, a double-quoted quote, reopen. */
  function EscapeQuotes(s: string): (r: string)
  {
    if |s| == 0 then ""
    else (if s[0] == '\'' then "'\"'\"'" else [s[0]]) + EscapeQuotes(s[1..])
  }

  /** `shlex.quote`. */
  function Quote(s: string): (r: string)
    ensures |r| > 0
    ensures s != "" && AllSafe(s) ==> r == s
  {
    if s == "" then "''"
    else if AllSafe(s) then s
    else "'" + EscapeQuotes(s) + "'"
  }

  /**
   * Reference: how a POSIX shell reads one word made of bare safe characters,
   * single-quoted runs, and double-quoted runs without `$`, backquote or backslash.
   */
  function ShellWord(w: string): (r: Option<string>)
    decreases |w|
  {
    if w == "" then Some("")
    else if w[0] == '\'' then
      if '\'' !in w[1..] then None
      else
        var j := IndexOf(w[1..], '\'');
        var rest :- ShellWord(w[1..][j + 1..]);
        Some(w[1..][..j] + rest)
    else if w[0] == '"' then
      if '"' !in w[1..] then None
      else
        var j := IndexOf(w[1..], '"');
        var inner := w[1..][..j];
        if '$' in inner || '`' in inner || '\\' in inner then None
        else
          var rest :- ShellWord(w[1..][j + 1..]);
          Some(inner + rest)
    else if SafeChar(w[0]) then
      var rest :- ShellWord(w[1..]);
      Some([w[0]] + rest)
    else None
  }

  lemma {:induction false} ShellWordSafe(s: string)
    requires AllSafe(s)
    ensures ShellWord(s) == Some(s)
    decreases |s|
  {
    if |s| > 0 {
      assert s[0] != '\'' && s[0] != '"' && SafeChar(s[0]);
      assert forall i :: 0 <= i < |s[1..]| ==> s[1..][i] == s[i + 1];
      ShellWordSafe(s[1..]);
      assert [s[0]] + s[1..] == s;
    }
  }

  lemma {:induction false} EscapeQuotesPlain(s: string)
    requires '\'' !in s
    ensures EscapeQuotes(s) == s
    decreases |s|
  {
    if |s| > 0 {
      EscapeQuotesPlain(s[1..]);
    }
  }

  lemma {:induction false} EscapeQuotesAppend(s: string, t: string)
    ensures EscapeQuotes(s + t) == EscapeQuotes(s) + EscapeQuotes(t)
    decreases |s|
  {
    if |s| > 0 {
      assert (s + t)[0] == s[0] && (s + t)[1..] == s[1..] + t;
      EscapeQuotesAppend(s[1..], t);
    } else {
      assert s + t == t;
    }
  }

  /** Prefixing a word's text with `pre` when it reads at all. */
  function Prefixed(pre: string, r: Option<string>): Option<string> {
    match r
    case Some(x) => Some(pre + x)
    case None => None
  }

  /** A single-quoted run contributes its contents verbatim. */
  lemma SingleQuotedRun(a: string, rest: string)
    requires '\'' !in a
    ensures ShellWord("'" + a + "'" + rest) == Prefixed(a, ShellWord(rest))
  {
    var w := "'" + a + "'" + rest;
    assert w[1..] == a + "'" + rest;
    IndexOfAt(a + "'" + rest, '\'', |a|);
    assert w[1..][..|a|] == a;
    assert w[1..][|a| + 1..] == rest;
  }

  /** The double-quoted single quote contributes a single quote. */
  lemma DoubleQuotedQuote(rest: string)
    ensures ShellWord("\"'\"" + rest) == Prefixed("'", ShellWord(rest))
  {
    var w := "\"'\"" + rest;
    assert w[1..] == "'\"" + rest;
    IndexOfAt(w[1..], '"', 1);
    assert w[1..][..1] == "'";
    assert w[1..][2..] == rest;
  }

  /** A single-quoted escaped string reads back as the string. */
  lemma {:induction false} ShellWordQuoted(s: string)
    ensures ShellWord("'" + EscapeQuotes(s) + "'") == Some(s)
    decreases |s|
  {
    if '\'' !in s {
      ShellWordQuotedPlain(s);
    } else {
      var i := IndexOf(s, '\'');
      var a, b := s[..i], s[i + 1..];
      assert s == a + ("'" + b) by { QuoteSplit(s, i); }
      assert ShellWord("'" + EscapeQuotes(b) + "'") == Some(b) by { ShellWordQuoted(b); }
      ShellWordQuotedStep(a, b);
    }
  }

  lemma QuoteSplit(s: string, i: nat)
    requires i < |s| && s[i] == '\''
    ensures s == s[..i] + ("'" + s[i + 1..])
  {
    assert s[..i] + ([s[i]] + s[i + 1..]) == s;
  }

  lemma ShellWordQuotedPlain(s: string)
    requires '\'' !in s
    ensures ShellWord("'" + EscapeQuotes(s) + "'") == Some(s)
  {
    EscapeQuotesPlain(s);
    SingleQuotedRun(s, "");
    assert "'" + s + "'" + "" == "'" + s + "'";
    assert s + "" == s;
  }

  /** One embedded quote: the run before it, the double-quoted quote, then the rest re-quoted. */
  lemma ShellWordQuotedStep(a: string, b: string)
    requires '\'' !in a
    requires ShellWord("'" + EscapeQuotes(b) + "'") == Some(b)
    ensures ShellWord("'" + EscapeQuotes(a + ("'" + b)) + "'") == Some(a + ("'" + b))
  {
    var tail := "'" + EscapeQuotes(b) + "'";
    EscapedSplit(a, b);
    ReadsSplit("'" + EscapeQuotes(a + ("'" + b)) + "'", a, "\"'\"" + tail, tail, b);
  }

  lemma EscapedSplit(a: string, b: string)
    requires '\'' !in a
    ensures "'" + EscapeQuotes(a + ("'" + b)) + "'" == "'" + a + "'" + ("\"'\"" + ("'" + EscapeQuotes(b) + "'"))
  {
    var eb := EscapeQuotes(b);
    assert EscapeQuotes(a + ("'" + b)) == a + ("'" + "\"'\"" + "'" + eb) by {
      EscapeQuotesAppend(a, "'" + b);
      EscapeQuotesAppend("'", b);
      EscapeQuotesPlain(a);
      assert EscapeQuotes("'") == "'" + "\"'\"" + "'";
    }
    Regroup("'", a, "\"'\"", eb);
  }

  /** Regrouping the pieces of a quoted run around an escaped quote. */
  lemma Regroup<T>(q: seq<T>, a: seq<T>, m: seq<T>, e: seq<T>)
    ensures q + (a + (q + m + q + e)) + q == q + a + q + (m + (q + e + q))
  {
  }

  lemma ReadsSplit(x: string, a: string, y: string, tail: string, b: string)
    requires '\'' !in a
    requires x == "'" + a + "'" + y && y == "\"'\"" + tail
    requires ShellWord(tail) == Some(b)
    ensures ShellWord(x) == Some(a + ("'" + b))
  {
    SingleQuotedRun(a, y);
    DoubleQuotedQuote(tail);
  }

  lemma IndexOfAt(s: string, c: char, i: nat)
    requires i < |s| && s[i] == c && c !in s[..i]
    ensures c in s && IndexOf(s, c) == i
  {
  }

  /** `shlex.quote` is faithful: the shell reads the quoted word back as the original string. */
  lemma QuoteRoundTrip(s: string)
    ensures ShellWord(Quote(s)) == Some(s)
  {
    if s == "" {
      ShellWordQuoted("");
      assert EscapeQuotes("") == "";
    } else if AllSafe(s) {
      ShellWordSafe(s);
    } else {
      ShellWordQuoted(s);
    }
  }

  /** `fold`: the (optionally resolved) path with backslashes turned into slashes, shell-quoted. */
  function Fold(p: Path, resolve: bool, resolver: Path -> Path): (r: string)
    ensures ShellWord(r) == Some(ReplaceChar(Str(if resolve then resolver(p) else p), '\\', '/'))
  {
    var s := ReplaceChar(Str(if resolve then resolver(p) else p), '\\', '/');
    QuoteRoundTrip(s);
    Quote(s)
  }
}

=== FILE: namespaces.dfy ===
/**
 * Notebook namespaces: filtering an executed notebook's namespace down to requested
 * attributes, memoising that work per argument hash, and finding which attributes of
 * `ns` a receiver function reads.
 */
module Namespaces {
  import opened Wrappers
  import opened Dict
  import opened Text
  import opened Hashes

  /** A notebook's global namespace; `NoneV` is a name bound to `None`. */
  type Namespace = Dict<string, Value>

  /** `namespace.get(attr) is not None`. */
  predicate Bound(ns: Namespace, attr: string) {
    Get(ns, attr).Some? && !Get(ns, attr).value.NoneV?
  }

  /** `{attr: ns[attr] for attr in attributes if ns.get(attr) is not None}`. */
  function KeepAttributes(ns: Namespace, attributes: seq<string>): (r: Namespace)
    ensures forall k :: k in Keys(r) ==> k in attributes && k in Keys(ns)
  {
    if |attributes| == 0 then []
    else
      var r := KeepAttributes(ns, attributes[..|attributes| - 1]);
      var a := attributes[|attributes| - 1];
      if Bound(ns, a) then Put(r, a, Get(ns, a).value) else r
  }

  /** The comprehension holds each requested, bound name with its value, and nothing else. */
  lemma {:induction false} KeepAttributesGet(ns: Namespace, attributes: seq<string>, k: string)
    ensures Get(KeepAttributes(ns, attributes), k) == if k in attributes && Bound(ns, k) then Get(ns, k) else None
  {
    if |attributes| > 0 {
      var init := attributes[..|attributes| - 1];
      assert attributes == init + [attributes[|attributes| - 1]];
      var a := attributes[|attributes| - 1];
      KeepAttributesGet(ns, init, k);
      if Bound(ns, a) {
        PutGet(KeepAttributes(ns, init), a, Get(ns, a).value, k);
      }
    }
  }

  /** The attribute filter of `get_nb_ns`: an empty request returns the whole namespace. */
  function FilterNamespace(ns: Namespace, attributes: seq<string>): (r: Namespace)
    ensures |attributes| == 0 ==> r == ns
    ensures |attributes| > 0 ==> forall k :: k in Keys(r) ==> k in attributes && k in Keys(ns)
  {
    if |attributes| > 0 then KeepAttributes(ns, attributes) else ns
  }

  /** With a non-empty request, names missing or bound to `None` are dropped and kept values are unaltered. */
  lemma FilterNamespaceGet(ns: Namespace, attributes: seq<string>, k: string)
    requires |attributes| > 0
    ensures Get(FilterNamespace(ns, attributes), k) == if k in attributes && Bound(ns, k) then Get(ns, k) else None
  {
    KeepAttributesGet(ns, attributes, k);
  }

  /** Filtering `{a: 1, b: 2}` with `[a]` gives exactly `{a: 1}`. */
  lemma FilterOnlyA()
    ensures FilterNamespace([("a", IntV(1)), ("b", IntV(2))], ["a"]) == [("a", IntV(1))]
  {
    assert ["a"][..0] == [];
  }

  /** Filtering an empty namespace gives an empty one, whatever is requested. */
  lemma FilterEmpty(attributes: seq<string>)
    ensures FilterNamespace([], attributes) == []
  {
    var r := FilterNamespace([], attributes);
    if |r| > 0 {
      assert r[0].0 in Keys(r);
    }
  }

  /**
   * `get_nb_ns`: parametrise the notebook only when parameters are given, execute it,
   * and filter its namespace. Notebook parsing, parametrisation and execution are
   * parameters.
   */
  function GetNbNs(
    nb: string, params: Dict<string, Value>, attributes: seq<string>,
    parametrize: (string, Dict<string, Value>) -> string, execute: string -> Namespace
  ): (r: Namespace)
    ensures |params| == 0 ==> r == FilterNamespace(execute(nb), attributes)
    ensures |params| > 0 ==> r == FilterNamespace(execute(parametrize(nb, params)), attributes)
  {
    var source := if |params| > 0 then parametrize(nb, params) else nb;
    FilterNamespace(execute(source), attributes)
  }

  /** Without parameters the notebook runs as given: no parametrisation can change the namespace. */
  lemma NoParamsRunsAsGiven(
    nb: string, attributes: seq<string>,
    p1: (string, Dict<string, Value>) -> string, p2: (string, Dict<string, Value>) -> string, execute: string -> Namespace
  )
    ensures GetNbNs(nb, [], attributes, p1, execute) == GetNbNs(nb, [], attributes, p2, execute)
    ensures GetNbNs(nb, [], [], p1, execute) == execute(nb)
  {
  }

  /**
   * Asking for attributes restricts the whole namespace: a requested name that the full
   * namespace binds to something other than `None` keeps its value, and every other name
   * is absent.
   */
  lemma GetNbNsRestricts(
    nb: string, params: Dict<string, Value>, attributes: seq<string>,
    parametrize: (string, Dict<string, Value>) -> string, execute: string -> Namespace, k: string
  )
    requires |attributes| > 0
    ensures var full := GetNbNs(nb, params, [], parametrize, execute);
      Get(GetNbNs(nb, params, attributes, parametrize, execute), k) == if k in attributes && Bound(full, k) then Get(full, k) else None
  {
    var source := if |params| > 0 then parametrize(nb, params) else nb;
    FilterNamespaceGet(execute(source), attributes, k);
  }

  // ---------------------------------------------------------------------------
  // Memoisation
  // ---------------------------------------------------------------------------

  /** The persistent cache: argument hash to stored namespace. */
  type Cache = map<string, Namespace>

  /** One call: its argument hash and the namespace executing it would produce. */
  datatype Call = Call(key: string, computed: Namespace)

  datatype Served = Served(results: seq<Namespace>, cache: Cache, executions: nat)

  /** A cached call: a stored result is returned without executing, otherwise the result is computed and stored. */
  function Serve(cache: Cache, call: Call): (r: Served)
    ensures |r.results| == 1
    ensures call.key in cache ==> r == Served([cache[call.key]], cache, 0)
    ensures call.key !in cache ==> r.executions == 1 && call.key in r.cache && r.cache[call.key] == r.results[0]
    ensures r.cache.Keys == cache.Keys + {call.key}
    ensures forall k :: k in cache ==> r.cache[k] == cache[k]
  {
    if call.key in cache then Served([cache[call.key]], cache, 0)
    else Served([call.computed], cache[call.key := call.computed], 1)
  }

  /** The argument hashes of a run of calls. */
  function CallKeys(calls: seq<Call>): (ks: set<string>)
    ensures forall i :: 0 <= i < |calls| ==> calls[i].key in ks
    decreases |calls|
  {
    if |calls| == 0 then {}
    else
      assert forall i :: 1 <= i < |calls| ==> calls[i] == calls[1..][i - 1];
      {calls[0].key} + CallKeys(calls[1..])
  }

  /** A run of cached calls, threading the cache. */
  function ServeAll(cache: Cache, calls: seq<Call>): (r: Served)
    ensures |r.results| == |calls|
    ensures r.cache.Keys == cache.Keys + CallKeys(calls)
    ensures forall k :: k in cache ==> r.cache[k] == cache[k]
    ensures forall i :: 0 <= i < |calls| ==> r.results[i] == r.cache[calls[i].key]
    decreases |calls|
  {
    if |calls| == 0 then Served([], cache, 0)
    else
      var first := Serve(cache, calls[0]);
      var rest := ServeAll(first.cache, calls[1..]);
      var r := Served(first.results + rest.results, rest.cache, first.executions + rest.executions);
      assert calls[0].key in first.cache && r.results[0] == first.cache[calls[0].key];
      assert r.results[0] == r.cache[calls[0].key];
      assert forall i :: 1 <= i < |calls| ==> r.results[i] == rest.results[i - 1] && calls[i] == calls[1..][i - 1];
      r
  }

  /** The keys of the calls that the cache does not already hold. */
  function NewKeys(cache: Cache, calls: seq<Call>): set<string> {
    CallKeys(calls) - cache.Keys
  }

  /** Every argument hash is executed at most once: executions count the distinct new keys. */
  lemma {:induction false} ExecutesOncePerKey(cache: Cache, calls: seq<Call>)
    ensures ServeAll(cache, calls).executions == |NewKeys(cache, calls)|
    decreases |calls|
  {
    if |calls| > 0 {
      ExecutesOncePerKey(cache[calls[0].key := calls[0].computed], calls[1..]);
      ExecutesOncePerKey(cache, calls[1..]);
      NewKeysStep(cache, calls);
    } else {
      assert NewKeys(cache, calls) == {};
    }
  }

  /** The first call executes exactly when its key is new, and later calls see its key stored. */
  lemma NewKeysStep(cache: Cache, calls: seq<Call>)
    requires |calls| > 0
    ensures calls[0].key in cache ==> |NewKeys(cache, calls)| == |NewKeys(cache, calls[1..])|
    ensures calls[0].key !in cache ==>
      |NewKeys(cache, calls)| == 1 + |NewKeys(cache[calls[0].key := calls[0].computed], calls[1..])|
  {
    var k := calls[0].key;
    assert CallKeys(calls) == {k} + CallKeys(calls[1..]);
    assert cache[k := calls[0].computed].Keys == cache.Keys + {k};
    AddKeyCount(k, CallKeys(calls[1..]), cache.Keys);
  }

  /** Adding one key to a set of keys adds one new key exactly when it is not already known. */
  lemma AddKeyCount<T>(k: T, rest: set<T>, known: set<T>)
    ensures k in known ==> |({k} + rest) - known| == |rest - known|
    ensures k !in known ==> |({k} + rest) - known| == 1 + |rest - (known + {k})|
  {
    if k in known {
      assert ({k} + rest) - known == rest - known;
    } else {
      assert ({k} + rest) - known == {k} + (rest - (known + {k}));
    }
  }

  /** Repeated calls with the same argument hash return equal namespaces. */
  lemma RepeatedCallsAgree(cache: Cache, calls: seq<Call>, i: nat, j: nat)
    requires i < |calls| && j < |calls| && calls[i].key == calls[j].key
    ensures ServeAll(cache, calls).results[i] == ServeAll(cache, calls).results[j]
  {
  }

  /** A stored result is served as stored, whatever executing would now give. */
  lemma {:induction false} StoredResultWins(cache: Cache, calls: seq<Call>, i: nat)
    requires i < |calls| && calls[i].key in cache
    ensures ServeAll(cache, calls).results[i] == cache[calls[i].key]
  {
  }

  /** `clear_cache` empties the store, so the next call executes. */
  function Clear(cache: Cache): (r: Cache)
    ensures forall c :: Serve(r, c).executions == 1
  {
    map[]
  }

  /** The parameters of `get_nb_ns`, the function whose signature keys the cache. */
  const NB_NS_PARAMS: seq<Param> := [Param("nb", false), Param("params", true), Param("attributes", true)]

  /** The cache key of `get_cached_nb_ns(*args, **kwds)`; the digest is a parameter. */
  function CacheKey(digest: Dict<string, Value> -> string, args: seq<Value>, kwds: Dict<string, Value>): (r: Outcome<string>)
    ensures r.Ok? <==> Bind(NB_NS_PARAMS, args, kwds).Ok? && FreezeValues(Bind(NB_NS_PARAMS, args, kwds).value).Ok?
  {
    HashArgs(digest, NB_NS_PARAMS, args, kwds)
  }

  /** `get_cached_nb_ns(nb, params)` and `get_cached_nb_ns(nb, params=params)` share a cache entry. */
  lemma CacheKeyPositionalOrKeyword(digest: Dict<string, Value> -> string, nb: string, params: seq<Entry>)
    ensures CacheKey(digest, [StrV(nb)], [("params", DictV(params))]) == CacheKey(digest, [StrV(nb), DictV(params)], [])
  {
    assert [StrV(nb)] + [DictV(params)] == [StrV(nb), DictV(params)];
    assert [] + [("params", DictV(params))] == [("params", DictV(params))];
    assert Bind(NB_NS_PARAMS, [StrV(nb)] + [DictV(params)], []).Ok?;
    HashArgsPositionalAsKeyword(digest, NB_NS_PARAMS, [StrV(nb)], DictV(params), []);
  }

  // ---------------------------------------------------------------------------
  // Attribute analysis
  // ---------------------------------------------------------------------------

  /** A Python expression tree as the visitor sees it; `Node` is any other node with its children. */
  datatype Expr =
    | Name(id: string)
    | Attribute(value: Expr, attr: string)
    | Node(children: seq<Expr>)

  /** Reference definition: `e` contains `n.a` with `n` a bare name and `a` not dunder. */
  predicate Accessed(e: Expr, n: string, a: string) {
    match e
    case Name(_) => false
    case Attribute(v, attr) => (v == Name(n) && attr == a && !StartsWith(a, "__")) || Accessed(v, n, a)
    case Node(cs) => exists i :: 0 <= i < |cs| && Accessed(cs[i], n, a)
  }

  /** `names[key]` of the visitor's `defaultdict(set)`. */
  function Recorded(names: map<string, set<string>>, n: string): set<string> {
    if n in names then names[n] else {}
  }

  /** `AccessedAttributesVisitor.visit`: record, then visit the children. */
  function Visit(e: Expr, names: map<string, set<string>>): (r: map<string, set<string>>)
    decreases e, 1
  {
    match e
    case Name(_) => names
    case Attribute(v, attr) =>
      var names' :=
        if v.Name? && !StartsWith(attr, "__") then names[v.id := Recorded(names, v.id) + {attr}] else names;
      Visit(v, names')
    case Node(cs) => VisitAll(cs, names)
  }

  function VisitAll(cs: seq<Expr>, names: map<string, set<string>>): (r: map<string, set<string>>)
    decreases cs, 0
  {
    if |cs| == 0 then names else VisitAll(cs[1..], Visit(cs[0], names))
  }

  /** The visitor records exactly the accessed attributes, on top of what it held. */
  lemma {:induction false} VisitRecords(e: Expr, names: map<string, set<string>>, n: string, a: string)
    ensures a in Recorded(Visit(e, names), n) <==> a in Recorded(names, n) || Accessed(e, n, a)
    decreases e, 1
  {
    match e
    case Name(_) =>
    case Attribute(v, attr) =>
      var names' :=
        if v.Name? && !StartsWith(attr, "__") then names[v.id := Recorded(names, v.id) + {attr}] else names;
      VisitRecords(v, names', n, a);
    case Node(cs) =>
      VisitAllRecords(cs, names, n, a);
  }

  lemma {:induction false} VisitAllRecords(cs: seq<Expr>, names: map<string, set<string>>, n: string, a: string)
    ensures a in Recorded(VisitAll(cs, names), n) <==>
      (a in Recorded(names, n) || exists i :: 0 <= i < |cs| && Accessed(cs[i], n, a))
    decreases cs, 0
  {
    if |cs| > 0 {
      VisitRecords(cs[0], names, n, a);
      VisitAllRecords(cs[1..], Visit(cs[0], names), n, a);
      if exists i :: 0 <= i < |cs| && Accessed(cs[i], n, a) {
        var i :| 0 <= i < |cs| && Accessed(cs[i], n, a);
        if i > 0 {
          assert cs[1..][i - 1] == cs[i];
        }
      }
      if exists i :: 0 <= i < |cs[1..]| && Accessed(cs[1..][i], n, a) {
        var i :| 0 <= i < |cs[1..]| && Accessed(cs[1..][i], n, a);
        assert cs[i + 1] == cs[1..][i];
      }
    }
  }

  /** `get_ns_attrs`: the attributes of `ns` the receiver reads; parsing its source is left out. */
  function NsAttrs(receiver: Expr): (r: set<string>)
  {
    Recorded(Visit(receiver, map[]), "ns")
  }

  lemma NsAttrsExact(receiver: Expr, a: string)
    ensures a in NsAttrs(receiver) <==> Accessed(receiver, "ns", a)
  {
    VisitRecords(receiver, map[], "ns", a);
  }

  /** `ns.y.z` records `y` for `ns` but not `z`, and dunder attributes are never recorded. */
  lemma ChainedAccessRecordsFirst()
    ensures NsAttrs(Attribute(Attribute(Name("ns"), "y"), "z")) == {"y"}
    ensures NsAttrs(Attribute(Name("ns"), "__dict__")) == {}
  {
    assert !StartsWith("y", "__");
    assert StartsWith("__dict__", "__");
  }
}

=== FILE: pathvalues.dfy ===
/** `PathOrPaths`: one path, a sequence of paths, or a mapping of names to paths. */
module PathValues {
  import opened Wrappers
  import opened Dict

  const NOT_SUPPORTED := " not supported. Supported types are a path,sequence of paths, or mapping of names to paths."

  /**
   * A path-bearing value. `Other` stands for every value of another shape (a number,
   * `None`, a set, pydantic's "no default" marker), which traversal rejects; it records
   * the value's type name and its Python truthiness (`None`, `0` and `set()` are falsy).
   */
  datatype PathOrPaths<T> =
    | Single(item: T)
    | Many(items: seq<T>)
    | Named(entries: Dict<string, T>)
    | Other(typeName: string, truthy: bool)

  /** Same constructor, same length, same keys in the same order. */
  predicate SameShape<T, U>(a: PathOrPaths<T>, b: PathOrPaths<U>) {
    match (a, b)
    case (Single(_), Single(_)) => true
    case (Many(xs), Many(ys)) => |xs| == |ys|
    case (Named(d), Named(e)) => Keys(d) == Keys(e)
    case (Other(_, _), Other(_, _)) => true
    case _ => false
  }

  function MapValues<K, T, U>(d: Dict<K, T>, f: T -> U): (r: Dict<K, U>)
    ensures Keys(r) == Keys(d)
    ensures forall i :: 0 <= i < |d| ==> r[i].1 == f(d[i].1)
  {
    seq(|d|, i requires 0 <= i < |d| => (d[i].0, f(d[i].1)))
  }

  /** `apply_to_paths(value, fun)`. */
  function Apply<T, U>(v: PathOrPaths<T>, f: T -> U): (r: Outcome<PathOrPaths<U>>)
    ensures r.Ok? <==> !v.Other?
    ensures r.Ok? ==> SameShape(v, r.value)
    ensures v.Single? ==> r == Ok(Single(f(v.item)))
    ensures v.Many? ==> forall i :: 0 <= i < |v.items| ==> r.value.items[i] == f(v.items[i])
    ensures v.Named? ==> forall i :: 0 <= i < |v.entries| ==>
      r.value.entries[i] == (v.entries[i].0, f(v.entries[i].1))
    ensures v.Other? ==> r.error.ValueError?
  {
    match v
    case Single(x) => Ok(Single(f(x)))
    case Many(xs) => Ok(Many(seq(|xs|, i requires 0 <= i < |xs| => f(xs[i]))))
    case Named(d) => Ok(Named(MapValues(d, f)))
    case Other(t, _) => Err(ValueError("Type of " + t + NOT_SUPPORTED))
  }

  /** Every leaf value, in order. */
  function Leaves<T>(v: PathOrPaths<T>): seq<T> {
    match v
    case Single(x) => [x]
    case Many(xs) => xs
    case Named(d) => Values(d)
    case Other(_, _) => []
  }

  /** Traversal is a functor: applying `f` then `g` is applying their composition once. */
  lemma ApplyCompose<T, U, W>(v: PathOrPaths<T>, f: T -> U, g: U -> W)
    requires !v.Other?
    ensures Apply(Apply(v, f).value, g) == Apply(v, x => g(f(x)))
  {
    match v
    case Single(_) =>
    case Many(xs) =>
      assert Apply(Apply(v, f).value, g).value.items == Apply(v, x => g(f(x))).value.items;
    case Named(d) =>
      assert Apply(Apply(v, f).value, g).value.entries == Apply(v, x => g(f(x))).value.entries;
  }

  /** The leaves of the result are exactly `f` of the leaves, in order. */
  lemma ApplyLeaves<T, U>(v: PathOrPaths<T>, f: T -> U)
    requires !v.Other?
    ensures |Leaves(Apply(v, f).value)| == |Leaves(v)|
    ensures forall i :: 0 <= i < |Leaves(v)| ==> Leaves(Apply(v, f).value)[i] == f(Leaves(v)[i])
  {
  }

  /** `apply_to_paths(value, fun)` where `fun` may raise on a leaf. */
  function TryApply<T, U>(v: PathOrPaths<T>, f: T -> Outcome<U>): (r: Outcome<PathOrPaths<U>>)
    ensures v.Other? ==> r.Err? && r.error.ValueError?
    ensures r.Ok? <==> !v.Other? && forall x | x in Leaves(v) :: f(x).Ok?
    ensures r.Ok? ==> SameShape(v, r.value)
  {
    match v
    case Single(x) => var y :- f(x); Ok(Single(y))
    case Many(xs) => var ys :- TryMap(xs, f); Ok(Many(ys))
    case Named(d) =>
      var ys :- TryMap(Values(d), f);
      Ok(Named(seq(|d|, i requires 0 <= i < |d| => (d[i].0, ys[i]))))
    case Other(t, _) => Err(ValueError("Type of " + t + NOT_SUPPORTED))
  }

  /** When no leaf raises, the fallible traversal is the plain one. */
  lemma TryApplyTotal<T, U>(v: PathOrPaths<T>, f: T -> Outcome<U>, g: T -> U)
    requires forall x | x in Leaves(v) :: f(x) == Ok(g(x))
    ensures TryApply(v, f) == Apply(v, g)
  {
    match v
    case Single(_) =>
    case Many(xs) =>
      assert TryApply(v, f).value.items == Apply(v, g).value.items;
    case Named(d) =>
      assert TryApply(v, f).value.entries == Apply(v, g).value.entries;
    case Other(_, _) =>
  }

  /** A function idempotent on the leaves makes the traversal idempotent. */
  lemma ApplyIdempotent<T>(v: PathOrPaths<T>, f: T -> T)
    requires !v.Other?
    requires forall x | x in Leaves(v) :: f(f(x)) == f(x)
    ensures Apply(Apply(v, f).value, f) == Apply(v, f)
  {
    match v
    case Single(_) =>
    case Many(xs) =>
      assert Apply(Apply(v, f).value, f).value.items == Apply(v, f).value.items;
    case Named(d) =>
      assert forall i :: 0 <= i < |d| ==> d[i].1 == Leaves(v)[i];
      assert Apply(Apply(v, f).value, f).value.entries == Apply(v, f).value.entries;
  }
}

=== FILE: process.dfy ===
/**
 * The pure part of running a notebook tool as a subprocess: the executable chosen
 * for a command, the message composed from the process's output streams, and the
 * outcome built from its return code. Splitting the command line into words and
 * spawning the process are parameters.
 */
module Process {
  import opened Wrappers
  import opened Text

  const NOTHING_TO_UNPACK := "not enough values to unpack (expected at least 1, got 0)"

  const VENV_SCRIPTS := ".venv/scripts/"

  /** What a finished process hands back: its return code and its decoded output streams. */
  datatype Completed = Completed(returncode: int, stdout: string, stderr: string)

  /** The executable: the command, looked up in the project's virtual environment when `venv` is set. */
  function Executable(command: string, venv: bool): (r: string)
    ensures venv ==> StartsWith(r, VENV_SCRIPTS) && RemovePrefix(r, VENV_SCRIPTS) == command
    ensures !venv ==> r == command
  {
    (if venv then VENV_SCRIPTS else "") + command
  }

  /** The non-empty strings of `xs`, in order. */
  function NonEmpty(xs: seq<string>): (r: seq<string>)
    ensures |r| <= |xs|
    ensures forall s :: s in r <==> s in xs && s != ""
  {
    if |xs| == 0 then []
    else (if xs[0] != "" then [xs[0]] else []) + NonEmpty(xs[1..])
  }

  /** `f"{stdout}\n{stderr}" if stdout and stderr else stdout or stderr`. */
  function Compose(stdout: string, stderr: string): (r: string)
  {
    if stdout != "" && stderr != "" then stdout + "\n" + stderr
    else if stdout != "" then stdout else stderr
  }

  /** Composing the streams is joining the non-empty ones with a newline. */
  lemma ComposeJoinsNonEmpty(stdout: string, stderr: string)
    ensures Compose(stdout, stderr) == Text.Join("\n", NonEmpty([stdout, stderr]))
  {
    assert [stdout, stderr][1..] == [stderr];
  }

  /** The message: composed, with CRLF line endings normalised, and stripped. */
  function Message(stdout: string, stderr: string): (r: string)
    ensures |r| > 0 ==> !IsSpace(r[0]) && !IsSpace(r[|r| - 1])
    ensures exists i :: TrimmedAt(Replace(Compose(stdout, stderr), "\r\n", "\n"), r, i)
  {
    Strip(Replace(Compose(stdout, stderr), "\r\n", "\n"))
  }

  /** Normalising line endings changes the text exactly when it holds a CRLF. */
  lemma NormaliseChangesIffCrlf(s: string)
    ensures Replace(s, "\r\n", "\n") == s <==> !Contains(s, "\r\n")
  {
    if Contains(s, "\r\n") {
      ReplaceShorter(s, "\r\n", "\n");
    } else {
      ReplaceAbsent(s, "\r\n", "\n");
    }
  }

  /** Output without CRLFs is only composed and stripped. */
  lemma MessageWithoutCrlf(stdout: string, stderr: string)
    requires !Contains(Compose(stdout, stderr), "\r\n")
    ensures Message(stdout, stderr) == Strip(Compose(stdout, stderr))
  {
    ReplaceAbsent(Compose(stdout, stderr), "\r\n", "\n");
  }

  /** The notes attached to a failure: the message, then the arguments. */
  function FailureNotes(message: string, args: seq<string>): (r: seq<string>)
    ensures |r| == 2 && r[0] == message && StartsWith(r[1], "Arguments:\n")
    ensures r[1] == "Arguments:\n" + Text.Join("    \n", args)
    ensures forall i :: 0 <= i < |args| ==> Text.Contains(r[1], args[i])
  {
    var listed := Text.Join("    \n", args);
    forall i | 0 <= i < |args| ensures Text.Contains("Arguments:\n" + listed, args[i]) {
      Text.JoinContains("    \n", args, i);
      var k :| 0 <= k <= |listed| - |args[i]| && Text.OccursAt(listed, args[i], k);
      var prefix := "Arguments:\n";
      assert (prefix + listed)[|prefix| + k..|prefix| + k + |args[i]|] == listed[k..k + |args[i]|];
      assert Text.OccursAt(prefix + listed, args[i], |prefix| + k);
    }
    [message, "Arguments:\n" + listed]
  }

  /**
   * `run_process`, given the command line already split into words and the process
   * as a function from executable and arguments to what it hands back.
   */
  function RunProcess(words: seq<string>, venv: bool, run: (string, seq<string>) -> Completed): (r: Outcome<string>)
    ensures |words| == 0 ==> r == Err(ValueError(NOTHING_TO_UNPACK))
    ensures |words| > 0 ==>
      var done := run(Executable(words[0], venv), words[1..]);
      && (r.Ok? <==> done.returncode == 0)
      && (r.Ok? ==> r.value == Message(done.stdout, done.stderr))
      && (r.Err? ==> r.error == CalledProcessError(done.returncode, words[0], done.stdout, done.stderr,
            FailureNotes(Message(done.stdout, done.stderr), words[1..])))
  {
    if |words| == 0 then Err(ValueError(NOTHING_TO_UNPACK))
    else
      var command := words[0];
      var args := words[1..];
      var done := run(Executable(command, venv), args);
      var message := Message(done.stdout, done.stderr);
      if done.returncode != 0 then
        Err(CalledProcessError(done.returncode, command, done.stdout, done.stderr, FailureNotes(message, args)))
      else Ok(message)
  }

  /** Success and failure report the same message: as the result, or as the failure's first note. */
  lemma SameMessageEitherWay(words: seq<string>, venv: bool, run: (string, seq<string>) -> Completed)
    requires |words| > 0
    ensures var r := RunProcess(words, venv, run);
      var done := run(Executable(words[0], venv), words[1..]);
      (if r.Ok? then r.value else r.error.notes[0]) == Message(done.stdout, done.stderr)
  {
  }
}

=== FILE: purepath.dfy ===
/** POSIX `pathlib.PurePath`: an anchor flag and a list of segments. */
module PurePath {
  import opened Wrappers
  import Text

  const NOT_RELATIVE := "path is not relative to the other path"
  const EMPTY_NAME := "path has an empty name"
  const INVALID_NAME := "invalid name"
  const INVALID_SUFFIX := "invalid suffix"

  /** A path is either absolute (anchored at "/") or relative, with its segments in order. */
  datatype Path = Path(absolute: bool, parts: seq<string>)

  /** A legal segment: what pathlib keeps after parsing (no empty, "." or "/"-bearing segment). */
  predicate Segment(s: string) {
    s != "" && s != "." && '/' !in s
  }

  /** Every segment is legal, as for every path pathlib builds. */
  predicate WellFormed(p: Path) {
    forall i :: 0 <= i < |p.parts| ==> Segment(p.parts[i])
  }

  /** `p / q`: an absolute right-hand side replaces the left. */
  function Join(p: Path, q: Path): (r: Path)
    ensures q.absolute ==> r == q
    ensures !q.absolute ==> r.absolute == p.absolute && r.parts == p.parts + q.parts
    ensures WellFormed(p) && WellFormed(q) ==> WellFormed(r)
  {
    if q.absolute then q else Path(p.absolute, p.parts + q.parts)
  }

  /** `p.is_relative_to(base)`: same anchor and `base`'s segments are a prefix of `p`'s. */
  predicate IsRelativeTo(p: Path, base: Path) {
    p.absolute == base.absolute && |base.parts| <= |p.parts| && p.parts[..|base.parts|] == base.parts
  }

  /** `p.relative_to(base)`: the remaining segments, or ValueError when `p` is not under `base`. */
  function RelativeTo(p: Path, base: Path): (r: Outcome<Path>)
    ensures r.Ok? <==> IsRelativeTo(p, base)
    ensures r.Ok? ==> !r.value.absolute && Join(base, r.value) == p
    ensures r.Ok? && WellFormed(p) ==> WellFormed(r.value)
  {
    if IsRelativeTo(p, base) then
      var rel := Path(false, p.parts[|base.parts|..]);
      assert base.parts + rel.parts == p.parts;
      Ok(rel)
    else Err(ValueError(NOT_RELATIVE))
  }

  /** `p.name`: the last segment, empty for "/" and ".". */
  function Name(p: Path): string {
    if |p.parts| == 0 then "" else p.parts[|p.parts| - 1]
  }

  /** `p.parent`: drops the last segment; "/" and "." are their own parents. */
  function Parent(p: Path): (r: Path)
    ensures r.absolute == p.absolute
    ensures |p.parts| > 0 ==> r.parts + [Name(p)] == p.parts
    ensures |p.parts| == 0 ==> r == p
  {
    if |p.parts| == 0 then p else Path(p.absolute, p.parts[..|p.parts| - 1])
  }

  /** Index of the last '.' in `s`, or -1. */
  function LastDot(s: string): (i: int)
    ensures -1 <= i < |s|
    ensures 0 <= i ==> s[i] == '.'
    ensures forall k :: i < k < |s| ==> s[k] != '.'
  {
    if |s| == 0 then -1
    else if s[|s| - 1] == '.' then |s| - 1
    else LastDot(s[..|s| - 1])
  }

  /** The name has a suffix: its last '.' is neither the first nor the last character. */
  predicate HasSuffixDot(name: string) {
    0 < LastDot(name) < |name| - 1
  }

  /** `p.suffix`: from the last '.' of the name, unless that dot starts or ends it. */
  function Suffix(p: Path): (r: string)
    ensures r == "" || (r[0] == '.' && Text.EndsWith(Name(p), r) && |r| < |Name(p)|)
    ensures r == "" || '.' !in r[1..]
  {
    var name := Name(p);
    if HasSuffixDot(name) then
      var r := name[LastDot(name)..];
      assert forall k :: 1 <= k < |r| ==> r[k] == name[LastDot(name) + k] && r[k] != '.';
      assert forall k :: 0 <= k < |r[1..]| ==> r[1..][k] == r[k + 1];
      r
    else ""
  }

  /** `p.stem`: the name without its suffix. */
  function Stem(p: Path): (r: string)
    ensures r + Suffix(p) == Name(p)
  {
    var name := Name(p);
    if HasSuffixDot(name) then name[..LastDot(name)] else name
  }

  /** `p.with_name(name)`: ValueError when `p` has no name or `name` is not one segment. */
  function WithName(p: Path, name: string): (r: Outcome<Path>)
    ensures r.Ok? <==> Name(p) != "" && Segment(name)
    ensures r.Ok? ==> Parent(r.value) == Parent(p) && Name(r.value) == name
  {
    if Name(p) == "" then Err(ValueError(EMPTY_NAME))
    else if !Segment(name) then Err(ValueError(INVALID_NAME))
    else Ok(Path(p.absolute, Parent(p).parts + [name]))
  }

  /** `p.with_suffix(suffix)`: replaces the suffix of the name (appends one when there is none). */
  function WithSuffix(p: Path, suffix: string): (r: Outcome<Path>)
    ensures r.Ok? <==> ValidSuffix(suffix) && Name(p) != ""
    ensures r.Ok? ==> Parent(r.value) == Parent(p) && Name(r.value) == Stem(p) + suffix
  {
    if !ValidSuffix(suffix) then Err(ValueError(INVALID_SUFFIX))
    else if Name(p) == "" then Err(ValueError(EMPTY_NAME))
    else Ok(Path(p.absolute, Parent(p).parts + [Stem(p) + suffix]))
  }

  /** What `with_suffix` accepts: empty, or a dot followed by at least one character and no '/'. */
  predicate ValidSuffix(suffix: string) {
    '/' !in suffix && (suffix == "" || (suffix[0] == '.' && suffix != "."))
  }

  /** `str(p)` (and `p.as_posix()`) on POSIX. */
  function Str(p: Path): string {
    if p.absolute then "/" + Text.Join("/", p.parts)
    else if |p.parts| == 0 then "."
    else Text.Join("/", p.parts)
  }

  /** Python `s.split(sep)` for a one-character separator. */
  function Split(s: string, sep: char): (r: seq<string>)
    ensures |r| > 0
    ensures forall i :: 0 <= i < |r| ==> sep !in r[i]
    decreases |s|
  {
    if sep !in s then [s]
    else
      var i := IndexOf(s, sep);
      [s[..i]] + Split(s[i + 1..], sep)
  }

  function IndexOf(s: string, c: char): (i: nat)
    requires c in s
    ensures i < |s| && s[i] == c && c !in s[..i]
  {
    if s[0] == c then 0 else 1 + IndexOf(s[1..], c)
  }

  /** The segments pathlib keeps: empty and "." segments are dropped. */
  function KeepSegments(xs: seq<string>): (r: seq<string>)
    ensures forall i :: 0 <= i < |r| ==> r[i] != "" && r[i] != "." && r[i] in xs
  {
    if |xs| == 0 then []
    else if xs[0] == "" || xs[0] == "." then KeepSegments(xs[1..])
    else [xs[0]] + KeepSegments(xs[1..])
  }

  /** `Path(s)` on POSIX: a leading "/" anchors it; empty and "." segments vanish. */
  function Parse(s: string): (r: Path)
    ensures WellFormed(r)
    ensures r.absolute <==> Text.StartsWith(s, "/")
  {
    Path(|s| > 0 && s[0] == '/', KeepSegments(Split(s, '/')))
  }

  /** Splitting at the first separator peels off the text before it. */
  lemma SplitCons(a: string, b: string)
    requires '/' !in a
    ensures Split(a + "/" + b, '/') == [a] + Split(b, '/')
  {
    var s := a + "/" + b;
    assert s[|a|] == '/';
    assert s[..|a|] == a;
    assert IndexOf(s, '/') == |a|;
    assert s[|a| + 1..] == b;
  }

  /** Splitting joined segments that hold no separator gives the segments back. */
  lemma {:induction false} SplitJoin(xs: seq<string>)
    requires |xs| > 0
    requires forall i :: 0 <= i < |xs| ==> '/' !in xs[i]
    ensures Split(Text.Join("/", xs), '/') == xs
  {
    if |xs| > 1 {
      assert Text.Join("/", xs) == xs[0] + "/" + Text.Join("/", xs[1..]);
      SplitCons(xs[0], Text.Join("/", xs[1..]));
      SplitJoin(xs[1..]);
      assert xs == [xs[0]] + xs[1..];
    }
  }

  lemma {:induction false} KeepLegal(xs: seq<string>)
    requires forall i :: 0 <= i < |xs| ==> Segment(xs[i])
    ensures KeepSegments(xs) == xs
  {
    if |xs| > 0 {
      KeepLegal(xs[1..]);
    }
  }

  /** Printing a well-formed path and parsing it back gives the same path. */
  lemma ParseStr(p: Path)
    requires WellFormed(p)
    ensures Parse(Str(p)) == p
  {
    if |p.parts| == 0 {
      if p.absolute {
        assert Split("/", '/') == ["", ""] by {
          assert IndexOf("/", '/') == 0;
          assert "/"[1..] == "";
        }
      } else {
        assert Split(".", '/') == ["."];
      }
    } else {
      var joined := Text.Join("/", p.parts);
      SplitJoin(p.parts);
      KeepLegal(p.parts);
      if p.absolute {
        var s := "/" + joined;
        assert IndexOf(s, '/') == 0;
        assert s[1..] == joined;
        assert Split(s, '/') == [""] + p.parts;
      } else {
        assert joined[0] != '/' by {
          JoinHead(p.parts);
        }
      }
    }
  }

  lemma {:induction false} JoinHead(xs: seq<string>)
    requires |xs| > 0 && xs[0] != ""
    ensures |Text.Join("/", xs)| > 0 && Text.Join("/", xs)[0] == xs[0][0]
  {
  }
}

=== FILE: report.dfy ===
/**
 * Which documentation notebooks a change touches: the modified paths that are
 * notebooks under the documentation directory, or their `.h5` data files, each
 * folded to the shell-quoted path of its notebook. Asking DVC for the modified files
 * is a parameter; the folded paths come back as a set because the order of the
 * returned list is that of a Python set.
 */
module Report {
  import opened Wrappers
  import opened PurePath
  import ModuleNames

  const NOTEBOOK := ".ipynb"
  const DATA := ".h5"

  /** A path that marks its notebook as modified: under the docs, and a notebook or its data file. */
  predicate Considered(p: Path, docs: Path) {
    IsRelativeTo(p, docs) && (Suffix(p) == NOTEBOOK || Suffix(p) == DATA)
  }

  /** `path.with_suffix(".ipynb")` for a path that has a suffix, which cannot fail. */
  function NotebookOf(p: Path): (r: Path)
    requires Suffix(p) != ""
    ensures r.absolute == p.absolute && Parent(r) == Parent(p) && Name(r) == Stem(p) + NOTEBOOK
  {
    var w := WithSuffix(p, NOTEBOOK);
    assert ValidSuffix(NOTEBOOK);
    assert Parent(w.value).absolute == w.value.absolute;
    w.value
  }

  /** A path is determined by its anchor, its parent and its name, when it has one. */
  lemma SameParentAndName(p: Path, q: Path)
    requires p.absolute == q.absolute && Parent(p) == Parent(q) && Name(p) == Name(q) && Name(p) != ""
    ensures p == q
  {
    assert |p.parts| > 0 && |q.parts| > 0;
    assert p.parts == Parent(p).parts + [Name(p)];
    assert q.parts == Parent(q).parts + [Name(q)];
  }

  /** The fold of the notebook a considered path stands for (resolved, as `fold` does by default). */
  function FoldedNotebook(p: Path, resolver: Path -> Path): string
    requires Suffix(p) != ""
  {
    ModuleNames.Fold(NotebookOf(p), true, resolver)
  }

  /** The images under `f` of the elements of `xs` that `keep` admits, as a set. */
  function Image<T, U(!new)>(xs: seq<T>, keep: T -> bool, f: T --> U): (r: set<U>)
    requires forall i :: 0 <= i < |xs| && keep(xs[i]) ==> f.requires(xs[i])
    ensures |r| <= |xs|
    ensures forall u :: u in r <==> exists i :: 0 <= i < |xs| && keep(xs[i]) && u == f(xs[i])
  {
    if |xs| == 0 then {}
    else
      var rest := Image(xs[1..], keep, f);
      assert forall i :: 1 <= i < |xs| ==> xs[i] == xs[1..][i - 1];
      if keep(xs[0]) then {f(xs[0])} + rest else rest
  }

  /** The image depends only on which elements occur, not on their order or repetition. */
  lemma ImageIgnoresOrder<T, U(!new)>(a: seq<T>, b: seq<T>, keep: T -> bool, f: T --> U)
    requires forall x :: x in a <==> x in b
    requires forall i :: 0 <= i < |a| && keep(a[i]) ==> f.requires(a[i])
    requires forall i :: 0 <= i < |b| && keep(b[i]) ==> f.requires(b[i])
    ensures Image(a, keep, f) == Image(b, keep, f)
  {
    forall u | u in Image(a, keep, f) ensures u in Image(b, keep, f) {
      var i :| 0 <= i < |a| && keep(a[i]) && u == f(a[i]);
      assert a[i] in b;
      var j :| 0 <= j < |b| && b[j] == a[i];
    }
    forall u | u in Image(b, keep, f) ensures u in Image(a, keep, f) {
      var j :| 0 <= j < |b| && keep(b[j]) && u == f(b[j]);
      assert b[j] in a;
      var i :| 0 <= i < |a| && a[i] == b[j];
    }
  }

  /** `fold_docs_nbs`: the folded notebooks of the considered paths, without duplicates. */
  function FoldDocsNbs(paths: seq<Path>, docs: Path, resolver: Path -> Path): (r: set<string>)
    ensures |r| <= |paths|
    ensures forall s :: s in r <==>
      exists i :: 0 <= i < |paths| && Considered(paths[i], docs) && s == FoldedNotebook(paths[i], resolver)
  {
    Image(paths, p => Considered(p, docs), p requires Suffix(p) != "" => FoldedNotebook(p, resolver))
  }

  /** The result depends only on which paths were modified, not on their order or repetition. */
  lemma FoldDocsNbsIgnoresOrder(a: seq<Path>, b: seq<Path>, docs: Path, resolver: Path -> Path)
    requires forall p :: p in a <==> p in b
    ensures FoldDocsNbs(a, docs, resolver) == FoldDocsNbs(b, docs, resolver)
  {
    ImageIgnoresOrder(a, b, p => Considered(p, docs), p requires Suffix(p) != "" => FoldedNotebook(p, resolver));
  }

  /** A notebook and its data file stand for the same notebook. */
  lemma NotebookAndDataSameNotebook(nb: Path, data: Path)
    requires Suffix(nb) == NOTEBOOK && Suffix(data) == DATA
    requires nb.absolute == data.absolute && Parent(nb) == Parent(data) && Stem(nb) == Stem(data)
    ensures NotebookOf(nb) == NotebookOf(data)
  {
    SameParentAndName(NotebookOf(nb), NotebookOf(data));
  }

  /** Two admitted elements with the same image contribute a single entry. */
  lemma ImagePair<T, U(!new)>(x: T, y: T, keep: T -> bool, f: T --> U)
    requires keep(x) && keep(y) && f.requires(x) && f.requires(y) && f(x) == f(y)
    ensures Image([x, y], keep, f) == {f(x)}
  {
    assert [x, y][1..] == [y];
  }

  /** Modifying a notebook and its data file marks one notebook, once. */
  lemma NotebookAndDataCollapse(nb: Path, data: Path, docs: Path, resolver: Path -> Path)
    requires Considered(nb, docs) && Considered(data, docs) && Suffix(nb) == NOTEBOOK && Suffix(data) == DATA
    requires nb.absolute == data.absolute && Parent(nb) == Parent(data) && Stem(nb) == Stem(data)
    ensures FoldDocsNbs([nb, data], docs, resolver) == {FoldedNotebook(nb, resolver)}
  {
    NotebookAndDataSameNotebook(nb, data);
    ImagePair(nb, data, p => Considered(p, docs), p requires Suffix(p) != "" => FoldedNotebook(p, resolver));
  }

  /**
   * `fold_modified_nbs`, given the modified files: nothing unless some modified file is
   * under the docs, and otherwise the folded documentation notebooks.
   */
  function FoldModifiedNbs(modified: seq<Path>, docs: Path, resolver: Path -> Path): (r: set<string>)
    ensures r == FoldDocsNbs(modified, docs, resolver)
    ensures r != {} ==> exists i :: 0 <= i < |modified| && IsRelativeTo(modified[i], docs)
  {
    if exists i :: 0 <= i < |modified| && IsRelativeTo(modified[i], docs) then FoldDocsNbs(modified, docs, resolver)
    else
      var all := FoldDocsNbs(modified, docs, resolver);
      assert all == {};
      {}
  }
}

=== FILE: settingsmodels.dfy ===
/**
 * Settings-model plumbing: where a package's settings files live, the YAML sources
 * read from them, the order sources are consulted in, and the schema written beside a
 * settings file. YAML loading is a parameter.
 */
module SettingsModels {
  import opened Wrappers
  import opened Dict
  import opened PurePath
  import opened FileSystem
  import opened YamlSync
  import ModuleNames
  import Text

  /** The `Paths` model. */
  datatype Paths = Paths(
    cwdPluginSettings: Path, devPluginSettings: Path, pluginSettings: seq<Path>,
    cwdSettings: Path, devSettings: Path, settings: seq<Path>,
    allCwdSettings: seq<Path>, allDevSettings: seq<Path>,
    inDev: bool)

  /**
   * `get_settings_paths`: the package's name comes from its qualified name, its directory
   * from its first search location; `cwd` and `getsitepackages()` are parameters.
   */
  function GetSettingsPaths(qualname: string, searchLocation: string, cwd: Path, sitePackages: seq<string>): (r: Paths)
    ensures var name := ModuleNames.ModuleName(ModuleNames.Spec(qualname));
      && r.cwdPluginSettings == Join(cwd, Parse(name + "_plugin.yaml"))
      && r.cwdSettings == Join(cwd, Parse(name + ".yaml"))
    ensures r.devPluginSettings == Join(Parse(searchLocation), Path(false, ["settings_plugin.yaml"]))
    ensures r.devSettings == Join(Parse(searchLocation), Path(false, ["settings.yaml"]))
    ensures r.pluginSettings == [r.cwdPluginSettings, r.devPluginSettings]
    ensures r.settings == [r.cwdSettings, r.devSettings]
    ensures r.allCwdSettings == [r.cwdPluginSettings, r.cwdSettings]
    ensures r.allDevSettings == [r.devPluginSettings, r.devSettings]
    ensures r.inDev <==> |sitePackages| == 0 || !IsRelativeTo(Parse(searchLocation), Parse(sitePackages[0]))
  {
    var packageDir := Parse(searchLocation);
    var name := ModuleNames.ModuleName(ModuleNames.Spec(qualname));
    var cwdPlugin := Join(cwd, Parse(name + "_plugin.yaml"));
    var devPlugin := Join(packageDir, Parse("settings_plugin.yaml"));
    var cwdSettings := Join(cwd, Parse(name + ".yaml"));
    var devSettings := Join(packageDir, Parse("settings.yaml"));
    DevFileNames();
    Paths(cwdPlugin, devPlugin, [cwdPlugin, devPlugin], cwdSettings, devSettings, [cwdSettings, devSettings],
      [cwdPlugin, cwdSettings], [devPlugin, devSettings],
      !(|sitePackages| > 0 && IsRelativeTo(packageDir, Parse(sitePackages[0]))))
  }

  /** The working-directory settings files sit directly in the working directory, named after the package. */
  lemma SettingsPathsInCwd(qualname: string, searchLocation: string, cwd: Path, sitePackages: seq<string>)
    requires ModuleNames.ModuleName(ModuleNames.Spec(qualname)) != "" && '/' !in qualname
    ensures var r := GetSettingsPaths(qualname, searchLocation, cwd, sitePackages);
      && Parent(r.cwdPluginSettings) == cwd && Parent(r.cwdSettings) == cwd
      && Name(r.cwdPluginSettings) == ModuleNames.ModuleName(ModuleNames.Spec(qualname)) + "_plugin.yaml"
      && Name(r.cwdSettings) == ModuleNames.ModuleName(ModuleNames.Spec(qualname)) + ".yaml"
  {
    var name := ModuleNames.ModuleName(ModuleNames.Spec(qualname));
    NameHasNoSlash(qualname);
    FileInDir(cwd, name, "_plugin.yaml");
    FileInDir(cwd, name, ".yaml");
  }

  /** The development settings files sit directly in the package directory. */
  lemma SettingsPathsInPackage(qualname: string, searchLocation: string, cwd: Path, sitePackages: seq<string>)
    ensures var r := GetSettingsPaths(qualname, searchLocation, cwd, sitePackages);
      && Parent(r.devPluginSettings) == Parse(searchLocation) && Parent(r.devSettings) == Parse(searchLocation)
      && Name(r.devPluginSettings) == "settings_plugin.yaml" && Name(r.devSettings) == "settings.yaml"
  {
    var dir := Parse(searchLocation);
    assert (dir.parts + ["settings_plugin.yaml"])[..|dir.parts|] == dir.parts;
    assert (dir.parts + ["settings.yaml"])[..|dir.parts|] == dir.parts;
  }

  /** The per-location lists hold the same four files as the per-kind lists. */
  lemma SettingsPathsSameFiles(qualname: string, searchLocation: string, cwd: Path, sitePackages: seq<string>)
    ensures var r := GetSettingsPaths(qualname, searchLocation, cwd, sitePackages);
      multiset(r.allCwdSettings + r.allDevSettings) == multiset(r.pluginSettings + r.settings)
  {
  }

  /** A file named after a name without "/" sits directly in the directory it is joined to. */
  lemma FileInDir(dir: Path, name: string, ext: string)
    requires '/' !in name && '/' !in ext && |ext| > 1
    ensures Parent(Join(dir, Parse(name + ext))) == dir && Name(Join(dir, Parse(name + ext))) == name + ext
  {
    assert '/' !in name + ext by {
      forall i | 0 <= i < |name + ext| ensures (name + ext)[i] != '/' {
        if i < |name| {
          assert (name + ext)[i] == name[i];
        } else {
          assert (name + ext)[i] == ext[i - |name|];
        }
      }
    }
    SingleSegment(name + ext);
    assert (dir.parts + [name + ext])[..|dir.parts|] == dir.parts;
  }

  /** The unqualified name of a module whose qualified name has no "/" has none either. */
  lemma NameHasNoSlash(qualname: string)
    requires '/' !in qualname
    ensures '/' !in ModuleNames.ModuleName(ModuleNames.Spec(qualname))
  {
  }

  lemma DevFileNames()
    ensures Parse("settings_plugin.yaml") == Path(false, ["settings_plugin.yaml"])
    ensures Parse("settings.yaml") == Path(false, ["settings.yaml"])
  {
    SingleSegment("settings_plugin.yaml");
    SingleSegment("settings.yaml");
  }

  /** A non-empty text without "/" that is not "." parses to one relative segment. */
  lemma SingleSegment(s: string)
    requires s != "" && s != "." && '/' !in s
    ensures Parse(s) == Path(false, [s])
  {
    assert Split(s, '/') == [s];
    assert KeepSegments([s]) == [s] + KeepSegments([s][1..]);
    assert [s][1..] == [];
  }

  /** A YAML settings source: its file and the keyword arguments loaded from it. */
  datatype YamlSource = YamlSource(file: Path, initKwargs: Dict<string, YamlValue>)

  const SCHEMA_KEY := "$schema"

  /** One source per file, in order; a truthy "$schema" entry is deleted from what was loaded. */
  function GetYamlSources(paths: seq<Path>, load: Path -> Dict<string, YamlValue>): (r: seq<YamlSource>)
    ensures |r| == |paths|
    ensures forall i :: 0 <= i < |paths| ==> r[i].file == paths[i]
    ensures forall i, k :: 0 <= i < |paths| && k != SCHEMA_KEY ==> Get(r[i].initKwargs, k) == Get(load(paths[i]), k)
    ensures forall i :: 0 <= i < |paths| ==>
      Get(r[i].initKwargs, SCHEMA_KEY) == if Forwards(load(paths[i])) then None else Get(load(paths[i]), SCHEMA_KEY)
  {
    seq(|paths|, i requires 0 <= i < |paths| => YamlSourceFor(paths[i], load(paths[i])))
  }

  /** The loaded "$schema" entry is truthy, so it is deleted. */
  predicate Forwards(loaded: Dict<string, YamlValue>) {
    var v := Get(loaded, SCHEMA_KEY);
    v.Some? && Truthy(v.value)
  }

  function YamlSourceFor(file: Path, loaded: Dict<string, YamlValue>): (r: YamlSource)
    ensures r.file == file
    ensures forall k :: k != SCHEMA_KEY ==> Get(r.initKwargs, k) == Get(loaded, k)
    ensures Get(r.initKwargs, SCHEMA_KEY) == if Forwards(loaded) then None else Get(loaded, SCHEMA_KEY)
    ensures !Forwards(loaded) ==> r.initKwargs == loaded
  {
    if Forwards(loaded) then
      var kept := FilterKeys(loaded, NotSchema);
      forall k ensures Get(kept, k) == if k != SCHEMA_KEY then Get(loaded, k) else None {
        FilterKeysGet(loaded, NotSchema, k);
      }
      YamlSource(file, kept)
    else YamlSource(file, loaded)
  }

  function NotSchema(k: string): bool {
    k != SCHEMA_KEY
  }

  /** A settings source, in the order pydantic-settings consults them. */
  datatype Source = InitSource(kwargs: Dict<string, YamlValue>) | YamlFileSource(source: YamlSource)

  /** `customise_sources`: the init source first, then one YAML source per file, in order. */
  function CustomiseSources(init: Dict<string, YamlValue>, yamlFiles: seq<Path>, load: Path -> Dict<string, YamlValue>): (r: seq<Source>)
    ensures |r| == 1 + |yamlFiles| && r[0] == InitSource(init)
    ensures forall i :: 0 <= i < |yamlFiles| ==> r[i + 1] == YamlFileSource(GetYamlSources(yamlFiles, load)[i])
  {
    var yaml := GetYamlSources(yamlFiles, load);
    [InitSource(init)] + seq(|yaml|, i requires 0 <= i < |yaml| => YamlFileSource(yaml[i]))
  }

  /** `get_plugin_settings`: the configuration under the package's name and nothing else. */
  function GetPluginSettings<C>(packageName: string, config: C): (r: Dict<string, C>)
    ensures Keys(r) == [packageName]
    ensures forall k :: Get(r, k) == if k == packageName then Some(config) else None
  {
    [(packageName, config)]
  }

  /**
   * `sync_settings_schema`: the settings file is created when missing, then the schema is
   * written to `<stem>_schema.json` beside it.
   */
  function SyncSettingsSchema(fs: FS, path: Path, schemaJson: string): (r: Outcome<FS>)
    ensures r.Ok? ==> (Exists(r.value, path) && SchemaPath(path).Ok? && SchemaPath(path).value in r.value.files
      && r.value.files[SchemaPath(path).value] == schemaJson + "\n")
    ensures r.Ok? && IsFile(fs, path) ==> path in r.value.files && r.value.files[path] == fs.files[path]
    ensures !Exists(fs, path) && !IsDir(fs, Parent(path)) ==> r.Err?
  {
    var touched :- Touch(fs, path);
    var written :- WriteSchema(touched, path, schemaJson);
    SchemaIsNotSettings(path);
    Ok(written)
  }

  /** The schema file is never the settings file it describes. */
  lemma SchemaIsNotSettings(path: Path)
    requires SchemaPath(path).Ok?
    ensures SchemaPath(path).value != path
  {
  }
}

=== FILE: text.dfy ===
/** The handful of Python `str` operations the modelled code relies on. */
module Text {

  /** `sub` occurs in `s` starting at index `i`. */
  predicate OccursAt(s: string, sub: string, i: int) {
    0 <= i && i + |sub| <= |s| && s[i..i + |sub|] == sub
  }

  /** Python `sub in s`. */
  predicate Contains(s: string, sub: string) {
    exists i | 0 <= i <= |s| - |sub| :: OccursAt(s, sub, i)
  }

  /** Python `s.startswith(p)`. */
  predicate StartsWith(s: string, p: string) {
    |p| <= |s| && s[..|p|] == p
  }

  /** Python `s.endswith(p)`. */
  predicate EndsWith(s: string, p: string) {
    |p| <= |s| && s[|s| - |p|..] == p
  }

  /** Python `s.removeprefix(p)`: drops `p` once when `s` starts with it. */
  function RemovePrefix(s: string, p: string): (r: string)
    ensures StartsWith(s, p) ==> p + r == s
    ensures !StartsWith(s, p) ==> r == s
  {
    if StartsWith(s, p) then s[|p|..] else s
  }

  /** Python `s.replace(a, b)` for one-character `a` and `b`. */
  function ReplaceChar(s: string, a: char, b: char): (r: string)
    ensures |r| == |s|
    ensures forall i :: 0 <= i < |s| ==> r[i] == (if s[i] == a then b else s[i])
    ensures a !in r || a == b
  {
    if |s| == 0 then "" else [if s[0] == a then b else s[0]] + ReplaceChar(s[1..], a, b)
  }

  /** Python `s.replace(pat, rep)`: scans left to right and replaces non-overlapping occurrences. */
  function Replace(s: string, pat: string, rep: string): string
    requires |pat| > 0
    decreases |s|
  {
    if |s| < |pat| then s
    else if s[..|pat|] == pat then rep + Replace(s[|pat|..], pat, rep)
    else [s[0]] + Replace(s[1..], pat, rep)
  }

  /** Python `sep.join(xs)`. */
  function Join(sep: string, xs: seq<string>): string {
    if |xs| == 0 then ""
    else if |xs| == 1 then xs[0]
    else xs[0] + sep + Join(sep, xs[1..])
  }

  /** Each joined string occurs in the result, after the parts and separators before it. */
  lemma {:induction false} JoinContains(sep: string, xs: seq<string>, i: nat)
    requires i < |xs|
    ensures Contains(Join(sep, xs), xs[i])
  {
    if |xs| > 1 {
      var p := xs[0] + sep;
      var t := Join(sep, xs[1..]);
      assert Join(sep, xs) == p + t;
      if i == 0 {
        assert (p + t)[0..|xs[0]|] == xs[0];
        assert OccursAt(p + t, xs[0], 0);
      } else {
        JoinContains(sep, xs[1..], i - 1);
        var k :| 0 <= k <= |t| - |xs[i]| && OccursAt(t, xs[1..][i - 1], k);
        assert (p + t)[|p| + k..|p| + k + |xs[i]|] == t[k..k + |xs[i]|];
        assert OccursAt(p + t, xs[i], |p| + k);
      }
    } else {
      assert OccursAt(Join(sep, xs), xs[i], 0);
    }
  }

  /** Python `c.isspace()`: the Unicode whitespace characters. */
  predicate IsSpace(c: char) {
    || c == ' ' || ('\U{0009}' <= c <= '\U{000D}') || ('\U{001C}' <= c <= '\U{001F}')
    || c == '\U{0085}' || c == '\U{00A0}' || c == '\U{1680}' || ('\U{2000}' <= c <= '\U{200A}')
    || c == '\U{2028}' || c == '\U{2029}' || c == '\U{202F}' || c == '\U{205F}' || c == '\U{3000}'
  }

  function StripLeft(s: string): (r: string)
    ensures |r| <= |s| && r == s[|s| - |r|..]
    ensures forall i :: 0 <= i < |s| - |r| ==> IsSpace(s[i])
    ensures |r| > 0 ==> !IsSpace(r[0])
  {
    if |s| > 0 && IsSpace(s[0]) then StripLeft(s[1..]) else s
  }

  function StripRight(s: string): (r: string)
    ensures |r| <= |s| && r == s[..|r|]
    ensures forall i :: |r| <= i < |s| ==> IsSpace(s[i])
    ensures |r| > 0 ==> !IsSpace(r[|r| - 1])
  {
    if |s| > 0 && IsSpace(s[|s| - 1]) then StripRight(s[..|s| - 1]) else s
  }

  /** `r` is the infix of `s` starting at `i` and everything around it is whitespace. */
  predicate TrimmedAt(s: string, r: string, i: int) {
    && 0 <= i <= |s| - |r| && r == s[i..i + |r|]
    && (forall k :: 0 <= k < i ==> IsSpace(s[k]))
    && (forall k :: i + |r| <= k < |s| ==> IsSpace(s[k]))
  }

  /** Python `s.strip()`: the longest infix of `s` with no whitespace at either end. */
  function Strip(s: string): (r: string)
    ensures exists i :: TrimmedAt(s, r, i)
    ensures |r| > 0 ==> !IsSpace(r[0]) && !IsSpace(r[|r| - 1])
  {
    var l := StripLeft(s);
    var r := StripRight(l);
    assert TrimmedAt(s, r, |s| - |l|);
    r
  }

  /** Replacing a substring that does not occur leaves the string unchanged. */
  lemma {:induction false} ReplaceAbsent(s: string, pat: string, rep: string)
    requires |pat| > 0
    requires !Contains(s, pat)
    ensures Replace(s, pat, rep) == s
    decreases |s|
  {
    if |s| < |pat| {
    } else {
      assert !OccursAt(s, pat, 0);
      assert s[..|pat|] != pat;
      forall i | OccursAt(s[1..], pat, i) ensures false {
        assert s[1..][i..i + |pat|] == s[i + 1..i + 1 + |pat|];
        assert OccursAt(s, pat, i + 1);
      }
      ReplaceAbsent(s[1..], pat, rep);
    }
  }

  /** Replacing by something shorter never lengthens a string, and shortens it when the pattern occurs. */
  lemma {:induction false} ReplaceShorter(s: string, pat: string, rep: string)
    requires |rep| < |pat|
    ensures |Replace(s, pat, rep)| <= |s|
    ensures Contains(s, pat) ==> |Replace(s, pat, rep)| < |s|
    decreases |s|
  {
    if |s| < |pat| {
    } else if s[..|pat|] == pat {
      ReplaceShorter(s[|pat|..], pat, rep);
    } else {
      ReplaceShorter(s[1..], pat, rep);
      if Contains(s, pat) {
        var i :| 0 <= i <= |s| - |pat| && OccursAt(s, pat, i);
        assert i != 0;
        assert s[1..][i - 1..i - 1 + |pat|] == s[i..i + |pat|];
        assert OccursAt(s[1..], pat, i - 1);
      }
    }
  }
}

=== FILE: trials.dfy ===
/**
 * Setting up a trial: its run files, sorted as pathlib sorts paths, the run index parsed
 * from each run file's stem, and the thermocouple positions keyed by copper temperature
 * column. Timestamps are kept as the strings handed to `pd.Timestamp.fromisoformat`.
 */
module Trials {
  import opened Wrappers
  import opened Dict
  import Text
  import opened PurePath

  const NO_RUN_TIME := "Could not parse run time: "
  const NOT_BROADCAST := "operands could not be broadcast together"
  const NO_RUNS := "No runs found in "

  // ---------------------------------------------------------------------------
  // Run-time parsing
  // ---------------------------------------------------------------------------

  /** The part of `s` a `.` pattern can match: everything before the first line break. */
  function FirstLine(s: string): (r: string)
    ensures '\n' !in r && Text.StartsWith(s, r)
    ensures |r| < |s| ==> s[|r|] == '\n'
  {
    if '\n' in s then s[..IndexOf(s, '\n')] else s
  }

  /** Index of the last `c` in `s`, or -1. */
  function LastIndex(s: string, c: char): (i: int)
    ensures -1 <= i < |s|
    ensures 0 <= i ==> s[i] == c
    ensures forall k :: i < k < |s| ==> s[k] != c
  {
    if |s| == 0 then -1
    else if s[|s| - 1] == c then |s| - 1
    else LastIndex(s[..|s| - 1], c)
  }

  /** The time part follows the last "T" of the line; every "-" in it becomes ":". */
  function RunTimeOfLine(line: string): (r: Option<string>)
    ensures r.Some? <==> 'T' in line
    ensures r.Some? ==> |r.value| == |line|
  {
    var k := LastIndex(line, 'T');
    if k < 0 then None
    else Some(line[..k] + "T" + Text.ReplaceChar(line[k + 1..], '-', ':'))
  }

  /** The date part, up to and including the last "T", is kept; the time part only has its dashes replaced. */
  lemma RunTimeOfLineParts(line: string)
    requires 'T' in line
    ensures var k := LastIndex(line, 'T');
      && 0 <= k
      && RunTimeOfLine(line).value[..k + 1] == line[..k + 1]
      && forall j :: k < j < |line| ==> RunTimeOfLine(line).value[j] == if line[j] == '-' then ':' else line[j]
  {
    var k := LastIndex(line, 'T');
    SplitAtParts(line, k);
  }

  /** Splitting at a "T" and converting what follows keeps the prefix and maps each later character. */
  lemma SplitAtParts(line: string, k: int)
    requires 0 <= k < |line| && line[k] == 'T'
    ensures var r := line[..k] + "T" + Text.ReplaceChar(line[k + 1..], '-', ':');
      && |r| == |line|
      && r[..k + 1] == line[..k + 1]
      && forall j :: k < j < |line| ==> r[j] == if line[j] == '-' then ':' else line[j]
  {
    var time := Text.ReplaceChar(line[k + 1..], '-', ':');
    var r := line[..k] + "T" + time;
    assert r[..k + 1] == line[..k + 1];
    forall j | k < j < |line| ensures r[j] == if line[j] == '-' then ':' else line[j] {
      assert r[j] == time[j - k - 1] && line[j] == line[k + 1..][j - k - 1];
    }
  }

  /**
   * The run time of a run file's stem: "results_" is removed once, then the greedy pattern
   * `(?P<date>.*)T(?P<time>.*)` matches the first line, splitting it at its last "T". A
   * stem with no "T" raises AttributeError.
   */
  function RunTime(stem: string): (r: Outcome<string>)
    ensures var t := Text.RemovePrefix(stem, "results_");
      && (r.Ok? <==> 'T' in FirstLine(t))
      && (r.Ok? ==> Some(r.value) == RunTimeOfLine(FirstLine(t)))
      && (r.Err? ==> r.error == AttributeError(NO_RUN_TIME + t))
  {
    var t := Text.RemovePrefix(stem, "results_");
    match RunTimeOfLine(FirstLine(t))
    case None => Err(AttributeError(NO_RUN_TIME + t))
    case Some(runTime) => Ok(runTime)
  }

  lemma RemoveResults(t: string)
    ensures Text.RemovePrefix("results_" + t, "results_") == t
  {
    var stem := "results_" + t;
    assert stem[..8] == "results_";
  }

  /** A stem built from a date and a time without "T" parses back to that date and time. */
  lemma RunTimeOfStem(date: string, time: string)
    requires '\n' !in date && '\n' !in time && 'T' !in time
    ensures RunTime("results_" + (date + "T" + time)) == Ok(date + "T" + Text.ReplaceChar(time, '-', ':'))
  {
    var t := date + "T" + time;
    RemoveResults(t);
    SingleLine(t);
    RunTimeOfSplitLine(date, time);
  }

  lemma SingleLine(t: string)
    requires '\n' !in t
    ensures FirstLine(t) == t
  {
  }

  /** A line split at its only "T" after the date keeps the date and converts the time. */
  lemma RunTimeOfSplitLine(date: string, time: string)
    requires 'T' !in time
    ensures RunTimeOfLine(date + "T" + time) == Some(date + "T" + Text.ReplaceChar(time, '-', ':'))
  {
    var t := date + "T" + time;
    LastT(date, time);
    assert t[..|date|] == date && t[|date| + 1..] == time;
  }

  lemma LastT(date: string, time: string)
    requires 'T' !in time
    ensures LastIndex(date + "T" + time, 'T') == |date|
  {
    NoTAfter(date, time);
    LastIndexIs(date + "T" + time, 'T', |date|);
  }

  lemma NoTAfter(date: string, time: string)
    requires 'T' !in time
    ensures var t := date + "T" + time; t[|date|] == 'T' && forall j :: |date| < j < |t| ==> t[j] != 'T'
  {
    var t := date + "T" + time;
    forall j | |date| < j < |t| ensures t[j] != 'T' {
      assert t[j] == time[j - |date| - 1];
    }
  }

  lemma LastIndexIs(s: string, c: char, k: int)
    requires 0 <= k < |s| && s[k] == c
    requires forall j :: k < j < |s| ==> s[j] != c
    ensures LastIndex(s, c) == k
  {
  }

  /** A stem without a "T" has no run time. */
  lemma RunTimeNeedsT(stem: string)
    requires 'T' !in stem
    ensures RunTime(stem).Err?
  {
  }

  // ---------------------------------------------------------------------------
  // Path ordering
  // ---------------------------------------------------------------------------

  /** Python's `str` ordering: lexicographic by code point, a prefix first. */
  predicate StrLe(a: string, b: string) {
    |a| == 0 || (|b| > 0 && (a[0] < b[0] || (a[0] == b[0] && StrLe(a[1..], b[1..]))))
  }

  /** Python's list ordering on lists of strings. */
  predicate KeyLe(a: seq<string>, b: seq<string>) {
    |a| == 0 || (|b| > 0 && ((StrLe(a[0], b[0]) && a[0] != b[0]) || (a[0] == b[0] && KeyLe(a[1..], b[1..]))))
  }

  /** What pathlib compares: the path's text split at "/". */
  function Key(p: Path): seq<string> {
    Split(Str(p), '/')
  }

  predicate PathLe(p: Path, q: Path) {
    KeyLe(Key(p), Key(q))
  }

  lemma {:induction false} StrLeTotal(a: string, b: string)
    ensures StrLe(a, b) || StrLe(b, a)
  {
    if |a| > 0 && |b| > 0 && a[0] == b[0] {
      StrLeTotal(a[1..], b[1..]);
    }
  }

  lemma {:induction false} StrLeAntisymmetric(a: string, b: string)
    requires StrLe(a, b) && StrLe(b, a)
    ensures a == b
  {
    if |a| > 0 {
      StrLeAntisymmetric(a[1..], b[1..]);
      assert a == [a[0]] + a[1..] && b == [b[0]] + b[1..];
    }
  }

  lemma {:induction false} StrLeTransitive(a: string, b: string, c: string)
    requires StrLe(a, b) && StrLe(b, c)
    ensures StrLe(a, c)
  {
    if |a| > 0 && a[0] == b[0] && b[0] == c[0] {
      StrLeTransitive(a[1..], b[1..], c[1..]);
    }
  }

  lemma {:induction false} KeyLeTotal(a: seq<string>, b: seq<string>)
    ensures KeyLe(a, b) || KeyLe(b, a)
  {
    if |a| > 0 && |b| > 0 {
      if a[0] == b[0] {
        KeyLeTotal(a[1..], b[1..]);
      } else {
        StrLeTotal(a[0], b[0]);
      }
    }
  }

  lemma {:induction false} KeyLeAntisymmetric(a: seq<string>, b: seq<string>)
    requires KeyLe(a, b) && KeyLe(b, a)
    ensures a == b
  {
    if |a| > 0 {
      if a[0] != b[0] {
        StrLeAntisymmetric(a[0], b[0]);
      }
      KeyLeAntisymmetric(a[1..], b[1..]);
      assert a == [a[0]] + a[1..] && b == [b[0]] + b[1..];
    }
  }

  lemma {:induction false} KeyLeTransitive(a: seq<string>, b: seq<string>, c: seq<string>)
    requires KeyLe(a, b) && KeyLe(b, c)
    ensures KeyLe(a, c)
  {
    if |a| > 0 {
      if a[0] == b[0] && b[0] == c[0] {
        KeyLeTransitive(a[1..], b[1..], c[1..]);
      } else if a[0] != b[0] && b[0] != c[0] {
        StrLeTransitive(a[0], b[0], c[0]);
        if a[0] == c[0] {
          StrLeAntisymmetric(a[0], b[0]);
        }
      }
    }
  }

  /** The first piece of the split text is empty exactly for an absolute path. */
  lemma SplitHead(s: string)
    requires |s| > 0
    ensures Split(s, '/')[0] == "" <==> s[0] == '/'
  {
    if '/' in s {
      var i := IndexOf(s, '/');
      assert Split(s, '/')[0] == s[..i];
    }
  }

  /** Distinct well-formed paths have distinct keys, so no two of them compare equal. */
  lemma KeyInjective(p: Path, q: Path)
    requires WellFormed(p) && WellFormed(q) && Key(p) == Key(q)
    ensures p == q
  {
    ParseStr(p);
    ParseStr(q);
    assert |Str(p)| > 0 && |Str(q)| > 0 by {
      if !p.absolute && |p.parts| > 0 {
        JoinHead(p.parts);
      }
      if !q.absolute && |q.parts| > 0 {
        JoinHead(q.parts);
      }
    }
    SplitHead(Str(p));
    SplitHead(Str(q));
  }

  // ---------------------------------------------------------------------------
  // sorted()
  // ---------------------------------------------------------------------------

  predicate Sorted(s: seq<Path>) {
    forall i :: 0 < i < |s| ==> PathLe(s[i - 1], s[i])
  }

  function Insert(x: Path, s: seq<Path>): (r: seq<Path>)
    requires Sorted(s)
    ensures Sorted(r) && multiset(r) == multiset(s) + multiset{x}
    ensures |r| == |s| + 1 && (r[0] == x || (|s| > 0 && r[0] == s[0]))
  {
    if |s| == 0 then [x]
    else if PathLe(x, s[0]) then
      SortedCons(x, s);
      [x] + s
    else
      KeyLeTotal(Key(x), Key(s[0]));
      SortedTail(s);
      var t := Insert(x, s[1..]);
      assert |s| > 1 ==> PathLe(s[0], s[1]);
      SortedCons(s[0], t);
      assert s == [s[0]] + s[1..];
      [s[0]] + t
  }

  /** A path no later than the head of a sorted list extends it sorted. */
  lemma SortedCons(y: Path, t: seq<Path>)
    requires Sorted(t) && (|t| > 0 ==> PathLe(y, t[0]))
    ensures Sorted([y] + t)
  {
    assert forall i :: 0 <= i < |t| ==> ([y] + t)[i + 1] == t[i];
  }

  /** `sorted(paths)`: a sorted permutation of its input. */
  function Sort(xs: seq<Path>): (r: seq<Path>)
    ensures Sorted(r) && multiset(r) == multiset(xs)
  {
    if |xs| == 0 then []
    else
      assert xs == [xs[0]] + xs[1..];
      Insert(xs[0], Sort(xs[1..]))
  }

  /** The head of a sorted list is at most every element. */
  lemma {:induction false} SortedMin(s: seq<Path>, i: nat)
    requires Sorted(s) && i < |s|
    ensures PathLe(s[0], s[i])
  {
    if i == 0 {
      KeyLeTotal(Key(s[0]), Key(s[0]));
    } else {
      SortedMin(s, i - 1);
      KeyLeTransitive(Key(s[0]), Key(s[i - 1]), Key(s[i]));
    }
  }

  lemma SortedTail(s: seq<Path>)
    requires Sorted(s) && |s| > 0
    ensures Sorted(s[1..])
  {
    assert forall k :: 0 < k < |s[1..]| ==> s[1..][k - 1] == s[k] && s[1..][k] == s[k + 1];
  }

  /** Two sorted lists of the same well-formed paths start alike. */
  lemma SortedHeads(a: seq<Path>, b: seq<Path>)
    requires Sorted(a) && Sorted(b) && multiset(a) == multiset(b) && |a| > 0
    requires forall i :: 0 <= i < |a| ==> WellFormed(a[i])
    ensures |b| > 0 && a[0] == b[0]
  {
    assert |a| == |multiset(a)| == |multiset(b)| == |b|;
    assert a[0] in multiset(b) && b[0] in multiset(a);
    var j :| 0 <= j < |b| && b[j] == a[0];
    var i :| 0 <= i < |a| && a[i] == b[0];
    SortedMin(a, i);
    SortedMin(b, j);
    KeyLeAntisymmetric(Key(a[0]), Key(b[0]));
    KeyInjective(a[0], b[0]);
  }

  /** Two sorted lists of the same well-formed paths are equal. */
  lemma {:induction false} SortedUnique(a: seq<Path>, b: seq<Path>)
    requires Sorted(a) && Sorted(b) && multiset(a) == multiset(b)
    requires forall i :: 0 <= i < |a| ==> WellFormed(a[i])
    ensures a == b
    decreases |a|
  {
    if |a| > 0 {
      SortedHeads(a, b);
      DropHead(a);
      DropHead(b);
      assert forall k :: 0 <= k < |a[1..]| ==> a[1..][k] == a[k + 1];
      SortedTail(a);
      SortedTail(b);
      SortedUnique(a[1..], b[1..]);
    } else {
      assert |b| == |multiset(b)| == 0;
    }
  }

  /** A non-empty sequence is its head followed by its tail, and the tail's multiset lacks one head. */
  lemma DropHead<T>(a: seq<T>)
    requires |a| > 0
    ensures a == [a[0]] + a[1..]
    ensures multiset(a[1..]) == multiset(a) - multiset{a[0]}
  {
    assert a == [a[0]] + a[1..];
  }

  /** The order in which the directory lists its run files does not matter. */
  lemma SortIgnoresListingOrder(xs: seq<Path>, ys: seq<Path>)
    requires multiset(xs) == multiset(ys)
    requires forall i :: 0 <= i < |xs| ==> WellFormed(xs[i])
    ensures Sort(xs) == Sort(ys)
  {
    var a := Sort(xs);
    forall i | 0 <= i < |a| ensures WellFormed(a[i]) {
      assert a[i] in multiset(xs);
    }
    SortedUnique(a, Sort(ys));
  }

  // ---------------------------------------------------------------------------
  // Trial setup
  // ---------------------------------------------------------------------------

  /** `outs[i]` is the first failure, and it raises `e`. */
  predicate FailsFirstAt<T>(outs: seq<Outcome<T>>, i: int, e: Exc) {
    && 0 <= i < |outs| && outs[i] == Err(e)
    && forall j :: 0 <= j < i ==> outs[j].Ok?
  }

  /** Pairs every parsed run time with the trial date; the first failure propagates. */
  function Collect(date: string, outs: seq<Outcome<string>>): (r: Outcome<seq<(string, string)>>)
    ensures r.Ok? <==> forall i :: 0 <= i < |outs| ==> outs[i].Ok?
    ensures r.Ok? ==> |r.value| == |outs| && forall i :: 0 <= i < |outs| ==> r.value[i] == (date, outs[i].value)
    ensures r.Err? ==> exists i :: FailsFirstAt(outs, i, r.error)
  {
    if |outs| == 0 then Ok([])
    else
      var rest := Collect(date, outs[1..]);
      assert forall i :: 1 <= i < |outs| ==> outs[i] == outs[1..][i - 1];
      if outs[0].Err? then
        assert FailsFirstAt(outs, 0, outs[0].error);
        Err(outs[0].error)
      else if rest.Err? then
        ghost var i :| FailsFirstAt(outs[1..], i, rest.error);
        assert FailsFirstAt(outs, i + 1, rest.error);
        Err(rest.error)
      else
        Ok([(date, outs[0].value)] + rest.value)
  }

  /** The run time of every run file, in order. */
  function RunTimes(runFiles: seq<Path>): (r: seq<Outcome<string>>)
    ensures |r| == |runFiles| && forall i :: 0 <= i < |runFiles| ==> r[i] == RunTime(Stem(runFiles[i]))
  {
    seq(|runFiles|, i requires 0 <= i < |runFiles| => RunTime(Stem(runFiles[i])))
  }

  /**
   * `set_index`: one (trial date, run time) pair per run file, in order, the strings
   * handed to `pd.Timestamp.fromisoformat`; the first unparsable stem raises.
   */
  function SetIndex(date: string, runFiles: seq<Path>): (r: Outcome<seq<(string, string)>>)
    ensures r.Ok? <==> forall i :: 0 <= i < |runFiles| ==> RunTime(Stem(runFiles[i])).Ok?
    ensures r.Ok? ==> (|r.value| == |runFiles|
      && forall i :: 0 <= i < |runFiles| ==> r.value[i] == (date, RunTime(Stem(runFiles[i])).value))
    ensures r.Err? ==> exists i :: FailsFirstAt(RunTimes(runFiles), i, r.error)
  {
    Collect(date, RunTimes(runFiles))
  }

  /** The trial's directory, its run files and its run index. */
  datatype Setup = Setup(path: Path, runFiles: seq<Path>, runIndex: seq<(string, string)>)

  /**
   * `set_paths`: the trial directory is `trials / date`; `listing` is what globbing it for
   * "*.csv" yields. No run file raises FileNotFoundError.
   */
  function SetPaths(trials: Path, date: string, listing: seq<Path>): (r: Outcome<Setup>)
    ensures r.Ok? <==> |listing| > 0 && SetIndex(date, Sort(listing)).Ok?
    ensures |listing| == 0 ==> r == Err(FileNotFoundError(NO_RUNS + Str(Join(trials, Parse(date))) + "."))
    ensures r.Ok? ==> (r.value.path == Join(trials, Parse(date))
      && Sorted(r.value.runFiles) && multiset(r.value.runFiles) == multiset(listing)
      && |r.value.runIndex| == |listing|
      && forall i :: 0 <= i < |listing| ==> r.value.runIndex[i].0 == date)
  {
    var path := Join(trials, Parse(date));
    var runFiles := Sort(listing);
    assert |runFiles| == |multiset(listing)| == |listing|;
    if |runFiles| == 0 then Err(FileNotFoundError(NO_RUNS + Str(path) + "."))
    else
      var index :- SetIndex(date, runFiles);
      Ok(Setup(path, runFiles, index))
  }

  /** numpy's `+` on two 1-D arrays: equal lengths add elementwise, a length-1 array broadcasts. */
  function AddArrays(a: seq<real>, b: seq<real>): (r: Outcome<seq<real>>)
    ensures r.Ok? <==> |a| == |b| || |a| == 1 || |b| == 1
    ensures r.Ok? ==> (|r.value| == (if |a| == 1 then |b| else |a|)
      && forall i :: 0 <= i < |r.value| ==> r.value[i] == (if |a| == 1 then a[0] else a[i]) + (if |b| == 1 then b[0] else b[i]))
  {
    if |a| == |b| || |a| == 1 || |b| == 1 then
      var n := if |a| == 1 then |b| else |a|;
      Ok(seq(n, i requires 0 <= i < n => (if |a| == 1 then a[0] else a[i]) + (if |b| == 1 then b[0] else b[i])))
    else Err(ValueError(NOT_BROADCAST))
  }

  /**
   * `set_geometry`: rod and coupon offsets added and keyed by copper temperature column;
   * a missing rod or coupon raises KeyError and a length mismatch raises in the strict zip.
   */
  function SetGeometry(rods: Dict<string, seq<real>>, coupons: Dict<string, seq<real>>, rod: string, coupon: string,
                       copperTemps: seq<string>): (r: Outcome<Dict<string, real>>)
    ensures r.Ok? ==> Get(rods, rod).Some? && Get(coupons, coupon).Some?
    ensures Get(rods, rod).None? ==> r == Err(KeyError(rod))
    ensures r.Ok? ==> var pos := AddArrays(Get(rods, rod).value, Get(coupons, coupon).value);
      pos.Ok? && |pos.value| == |copperTemps|
      && (Distinct(copperTemps) ==> (Keys(r.value) == copperTemps
          && forall i :: 0 <= i < |copperTemps| ==> Get(r.value, copperTemps[i]) == Some(pos.value[i])))
  {
    match Get(rods, rod)
    case None => Err(KeyError(rod))
    case Some(rodPos) =>
      match Get(coupons, coupon)
      case None => Err(KeyError(coupon))
      case Some(couponPos) =>
        var pos :- AddArrays(rodPos, couponPos);
        var keyed :- ZipStrict(copperTemps, pos);
        if Distinct(copperTemps) then
          KeyedByZip(copperTemps, pos);
          Ok(keyed)
        else Ok(keyed)
  }
}

=== FILE: warnings.dfy ===
/**
 * Warning-filter lists: the filters a package installs so that its own deprecations
 * are errors while third-party ones are only reported, and the fixed list of filters
 * every `boiler` project installs. Installing the filters into Python's warnings
 * registry is not modelled; the operations here build the ordered lists handed to it.
 */
module Warnings {
  import opened Wrappers
  import ModuleNames

  /** The `Action` literals accepted by `warnings.filterwarnings`. */
  datatype Action = Default | Error | Ignore | Always | Module | Once

  /** The warning categories the filters name; any other class is `Other`. */
  datatype Category =
    | Warning | DeprecationWarning | PendingDeprecationWarning | EncodingWarning | FutureWarning
    | ImportWarning | RuntimeWarning | UserWarning | SyntaxWarning | Other(name: string)

  /** `WarningFilter`, the arguments of one `filterwarnings` call, with its declared defaults. */
  datatype WarningFilter = WarningFilter(
    action: Action := Ignore, message: string := "", category: Category := Warning,
    modulePattern: string := "", lineno: int := 0, append: bool := false)

  /** A filter that keeps every default except its action, category, message and module. */
  predicate Plain(f: WarningFilter) {
    f.lineno == 0 && !f.append
  }

  /** Omitted arguments take the declared defaults. */
  lemma DefaultFilter()
    ensures WarningFilter() == WarningFilter(Ignore, "", Warning, "", 0, false)
    ensures WarningFilter(action := Error) == WarningFilter(Error, "", Warning, "", 0, false)
  {
  }

  const DEFAULT_CATEGORIES := [DeprecationWarning, PendingDeprecationWarning, EncodingWarning]

  // ---------------------------------------------------------------------------
  // filter_package_warnings and filter_certain_warnings
  // ---------------------------------------------------------------------------

  /** The module pattern for every submodule of the package named `name`: `name\..*`. */
  function SubmodulePattern(name: string): string {
    name + @"\..*"
  }

  /**
   * `filter_package_warnings`: the category gets `otherAction` everywhere, then `action`
   * in the package's own submodules, so that the second, narrower filter takes precedence
   * once both are installed.
   */
  function FilterPackageWarnings(package: ModuleNames.ModuleRef, category: Category,
                                 action: Action := Error, otherAction: Action := Default): (r: (WarningFilter, WarningFilter))
    ensures r.0.category == category && r.1.category == category
    ensures r.0.action == otherAction && r.0.modulePattern == "" && r.0.message == ""
    ensures r.1.action == action && r.1.modulePattern == SubmodulePattern(ModuleNames.ModuleName(package)) && r.1.message == ""
    ensures Plain(r.0) && Plain(r.1)
  {
    (WarningFilter(action := otherAction, category := category),
     WarningFilter(action := action, category := category, modulePattern := SubmodulePattern(ModuleNames.ModuleName(package))))
  }

  /** The pairs for each category, chained in order. */
  function PackageFilters(package: ModuleNames.ModuleRef, categories: seq<Category>,
                          packageAction: Action, otherAction: Action): (r: seq<WarningFilter>)
    ensures |r| == 2 * |categories|
    ensures forall i :: 0 <= i < |categories| ==>
      && r[2 * i] == FilterPackageWarnings(package, categories[i], packageAction, otherAction).0
      && r[2 * i + 1] == FilterPackageWarnings(package, categories[i], packageAction, otherAction).1
  {
    var pairs := seq(|categories|, i requires 0 <= i < |categories| =>
      FilterPackageWarnings(package, categories[i], packageAction, otherAction));
    assert forall i :: 0 <= i < |categories| ==>
      pairs[i] == FilterPackageWarnings(package, categories[i], packageAction, otherAction);
    Unpair(pairs)
  }

  /** The pairs laid out one after the other: each pair's first item, then its second. */
  function Unpair<T>(pairs: seq<(T, T)>): (r: seq<T>)
    ensures |r| == 2 * |pairs|
    ensures forall i :: 0 <= i < |pairs| ==> r[2 * i] == pairs[i].0 && r[2 * i + 1] == pairs[i].1
  {
    if |pairs| == 0 then []
    else
      var rest := Unpair(pairs[1..]);
      var r := [pairs[0].0, pairs[0].1] + rest;
      forall i | 1 <= i < |pairs| ensures r[2 * i] == pairs[i].0 && r[2 * i + 1] == pairs[i].1 {
        var j := 2 * (i - 1);
        assert 2 * i == j + 2;
        assert pairs[i] == pairs[1..][i - 1];
      }
      r
  }

  /** The root filter: present only when a root action is given. */
  function RootFilters(rootAction: Option<Action>): (r: seq<WarningFilter>)
    ensures |r| == (if rootAction.Some? then 1 else 0)
    ensures rootAction.Some? ==> r[0] == WarningFilter(action := rootAction.value)
  {
    if rootAction.Some? then [WarningFilter(action := rootAction.value)] else []
  }

  /**
   * `filter_certain_warnings`, as the list of filters it installs in order: the optional
   * root filter, a pair per category, then the extra filters.
   */
  function FilterCertainWarnings(package: ModuleNames.ModuleRef, categories: seq<Category> := DEFAULT_CATEGORIES,
                                 rootAction: Option<Action> := Some(Error), packageAction: Action := Error,
                                 otherAction: Action := Default, otherWarnings: seq<WarningFilter> := []): (r: seq<WarningFilter>)
    ensures var root := if rootAction.Some? then 1 else 0;
      && |r| == root + 2 * |categories| + |otherWarnings|
      && (rootAction.Some? ==> r[0] == WarningFilter(action := rootAction.value))
      && (forall i :: 0 <= i < |categories| ==>
            && r[root + 2 * i] == WarningFilter(action := otherAction, category := categories[i])
            && r[root + 2 * i + 1] == WarningFilter(action := packageAction, category := categories[i],
                 modulePattern := SubmodulePattern(ModuleNames.ModuleName(package))))
      && r[root + 2 * |categories|..] == otherWarnings
  {
    var root := RootFilters(rootAction);
    var pairs := PackageFilters(package, categories, packageAction, otherAction);
    var r := root + pairs + otherWarnings;
    forall i | 0 <= i < |categories|
      ensures r[|root| + 2 * i] == pairs[2 * i] && r[|root| + 2 * i + 1] == pairs[2 * i + 1]
    {
      MiddleAt(root, pairs, otherWarnings, 2 * i);
      MiddleAt(root, pairs, otherWarnings, 2 * i + 1);
    }
    assert r[|root| + |pairs|..] == otherWarnings;
    r
  }

  lemma MiddleAt<T>(a: seq<T>, b: seq<T>, c: seq<T>, k: nat)
    requires k < |b|
    ensures (a + b + c)[|a| + k] == b[k]
  {
  }

  /** With no root action the list starts straight with the first category's pair. */
  lemma NoRootFilter(package: ModuleNames.ModuleRef, categories: seq<Category>, packageAction: Action,
                     otherAction: Action, otherWarnings: seq<WarningFilter>)
    ensures FilterCertainWarnings(package, categories, None, packageAction, otherAction, otherWarnings)
      == FilterCertainWarnings(package, categories, Some(Error), packageAction, otherAction, otherWarnings)[1..]
  {
  }

  /** Under the defaults: error everywhere, then default and error for each of the three categories. */
  lemma DefaultCertainWarnings(package: ModuleNames.ModuleRef)
    ensures var r := FilterCertainWarnings(package);
      && |r| == 7
      && r[0] == WarningFilter(action := Error)
      && r[1] == WarningFilter(action := Default, category := DeprecationWarning)
      && r[6].action == Error && r[6].category == EncodingWarning
  {
    var r := FilterCertainWarnings(package);
    assert r[1 + 2 * 2 + 1].category == DEFAULT_CATEGORIES[2];
  }

  // ---------------------------------------------------------------------------
  // filter_boiler_warnings and WARNING_FILTERS
  // ---------------------------------------------------------------------------

  /** One ignoring filter per (module, message) pair, in order. */
  function IgnoreEach(category: Category, pairs: seq<(string, string)>): (r: seq<WarningFilter>)
    ensures |r| == |pairs|
    ensures forall i :: 0 <= i < |pairs| ==>
      r[i] == WarningFilter(category := category, modulePattern := pairs[i].0, message := pairs[i].1)
  {
    seq(|pairs|, i requires 0 <= i < |pairs| => WarningFilter(category := category, modulePattern := pairs[i].0, message := pairs[i].1))
  }

  /** One ignoring filter per message, for any module. */
  function IgnoreMessages(category: Category, pattern: string, messages: seq<string>): (r: seq<WarningFilter>)
    ensures |r| == |messages|
    ensures forall i :: 0 <= i < |messages| ==>
      r[i] == WarningFilter(category := category, modulePattern := pattern, message := messages[i])
  {
    seq(|messages|, i requires 0 <= i < |messages| => WarningFilter(category := category, modulePattern := pattern, message := messages[i]))
  }

  const DEPRECATED_CALLS := IgnoreEach(DeprecationWarning, [
    (@"sys", @"Call to deprecated function \(or staticmethod\) _destroy\."),
    (@"IPython\.core\.pylabtools",
     @".+ is deprecated since IPython 8\.24, backends are managed in matplotlib and can be externally registered\."),
    (@"latexcodec\.codec", @"open_text is deprecated\. Use files\(\) instead"),
    (@"nptyping\.typing_", @"`.+` is a deprecated alias for `.+`\."),
    (@"pybtex\.plugin", @"pkg_resources is deprecated as an API\.")])

  /** The message for a deprecated namespace-package declaration of `ns`. */
  function DeclareNamespace(ns: string): string {
    @"Deprecated call to `pkg_resources\.declare_namespace\('" + ns + @"'\)`\."
  }

  const DECLARED_NAMESPACES := IgnoreMessages(DeprecationWarning, "",
    [DeclareNamespace("mpl_toolkits"), DeclareNamespace("sphinxcontrib"), DeclareNamespace("zc")])

  const HARVEST_HOOKS := IgnoreMessages(DeprecationWarning, @"pytest_harvest.*", [
    @"The hookspec pytest_harvest_xdist.+ uses old-style configuration options",
    @"The hookimpl pytest_configure uses old-style configuration options \(marks or attributes\)\."])

  const ENCODINGS := [WarningFilter(category := EncodingWarning, message := "'encoding' argument not specified")]
    + IgnoreEach(EncodingWarning, [
      (@"jupyter_client\.connect", @"'encoding' argument not specified\."),
      (@"sphinx.*", @"'encoding' argument not specified\.")])

  const FUTURE_AND_IMPORT := [
    WarningFilter(category := FutureWarning,
      message := @"A grouping was used that is not in the columns of the DataFrame and so was excluded from the result\. This grouping will be included in a future version of pandas\. Add the grouping as a column of the DataFrame to silence this warning\."),
    WarningFilter(category := ImportWarning,
      message := @"ImportDenier\.find_spec\(\) not found; falling back to find_module\(\)")]

  const RUNTIME := IgnoreMessages(RuntimeWarning, "", [
    @"Failed to disconnect .* from signal",
    @"invalid value encountered in power",
    @"numpy\.ndarray size changed, may indicate binary incompatibility\. Expected \d+ from C header, got \d+ from PyObject",
    @"Proactor event loop does not implement add_reader family of methods required for zmq.+"])

  const USER := IgnoreMessages(UserWarning, "", [
    @"The palette list has more values \(\d+\) than needed \(\d+\), which may not be intended\.",
    @"To output multiple subplots, the figure containing the passed axes is being cleared\.",
    @"\nThe palette list has fewer values \(\d+\) than needed \(\d+\) and will cycle, which may produce an uninterpretable plot\."])

  const COMBINATIONS := [
    WarningFilter(category := DeprecationWarning, message := @"invalid escape sequence"),
    WarningFilter(category := SyntaxWarning, message := @"invalid escape sequence")]

  /** `WARNING_FILTERS`, group by group in declaration order. */
  const WARNING_FILTERS := DEPRECATED_CALLS + DECLARED_NAMESPACES + HARVEST_HOOKS + ENCODINGS
    + FUTURE_AND_IMPORT + RUNTIME + USER + COMBINATIONS

  /** Every filter ignores its warnings and keeps the default line number and placement. */
  predicate AllIgnore(fs: seq<WarningFilter>) {
    forall i :: 0 <= i < |fs| ==> fs[i].action == Ignore && Plain(fs[i])
  }

  lemma AllIgnoreConcat(a: seq<WarningFilter>, b: seq<WarningFilter>)
    requires AllIgnore(a) && AllIgnore(b)
    ensures AllIgnore(a + b)
  {
    assert forall i :: |a| <= i < |a + b| ==> (a + b)[i] == b[i - |a|];
  }

  /** The fixed list holds 24 filters, and every one of them ignores rather than reports. */
  lemma WarningFiltersShape()
    ensures |WARNING_FILTERS| == 24
    ensures AllIgnore(WARNING_FILTERS)
  {
    DeprecationsIgnore();
    OthersIgnore();
    var a := DEPRECATED_CALLS + DECLARED_NAMESPACES + HARVEST_HOOKS;
    var b := ENCODINGS + FUTURE_AND_IMPORT + RUNTIME + USER + COMBINATIONS;
    assert WARNING_FILTERS == a + b;
    AllIgnoreConcat(a, b);
  }

  lemma DeprecationsIgnore()
    ensures var a := DEPRECATED_CALLS + DECLARED_NAMESPACES + HARVEST_HOOKS;
      |a| == 10 && AllIgnore(a)
  {
    AllIgnoreConcat(DEPRECATED_CALLS, DECLARED_NAMESPACES);
    AllIgnoreConcat(DEPRECATED_CALLS + DECLARED_NAMESPACES, HARVEST_HOOKS);
  }

  lemma OthersIgnore()
    ensures var b := ENCODINGS + FUTURE_AND_IMPORT + RUNTIME + USER + COMBINATIONS;
      |b| == 14 && AllIgnore(b)
  {
    AllIgnoreConcat(ENCODINGS, FUTURE_AND_IMPORT);
    AllIgnoreConcat(ENCODINGS + FUTURE_AND_IMPORT, RUNTIME);
    AllIgnoreConcat(ENCODINGS + FUTURE_AND_IMPORT + RUNTIME, USER);
    AllIgnoreConcat(ENCODINGS + FUTURE_AND_IMPORT + RUNTIME + USER, COMBINATIONS);
  }

  /** `other or []` for the optional filter lists. */
  function OrEmpty(fs: Option<seq<WarningFilter>>): (r: seq<WarningFilter>)
    ensures fs.Some? ==> r == fs.value
    ensures fs.None? ==> r == []
  {
    if fs.Some? then fs.value else []
  }

  /**
   * `filter_boiler_warnings`: report everything by default, raise on `boiler` modules,
   * then the caller's early filters, the fixed list, and the caller's late filters.
   */
  function FilterBoilerWarnings(otherWarnings: Option<seq<WarningFilter>> := None,
                                otherWarningsBefore: Option<seq<WarningFilter>> := None): seq<WarningFilter>
  {
    BoilerFilters(WARNING_FILTERS, otherWarnings, otherWarningsBefore)
  }

  const BOILER_MODULES := @"^boiler.*"

  /** The layout `filter_boiler_warnings` installs, around whatever fixed list it is given. */
  function BoilerFilters(fixed: seq<WarningFilter>, otherWarnings: Option<seq<WarningFilter>>,
                         otherWarningsBefore: Option<seq<WarningFilter>>): (r: seq<WarningFilter>)
    ensures var before := OrEmpty(otherWarningsBefore);
      var after := OrEmpty(otherWarnings);
      && |r| == 2 + |before| + |fixed| + |after|
      && r[0] == WarningFilter(action := Default)
      && r[1] == WarningFilter(action := Error, modulePattern := BOILER_MODULES)
      && r[2..2 + |before|] == before
      && r[2 + |before|..2 + |before| + |fixed|] == fixed
      && r[2 + |before| + |fixed|..] == after
  {
    [WarningFilter(action := Default), WarningFilter(action := Error, modulePattern := BOILER_MODULES)]
    + OrEmpty(otherWarningsBefore) + fixed + OrEmpty(otherWarnings)
  }

  /** Passing no extra filters is the same as passing empty lists. */
  lemma NoneIsEmpty(fixed: seq<WarningFilter>, otherWarnings: Option<seq<WarningFilter>>,
                    otherWarningsBefore: Option<seq<WarningFilter>>)
    ensures BoilerFilters(fixed, None, otherWarningsBefore) == BoilerFilters(fixed, Some([]), otherWarningsBefore)
    ensures BoilerFilters(fixed, otherWarnings, None) == BoilerFilters(fixed, otherWarnings, Some([]))
  {
  }

  /**
   * Without extra filters only the first two escalate anything, the default report and
   * the `boiler` error, as long as the fixed list only ignores.
   */
  lemma OnlyFirstTwoEscalate(fixed: seq<WarningFilter>)
    requires AllIgnore(fixed)
    ensures var r := BoilerFilters(fixed, None, None);
      && |r| == 2 + |fixed|
      && (forall i :: 2 <= i < |r| ==> r[i].action == Ignore)
      && r[1].action == Error && r[1].modulePattern == BOILER_MODULES
  {
    var r := BoilerFilters(fixed, None, None);
    assert forall i :: 2 <= i < |r| ==> r[i] == fixed[i - 2];
  }

  /** With the real fixed list: 26 filters, and only the `boiler` error among them raises. */
  lemma BoilerOnlyEscalatesOwnModules()
    ensures var r := FilterBoilerWarnings();
      && |r| == 26
      && (forall i :: 2 <= i < |r| ==> r[i].action == Ignore)
      && r[1].action == Error && r[1].modulePattern == BOILER_MODULES
  {
    WarningFiltersShape();
    OnlyFirstTwoEscalate(WARNING_FILTERS);
  }
}

=== FILE: wrappers.dfy ===
/** Failure-compatible wrappers and the Python exception classes the model raises. */
module Wrappers {

  /** A value that may be absent: Python's `None` versus a present value. */
  datatype Option<+T> = None | Some(value: T) {

    predicate IsFailure() {
      None?
    }

    function PropagateFailure<U>(): Option<U>
      requires None?
    {
      None
    }

    function Extract(): T
      requires Some?
    {
      value
    }

    /** The present value, or `default` when absent (Python's `x or default` on an optional). */
    function GetOr(default: T): T {
      match this
      case Some(v) => v
      case None => default
    }
  }

  /** Either a returned value or a raised exception. */
  datatype Result<+T, +E> = Ok(value: T) | Err(error: E) {

    predicate IsFailure() {
      Err?
    }

    function PropagateFailure<U>(): Result<U, E>
      requires Err?
    {
      Err(error)
    }

    function Extract(): T
      requires Ok?
    {
      value
    }
  }

  /** The Python exception classes raised by the modelled code, each with its message. */
  datatype Exc =
    | ValueError(message: string)
    | TypeError(message: string)
    | KeyError(key: string)
    | IndexError(message: string)
    | AttributeError(message: string)
    | FileNotFoundError(message: string)
    | FileExistsError(message: string)
    | NotADirectoryError(message: string)
    | IsADirectoryError(message: string)
    | OSError(message: string)
    | CalledProcessError(returncode: int, cmd: string, output: string, stderr: string, notes: seq<string>)

  /** Results whose failures are Python exceptions. */
  type Outcome<T> = Result<T, Exc>
}

=== FILE: yamlsync.dfy ===
/**
 * `SynchronizedPathsYamlModel`: settings read from a YAML file, with the defaults of
 * every paths-model field written back into that file as POSIX strings.
 */
module YamlSync {
  import opened Wrappers
  import opened Dict
  import opened PurePath
  import opened FileSystem
  import opened PathValues

  const NO_SOURCE_FILE := "No source file specified."
  const NOT_PATH_LIKE := "expected str, bytes or os.PathLike object, not PydanticUndefinedType"
  const NO_ITEMS := "object has no attribute 'items'"
  const NOT_SUBSCRIPTABLE := "indices must be integers"

  const SOURCE := "source"
  const ROOT := "root"

  /** A YAML node as ruamel loads it; a mapping keeps its insertion order. */
  datatype YamlValue =
    | YNull
    | YBool(b: bool)
    | YInt(i: int)
    | YStr(s: string)
    | YList(items: seq<YamlValue>)
    | YMap(entries: Dict<string, YamlValue>)

  /** Python truthiness of a loaded value. */
  predicate Truthy(v: YamlValue) {
    match v
    case YNull => false
    case YBool(b) => b
    case YInt(i) => i != 0
    case YStr(s) => s != ""
    case YList(xs) => |xs| > 0
    case YMap(d) => |d| > 0
  }

  /** `[r for r in req if r != x]`. */
  function Without(xs: seq<string>, x: string): (r: seq<string>)
    ensures x !in r
    ensures forall y | y in r :: y in xs
    ensures forall y | y in xs && y != x :: y in r
    ensures x !in xs ==> r == xs
  {
    if |xs| == 0 then []
    else if xs[0] == x then Without(xs[1..], x)
    else [xs[0]] + Without(xs[1..], x)
  }

  /** Removing an entry keeps the others in order: it distributes over concatenation. */
  lemma {:induction false} WithoutAppend(xs: seq<string>, ys: seq<string>, x: string)
    ensures Without(xs + ys, x) == Without(xs, x) + Without(ys, x)
    decreases |xs|
  {
    if |xs| > 0 {
      assert (xs + ys)[1..] == xs[1..] + ys;
      WithoutAppend(xs[1..], ys, x);
    } else {
      assert xs + ys == ys;
    }
  }

  /**
   * `yaml_json_schema_extra`: the schema's `required` list without "source". A missing
   * or empty list is left as it is.
   */
  function SchemaRequired(required: Option<seq<string>>): (r: Option<seq<string>>)
    ensures required.None? ==> r.None?
    ensures required.Some? ==> (r.Some? && SOURCE !in r.value
      && (forall y | y in required.value && y != SOURCE :: y in r.value)
      && (forall y | y in r.value :: y in required.value))
  {
    match required
    case None => None
    case Some(req) => if |req| == 0 then required else Some(Without(req, SOURCE))
  }

  /** `source.with_name(f"{source.stem}_schema.json")`. */
  function SchemaPath(source: Path): (r: Outcome<Path>)
    ensures r.Ok? <==> Name(source) != "" && Segment(Stem(source) + "_schema.json")
    ensures r.Ok? ==> Parent(r.value) == Parent(source) && Name(r.value) == Stem(source) + "_schema.json"
  {
    WithName(source, Stem(source) + "_schema.json")
  }

  /** The schema file next to `source` receives the serialised schema and a final newline. */
  function WriteSchema(fs: FS, source: Path, schemaJson: string): (r: Outcome<FS>)
    ensures r.Ok? ==> (SchemaPath(source).Ok?
      && r.value.files == fs.files[SchemaPath(source).value := schemaJson + "\n"]
      && r.value.dirs == fs.dirs)
  {
    var schema :- SchemaPath(source);
    WriteText(fs, schema, schemaJson + "\n")
  }

  /**
   * A field's default as `get_default(call_default_factory=True)` returns it: pydantic's
   * undefined marker for a required field (a truthy object), `None`, or a value.
   */
  datatype Default<T> = Undefined | NoneDefault | Given(value: T)

  /**
   * `get_yaml_file`: the truthy init argument, else the truthy field default, touched
   * into existence when missing. A `None` default is a ValueError; the undefined default
   * of a required `source` is truthy and reaches `Path(...)`, which raises TypeError.
   */
  function YamlFile(fs: FS, init: Option<Path>, default: Default<Path>): (r: Outcome<(Path, FS)>)
    ensures init.Some? ==> (r.Ok? <==> Touch(fs, init.value).Ok?)
    ensures init.Some? && r.Ok? ==> r.value.0 == init.value
    ensures init.None? && default.Given? ==> (r.Ok? <==> Touch(fs, default.value).Ok?)
    ensures init.None? && default.Given? && r.Ok? ==> r.value.0 == default.value
    ensures init.None? && default.Undefined? ==> r == Err(TypeError(NOT_PATH_LIKE))
    ensures init.None? && default.NoneDefault? ==> r == Err(ValueError(NO_SOURCE_FILE))
    ensures r.Ok? ==> Exists(r.value.1, r.value.0) && r.value.1.dirs == fs.dirs
    ensures r.Ok? && Exists(fs, r.value.0) ==> r.value.1 == fs
  {
    match (init, default)
    case (Some(p), _) => var fs' :- Touch(fs, p); Ok((p, fs'))
    case (None, Given(p)) => var fs' :- Touch(fs, p); Ok((p, fs'))
    case (None, Undefined) => Err(TypeError(NOT_PATH_LIKE))
    case (None, NoneDefault) => Err(ValueError(NO_SOURCE_FILE))
  }

  /** A settings field: its name and whether its type is a paths model. */
  datatype SettingsField = SettingsField(name: string, isPathsModel: bool, default: Default<Dump>)

  /** `model.model_dump()` of a paths model, or a mapping passed in its place. */
  type Dump = Dict<string, PathOrPaths<Path>>

  /** Python truthiness of a paths-model default: the undefined marker is truthy, `None` is not, a mapping when non-empty. */
  predicate TruthyDefault(d: Default<Dump>) {
    match d
    case Undefined => true
    case NoneDefault => false
    case Given(v) => |v| > 0
  }

  /** The settings fields' names, in order: the named-field projection `Hashes.Names` makes of a signature's parameters. */
  function FieldNames(fields: seq<SettingsField>): (r: seq<string>)
    ensures |r| == |fields| && forall i :: 0 <= i < |fields| ==> r[i] == fields[i].name
  {
    seq(|fields|, i requires 0 <= i < |fields| => fields[i].name)
  }

  /** The names of the fields whose type is a paths model. */
  function PathsFields(fields: seq<SettingsField>): set<string> {
    set j | 0 <= j < |fields| && fields[j].isPathsModel :: fields[j].name
  }

  /**
   * `DefaultPathsSettingsSource`: for each paths-model field in order, the truthy init
   * value, else the truthy default (the undefined default of a required field among
   * them); a field with neither is left out. Every stored value is truthy.
   */
  function DefaultPathsSource(fields: seq<SettingsField>, initPaths: Dict<string, Dump>): (r: Dict<string, Default<Dump>>)
    ensures forall i :: 0 <= i < |r| ==> r[i].0 in PathsFields(fields) && TruthyDefault(r[i].1)
    ensures forall i :: 0 <= i < |fields| && fields[i].isPathsModel ==>
      match Get(initPaths, fields[i].name)
      case Some(v) => |v| > 0 ==> (fields[i].name, Given(v)) in r
      case None => true
  {
    if |fields| == 0 then []
    else
      var f := fields[0];
      var rest := DefaultPathsSource(fields[1..], initPaths);
      assert forall i :: 1 <= i < |fields| ==> fields[i] == fields[1..][i - 1];
      assert PathsFields(fields[1..]) <= PathsFields(fields);
      if !f.isPathsModel then rest
      else match Get(initPaths, f.name)
        case Some(v) =>
          if |v| > 0 then [(f.name, Given(v))] + rest
          else if TruthyDefault(f.default) then [(f.name, f.default)] + rest
          else rest
        case None =>
          if TruthyDefault(f.default) then [(f.name, f.default)] + rest
          else rest
  }

  /** A truthy value passed for, or defaulted by, a paths-model field: a non-empty dump. */
  predicate TruthyDump(v: Option<Dump>) {
    v.Some? && |v.value| > 0
  }

  /**
   * With the distinct field names of a model, every key occurs once and a paths-model
   * field reads back as its truthy init value, else its truthy default (a required
   * field's undefined marker included), else is absent.
   */
  lemma {:induction false} DefaultPathsSourceGet(fields: seq<SettingsField>, initPaths: Dict<string, Dump>, i: nat)
    requires DistinctNames(fields) && i < |fields| && fields[i].isPathsModel
    ensures DistinctKeys(DefaultPathsSource(fields, initPaths))
    ensures TruthyDump(Get(initPaths, fields[i].name)) ==>
      Get(DefaultPathsSource(fields, initPaths), fields[i].name) == Some(Given(Get(initPaths, fields[i].name).value))
    ensures !TruthyDump(Get(initPaths, fields[i].name)) && TruthyDefault(fields[i].default) ==>
      Get(DefaultPathsSource(fields, initPaths), fields[i].name) == Some(fields[i].default)
    ensures !TruthyDump(Get(initPaths, fields[i].name)) && !TruthyDefault(fields[i].default) ==>
      fields[i].name !in Keys(DefaultPathsSource(fields, initPaths))
  {
    DefaultPathsSourceKeys(fields, initPaths);
    var tl := fields[1..];
    var rest := DefaultPathsSource(tl, initPaths);
    var head := SourceEntry(fields[0], initPaths);
    DefaultPathsSourceCons(fields, initPaths);
    DistinctNamesTail(fields);
    var name := fields[i].name;
    GetAppend(head, rest, name);
    if i == 0 {
      assert name !in PathsFields(tl);
      assert name !in Keys(rest);
    } else {
      assert tl[i - 1] == fields[i];
      DefaultPathsSourceGet(tl, initPaths, i - 1);
      assert name !in Keys(head);
    }
  }

  /** The entry one field contributes: the truthy init value, else the truthy default, for a paths-model field. */
  function SourceEntry(f: SettingsField, initPaths: Dict<string, Dump>): Dict<string, Default<Dump>> {
    if !f.isPathsModel then []
    else if TruthyDump(Get(initPaths, f.name)) then [(f.name, Given(Get(initPaths, f.name).value))]
    else if TruthyDefault(f.default) then [(f.name, f.default)]
    else []
  }

  lemma DefaultPathsSourceCons(fields: seq<SettingsField>, initPaths: Dict<string, Dump>)
    requires |fields| > 0
    ensures DefaultPathsSource(fields, initPaths) == SourceEntry(fields[0], initPaths) + DefaultPathsSource(fields[1..], initPaths)
  {
  }

  lemma DistinctNamesTail(fields: seq<SettingsField>)
    requires |fields| > 0 && DistinctNames(fields)
    ensures DistinctNames(fields[1..]) && fields[0].name !in PathsFields(fields[1..])
  {
    forall a, b | 0 <= a < b < |fields[1..]| ensures fields[1..][a].name != fields[1..][b].name {
      assert fields[1..][a] == fields[a + 1] && fields[1..][b] == fields[b + 1];
    }
  }

  /** With distinct field names, the source's keys are distinct. */
  lemma {:induction false} DefaultPathsSourceKeys(fields: seq<SettingsField>, initPaths: Dict<string, Dump>)
    requires DistinctNames(fields)
    ensures DistinctKeys(DefaultPathsSource(fields, initPaths))
  {
    if |fields| > 0 {
      var rest := DefaultPathsSource(fields[1..], initPaths);
      DistinctNamesTail(fields);
      DefaultPathsSourceKeys(fields[1..], initPaths);
      DefaultPathsSourceCons(fields, initPaths);
      assert forall j :: 0 <= j < |rest| ==> rest[j].0 != fields[0].name;
    }
  }

  /** The string written for a path: relative to the YAML file's directory when asked and possible, else as is. */
  function PosixFor(yamlDir: Path, sourceRelative: bool, p: Path): (r: string)
    ensures sourceRelative && IsRelativeTo(p, yamlDir) ==> r == Str(RelativeTo(p, yamlDir).value)
    ensures !(sourceRelative && IsRelativeTo(p, yamlDir)) ==> r == Str(p)
  {
    if sourceRelative && IsRelativeTo(p, yamlDir) then Str(RelativeTo(p, yamlDir).value) else Str(p)
  }

  /**
   * Reading a written string back against the YAML file's directory recovers the path,
   * for every well-formed path that is absolute or lies under that directory.
   */
  lemma PosixForRoundTrip(yamlDir: Path, sourceRelative: bool, p: Path)
    requires WellFormed(p)
    requires p.absolute || (sourceRelative && IsRelativeTo(p, yamlDir))
    ensures Join(yamlDir, Parse(PosixFor(yamlDir, sourceRelative, p))) == p
  {
    if sourceRelative && IsRelativeTo(p, yamlDir) {
      var rel := RelativeTo(p, yamlDir).value;
      ParseStr(rel);
    } else {
      ParseStr(p);
    }
  }

  function ToYaml(v: PathOrPaths<string>): YamlValue {
    match v
    case Single(s) => YStr(s)
    case Many(xs) => YList(seq(|xs|, i requires 0 <= i < |xs| => YStr(xs[i])))
    case Named(d) => YMap(seq(|d|, i requires 0 <= i < |d| => (d[i].0, YStr(d[i].1))))
    case Other(_, _) => YNull
  }

  /**
   * The mapping written back for one paths-model field: every non-root field of the
   * dump, with each path replaced by its POSIX string.
   */
  function SyncedEntries(kept: Dump, f: Path -> string): (r: Outcome<Dict<string, YamlValue>>)
    ensures r.Ok? <==> forall i :: 0 <= i < |kept| ==> !kept[i].1.Other?
    ensures r.Ok? ==> Keys(r.value) == Keys(kept)
    ensures r.Ok? ==> forall i :: 0 <= i < |kept| ==> r.value[i].1 == ToYaml(Apply(kept[i].1, f).value)
    ensures r.Err? ==> r.error.ValueError?
  {
    if |kept| == 0 then Ok([])
    else
      var v :- Apply(kept[0].1, f);
      var rest :- SyncedEntries(kept[1..], f);
      assert forall i :: 1 <= i < |kept| ==> kept[i] == kept[1..][i - 1];
      Ok([(kept[0].0, ToYaml(v))] + rest)
  }

  /**
   * The mapping written back for one paths-model field: every non-root field of the
   * dump, with each path replaced by its POSIX string.
   */
  function SyncedPaths(dump: Dump, yamlDir: Path, sourceRelative: bool): (r: Outcome<Dict<string, YamlValue>>)
    ensures r.Ok? <==> forall i :: 0 <= i < |dump| && dump[i].0 != ROOT ==> !dump[i].1.Other?
    ensures r.Ok? ==> ROOT !in Keys(r.value)
    ensures r.Err? ==> r.error.ValueError?
    ensures r.Ok? ==> forall i :: 0 <= i < |dump| && dump[i].0 != ROOT ==> dump[i].0 in Keys(r.value)
  {
    SyncedEntries(FilterKeys(dump, k => k != ROOT), p => PosixFor(yamlDir, sourceRelative, p))
  }

  /** What the settings source hands on (`init_kwargs`) and the mapping it dumps back to the file. */
  datatype SyncResult = SyncResult(kwargs: Dict<string, YamlValue>, written: Dict<string, YamlValue>)

  /** The dump stored for a field: absent when the field was left out or holds a marker or `None` instead of a mapping. */
  function StoredDump(defaultPaths: Dict<string, Default<Dump>>, name: string): Option<Dump> {
    var stored := Get(defaultPaths, name);
    if stored.Some? && stored.value.Given? then Some(stored.value.value) else None
  }

  /** Every paths-model field (other than "source") has a dump whose non-root values are all path-shaped. */
  predicate Syncable(fields: seq<SettingsField>, defaultPaths: Dict<string, Default<Dump>>, yamlDir: Path, sourceRelative: bool) {
    forall i :: 0 <= i < |fields| && fields[i].name != SOURCE && fields[i].isPathsModel ==>
      StoredDump(defaultPaths, fields[i].name).Some?
      && SyncedPaths(StoredDump(defaultPaths, fields[i].name).value, yamlDir, sourceRelative).Ok?
  }

  /** The loop over the model's fields in `NonPathsModelYamlConfigSettingsSource.__init__`. */
  function SyncFields(fields: seq<SettingsField>, defaultPaths: Dict<string, Default<Dump>>, loaded: Dict<string, YamlValue>,
                      yamlDir: Path, sourceRelative: bool,
                      source: Dict<string, YamlValue>, kwargs: Dict<string, YamlValue>): (r: Outcome<SyncResult>)
    ensures r.Ok? <==> Syncable(fields, defaultPaths, yamlDir, sourceRelative)
    ensures r.Err? ==> r.error.KeyError? || r.error.AttributeError? || r.error.ValueError?
    decreases |fields|
  {
    if |fields| == 0 then Ok(SyncResult(kwargs, source))
    else
      var f := fields[0];
      assert forall i :: 1 <= i < |fields| ==> fields[i] == fields[1..][i - 1];
      if f.name == SOURCE then SyncFields(fields[1..], defaultPaths, loaded, yamlDir, sourceRelative, source, kwargs)
      else if f.isPathsModel then
        var stored := Get(defaultPaths, f.name);
        if stored.None? then Err(KeyError(f.name))
        else if !stored.value.Given? then Err(AttributeError(NO_ITEMS))
        else
          var dump := stored.value.value;
          var synced :- SyncedPaths(dump, yamlDir, sourceRelative);
          SyncFields(fields[1..], defaultPaths, loaded, yamlDir, sourceRelative, Put(source, f.name, YMap(synced)), kwargs)
      else
        var kwargs' := if Get(loaded, f.name).Some? && Truthy(Get(loaded, f.name).value)
                       then Put(kwargs, f.name, Get(loaded, f.name).value) else kwargs;
        SyncFields(fields[1..], defaultPaths, loaded, yamlDir, sourceRelative, source, kwargs')
  }

  predicate DistinctNames(fields: seq<SettingsField>) {
    forall i, j :: 0 <= i < j < |fields| ==> fields[i].name != fields[j].name
  }

  /** What a recognised field that is neither "source" nor a paths model forwards: its loaded value, when truthy. */
  function Forwarded(loaded: Dict<string, YamlValue>, name: string): Option<YamlValue> {
    if Get(loaded, name).Some? && Truthy(Get(loaded, name).value) then Get(loaded, name) else None
  }

  /** A paths-model field other than "source" has a dump that synchronises. */
  predicate StepOk(f: SettingsField, defaultPaths: Dict<string, Default<Dump>>, yamlDir: Path, sourceRelative: bool) {
    f.name != SOURCE && f.isPathsModel ==>
      StoredDump(defaultPaths, f.name).Some? && SyncedPaths(StoredDump(defaultPaths, f.name).value, yamlDir, sourceRelative).Ok?
  }

  /** The written mapping after one field: a paths-model field other than "source" is rewritten. */
  function SourceAfter(f: SettingsField, defaultPaths: Dict<string, Default<Dump>>, yamlDir: Path, sourceRelative: bool,
                       source: Dict<string, YamlValue>): Dict<string, YamlValue>
    requires StepOk(f, defaultPaths, yamlDir, sourceRelative)
  {
    if f.name != SOURCE && f.isPathsModel
    then Put(source, f.name, YMap(SyncedPaths(StoredDump(defaultPaths, f.name).value, yamlDir, sourceRelative).value))
    else source
  }

  /** The forwarded settings after one field: a plain field other than "source" is forwarded when truthy. */
  function KwargsAfter(f: SettingsField, loaded: Dict<string, YamlValue>, kwargs: Dict<string, YamlValue>): Dict<string, YamlValue> {
    if f.name != SOURCE && !f.isPathsModel && Forwarded(loaded, f.name).Some?
    then Put(kwargs, f.name, Forwarded(loaded, f.name).value)
    else kwargs
  }

  /** The loop's first iteration, with the rest of the loop run from the updated mappings. */
  lemma SyncFieldsStep(fields: seq<SettingsField>, defaultPaths: Dict<string, Default<Dump>>,
                       loaded: Dict<string, YamlValue>, yamlDir: Path, sourceRelative: bool,
                       source: Dict<string, YamlValue>, kwargs: Dict<string, YamlValue>)
    requires |fields| > 0
    requires SyncFields(fields, defaultPaths, loaded, yamlDir, sourceRelative, source, kwargs).Ok?
    ensures StepOk(fields[0], defaultPaths, yamlDir, sourceRelative)
    ensures SyncFields(fields, defaultPaths, loaded, yamlDir, sourceRelative, source, kwargs)
      == SyncFields(fields[1..], defaultPaths, loaded, yamlDir, sourceRelative,
                    SourceAfter(fields[0], defaultPaths, yamlDir, sourceRelative, source),
                    KwargsAfter(fields[0], loaded, kwargs))
  {
  }

  /** One field's entries in what the loop hands on and writes back. */
  predicate FieldSynced(r: SyncResult, f: SettingsField, defaultPaths: Dict<string, Default<Dump>>,
                        loaded: Dict<string, YamlValue>, yamlDir: Path, sourceRelative: bool,
                        source: Dict<string, YamlValue>, kwargs: Dict<string, YamlValue>)
  {
    if f.name == SOURCE then
      Get(r.kwargs, SOURCE) == Get(kwargs, SOURCE) && Get(r.written, SOURCE) == Get(source, SOURCE)
    else if f.isPathsModel then
      Get(r.kwargs, f.name) == Get(kwargs, f.name)
      && StoredDump(defaultPaths, f.name).Some? && SyncedPaths(StoredDump(defaultPaths, f.name).value, yamlDir, sourceRelative).Ok?
      && Get(r.written, f.name) == Some(YMap(SyncedPaths(StoredDump(defaultPaths, f.name).value, yamlDir, sourceRelative).value))
    else
      Get(r.written, f.name) == Get(source, f.name)
      && Get(r.kwargs, f.name) == if Forwarded(loaded, f.name).Some? then Forwarded(loaded, f.name) else Get(kwargs, f.name)
  }

  /**
   * With distinct field names the loop leaves every other key alone and settles each
   * field's entries as `FieldSynced` describes.
   */
  lemma {:induction false} SyncFieldsContents(fields: seq<SettingsField>, defaultPaths: Dict<string, Default<Dump>>,
                                              loaded: Dict<string, YamlValue>, yamlDir: Path, sourceRelative: bool,
                                              source: Dict<string, YamlValue>, kwargs: Dict<string, YamlValue>)
    requires DistinctNames(fields)
    requires SyncFields(fields, defaultPaths, loaded, yamlDir, sourceRelative, source, kwargs).Ok?
    ensures var r := SyncFields(fields, defaultPaths, loaded, yamlDir, sourceRelative, source, kwargs).value;
      forall k | k !in FieldNames(fields) :: Get(r.written, k) == Get(source, k) && Get(r.kwargs, k) == Get(kwargs, k)
    ensures var r := SyncFields(fields, defaultPaths, loaded, yamlDir, sourceRelative, source, kwargs).value;
      forall i | 0 <= i < |fields| :: FieldSynced(r, fields[i], defaultPaths, loaded, yamlDir, sourceRelative, source, kwargs)
    decreases |fields|
  {
    if |fields| > 0 {
      var f := fields[0];
      var tl := fields[1..];
      assert forall i :: 1 <= i < |fields| ==> fields[i] == tl[i - 1];
      assert DistinctNames(tl);
      assert f.name !in FieldNames(tl);
      assert forall k | k !in FieldNames(fields) :: k != f.name && k !in FieldNames(tl);
      SyncFieldsStep(fields, defaultPaths, loaded, yamlDir, sourceRelative, source, kwargs);
      var source' := SourceAfter(f, defaultPaths, yamlDir, sourceRelative, source);
      var kwargs' := KwargsAfter(f, loaded, kwargs);
      SyncFieldsContents(tl, defaultPaths, loaded, yamlDir, sourceRelative, source', kwargs');
      var r := SyncFields(fields, defaultPaths, loaded, yamlDir, sourceRelative, source, kwargs).value;
      forall k | k != f.name ensures Get(source', k) == Get(source, k) && Get(kwargs', k) == Get(kwargs, k) {
        PutGetOther(source, f, defaultPaths, yamlDir, sourceRelative, loaded, kwargs, k);
      }
      forall i | 1 <= i < |fields|
        ensures FieldSynced(r, fields[i], defaultPaths, loaded, yamlDir, sourceRelative, source, kwargs)
      {
        assert fields[i] == tl[i - 1] && fields[i].name != f.name;
        FieldSyncedFrame(r, fields[i], defaultPaths, loaded, yamlDir, sourceRelative, source, kwargs, source', kwargs');
      }
      assert FieldSynced(r, f, defaultPaths, loaded, yamlDir, sourceRelative, source, kwargs) by {
        PutGetOther(source, f, defaultPaths, yamlDir, sourceRelative, loaded, kwargs, f.name);
      }
    }
  }

  /** A field's entries do not depend on the mappings' other keys. */
  lemma FieldSyncedFrame(r: SyncResult, f: SettingsField, defaultPaths: Dict<string, Default<Dump>>,
                         loaded: Dict<string, YamlValue>, yamlDir: Path, sourceRelative: bool,
                         source: Dict<string, YamlValue>, kwargs: Dict<string, YamlValue>,
                         source': Dict<string, YamlValue>, kwargs': Dict<string, YamlValue>)
    requires Get(source', f.name) == Get(source, f.name) && Get(kwargs', f.name) == Get(kwargs, f.name)
    requires FieldSynced(r, f, defaultPaths, loaded, yamlDir, sourceRelative, source', kwargs')
    ensures FieldSynced(r, f, defaultPaths, loaded, yamlDir, sourceRelative, source, kwargs)
  {
  }

  /** One field's update reads back as written under its own name and changes no other key. */
  lemma PutGetOther(source: Dict<string, YamlValue>, f: SettingsField, defaultPaths: Dict<string, Default<Dump>>,
                    yamlDir: Path, sourceRelative: bool, loaded: Dict<string, YamlValue>, kwargs: Dict<string, YamlValue>, k: string)
    requires StepOk(f, defaultPaths, yamlDir, sourceRelative)
    ensures k != f.name ==> Get(SourceAfter(f, defaultPaths, yamlDir, sourceRelative, source), k) == Get(source, k)
    ensures k != f.name ==> Get(KwargsAfter(f, loaded, kwargs), k) == Get(kwargs, k)
    ensures f.name != SOURCE && f.isPathsModel ==>
      Get(SourceAfter(f, defaultPaths, yamlDir, sourceRelative, source), f.name)
      == Some(YMap(SyncedPaths(StoredDump(defaultPaths, f.name).value, yamlDir, sourceRelative).value))
    ensures f.name != SOURCE && !f.isPathsModel && Forwarded(loaded, f.name).Some? ==>
      Get(KwargsAfter(f, loaded, kwargs), f.name) == Forwarded(loaded, f.name)
  {
    if f.name != SOURCE && f.isPathsModel {
      var v := YMap(SyncedPaths(StoredDump(defaultPaths, f.name).value, yamlDir, sourceRelative).value);
      PutGet(source, f.name, v, k);
      PutGet(source, f.name, v, f.name);
    }
    if f.name != SOURCE && !f.isPathsModel && Forwarded(loaded, f.name).Some? {
      PutGet(kwargs, f.name, Forwarded(loaded, f.name).value, k);
      PutGet(kwargs, f.name, Forwarded(loaded, f.name).value, f.name);
    }
  }

  /**
   * `yaml.load(yaml_path) or {} if yaml_path.exists() else {}`, indexed by field name:
   * `loaded` is `None` for a missing file. A falsy load is empty and a mapping gives its
   * entries; any other top-level value cannot be indexed by a field name.
   */
  function RuamelSource(loaded: Option<YamlValue>): (r: Outcome<Dict<string, YamlValue>>)
    ensures loaded.None? || !Truthy(loaded.value) ==> r == Ok([])
    ensures loaded.Some? && loaded.value.YMap? ==> r == Ok(loaded.value.entries)
    ensures r.Ok? <==> loaded.None? || !Truthy(loaded.value) || loaded.value.YMap?
    ensures r.Err? ==> r.error.TypeError?
  {
    match loaded
    case None => Ok([])
    case Some(v) =>
      if !Truthy(v) then Ok([])
      else if v.YMap? then Ok(v.entries)
      else Err(TypeError(NOT_SUBSCRIPTABLE))
  }

  /**
   * `NonPathsModelYamlConfigSettingsSource(settings_cls, default_paths, yaml_file)`. The
   * file is read twice: `loaded` is ruamel's load, which supplies the unknown keys and the
   * mapping written back, and `settingsLoad` is the mapping pydantic-settings' own YAML
   * reader put in `init_kwargs`, from which recognised plain fields are forwarded.
   */
  function NonPathsYamlSource(fields: seq<SettingsField>, defaultPaths: Dict<string, Default<Dump>>,
                              loaded: Option<YamlValue>, settingsLoad: Dict<string, YamlValue>,
                              yamlFile: Path, sourceRelative: bool)
    : (r: Outcome<SyncResult>)
    ensures r.Ok? <==> RuamelSource(loaded).Ok? && Syncable(fields, defaultPaths, Parent(yamlFile), sourceRelative)
    ensures RuamelSource(loaded).Err? ==> r == Err(RuamelSource(loaded).error)
  {
    var source :- RuamelSource(loaded);
    var names := FieldNames(fields);
    var extras := FilterKeys(source, k => k !in names && k != SOURCE);
    SyncFields(fields, defaultPaths, settingsLoad, Parent(yamlFile), sourceRelative, source, extras)
  }

  /**
   * A required paths-model field given no truthy init value is stored as pydantic's
   * undefined marker, which has no `items`: the YAML source then cannot succeed.
   */
  lemma RequiredPathsFieldRaises(fields: seq<SettingsField>, initPaths: Dict<string, Dump>,
                                 loaded: Option<YamlValue>, settingsLoad: Dict<string, YamlValue>,
                                 yamlFile: Path, sourceRelative: bool, i: nat)
    requires DistinctNames(fields) && i < |fields| && fields[i].isPathsModel && fields[i].name != SOURCE
    requires fields[i].default == Undefined && !TruthyDump(Get(initPaths, fields[i].name))
    ensures Get(DefaultPathsSource(fields, initPaths), fields[i].name) == Some(Undefined)
    ensures NonPathsYamlSource(fields, DefaultPathsSource(fields, initPaths), loaded, settingsLoad, yamlFile, sourceRelative).Err?
  {
    DefaultPathsSourceGet(fields, initPaths, i);
    assert StoredDump(DefaultPathsSource(fields, initPaths), fields[i].name).None?;
  }

  /**
   * The settings the YAML source hands on and the mapping it writes back:
   * unknown keys pass through to both; recognised plain fields are forwarded only when
   * truthy; "source" and paths-model fields are never forwarded, and each paths-model
   * field is rewritten with its synchronised paths.
   */
  lemma NonPathsYamlSourceContents(fields: seq<SettingsField>, defaultPaths: Dict<string, Default<Dump>>,
                                   loaded: Option<YamlValue>, settingsLoad: Dict<string, YamlValue>,
                                   yamlFile: Path, sourceRelative: bool)
    requires DistinctNames(fields)
    requires NonPathsYamlSource(fields, defaultPaths, loaded, settingsLoad, yamlFile, sourceRelative).Ok?
    ensures var source := RuamelSource(loaded).value;
      var r := NonPathsYamlSource(fields, defaultPaths, loaded, settingsLoad, yamlFile, sourceRelative).value;
      (forall k | k !in FieldNames(fields) && k != SOURCE ::
        Get(r.kwargs, k) == Get(source, k) && Get(r.written, k) == Get(source, k))
      && Get(r.kwargs, SOURCE) == None && Get(r.written, SOURCE) == Get(source, SOURCE)
      && (forall i | 0 <= i < |fields| && fields[i].name != SOURCE ::
        if fields[i].isPathsModel then
          Get(r.kwargs, fields[i].name) == None
          && Get(r.written, fields[i].name)
             == Some(YMap(SyncedPaths(StoredDump(defaultPaths, fields[i].name).value, Parent(yamlFile), sourceRelative).value))
        else
          Get(r.kwargs, fields[i].name) == Forwarded(settingsLoad, fields[i].name)
          && Get(r.written, fields[i].name) == Get(source, fields[i].name))
  {
    var source := RuamelSource(loaded).value;
    var names := FieldNames(fields);
    var keep := k => k !in names && k != SOURCE;
    var extras := FilterKeys(source, keep);
    SyncFieldsContents(fields, defaultPaths, settingsLoad, Parent(yamlFile), sourceRelative, source, extras);
    forall k ensures Get(extras, k) == if keep(k) then Get(source, k) else None {
      FilterKeysGet(source, keep, k);
    }
  }

  /**
   * A missing YAML file is empty to both readers: it forwards nothing and is rewritten
   * with the paths-model fields only.
   */
  lemma MissingFileForwardsNothing(fields: seq<SettingsField>, defaultPaths: Dict<string, Default<Dump>>, yamlFile: Path, sourceRelative: bool, k: string)
    requires DistinctNames(fields)
    requires NonPathsYamlSource(fields, defaultPaths, None, [], yamlFile, sourceRelative).Ok?
    ensures Get(NonPathsYamlSource(fields, defaultPaths, None, [], yamlFile, sourceRelative).value.kwargs, k) == None
    ensures Get(NonPathsYamlSource(fields, defaultPaths, None, [], yamlFile, sourceRelative).value.written, k).Some?
      ==> k in PathsFields(fields) && k != SOURCE
  {
    NonPathsYamlSourceContents(fields, defaultPaths, None, [], yamlFile, sourceRelative);
    if k in FieldNames(fields) && k != SOURCE {
      var i :| 0 <= i < |fields| && fields[i].name == k;
      if fields[i].isPathsModel {
        assert k in PathsFields(fields);
      }
    }
  }
}
